=== FILE: README.md ===
# Rescue rover navigation core, in Dafny

This project models the decision logic of a rescue rover's navigation software
and proves properties of it. The rover service is reached over HTTP. Everything
the code learns from the network or the clock is an input to the model:

- **Direction resolver** (`RoverDirection`). From the heading and one reading
  each of RFID, IR, ultrasonic and accelerometer, it picks Forward, Backward,
  Left or Right, or reports Reached. Malformed readings get neutral defaults,
  and any fault gives Forward.
- **Grid path planner** (`Pathfinding`). Unit-cost Dijkstra over the four
  orthogonal neighbours. The queue is ordered by (cost, x, y), the search stops
  once the goal is popped, and the path is rebuilt from predecessor links.
- **Auto-navigation step** of the web app:
  - `RechargeCheck`: the "needs recharge" test on the status payload.
  - `SensorExtraction`: reading the four sensor fields for the resolver.
  - `AutoNavigate`: the step itself, ending in a supply drop, a move, a
    recharge or a failure; plus the navigation thread's exit test on the status.
- **Payload normalisation** (`SensorPayload`). Done by the sensor-data endpoint
  before the web page sees the payload.
- **Two battery managers**. `NavBattery` keeps thresholds, a recharge loop and
  status texts. `HysteresisBattery` is the rescue rover's charging monitor, fed the
  decoded level the service reports, with a hysteresis band.
- **Two survivor detectors**. `SensorHandler` works on per-sensor dict readings
  and also detects obstacles. `FetchedSensorHandler` reads one flat fetched
  payload.
- **Forward-move gate** (`RoverNavigation`). Battery and communication first,
  then the survivor check, then the obstacle check.

Python values are modelled by `PyValue.Value`:

- None, bool, number (int and float as `real`; bool counts as a number), string,
  list, tuple, and dict as a sequence of entries where the first matching key
  wins.
- Exceptions are `Raise(exc)` results, so the code's error paths (`TypeError`,
  `KeyError`, `AttributeError`, `ValueError`, `StopIteration`) are part of every
  contract.

The planner's behaviour at the edges (Navigation/pathfinding.py:13, 18-19 and 31-37):

- The path includes the start cell, so `start == goal` gives `[start]`.
- An unreachable goal gives `[goal]`: the rebuild starts from the goal and finds
  no predecessor.
- The queue pops the least (cost, x, y) entry, so equal-cost entries are taken
  in cell-coordinate order.

## Model

| member | source | states |
|---|---|---|
| `RoverDirection.Name` | working_auto_navigating/rover_direction.py:74-97 | the resolver only ever answers one of the five direction names |
| `RoverDirection.Heading` | working_auto_navigating/rover_direction.py:17-20 | a missing heading becomes "forward", a string is lowercased (A to Z and the Kelvin sign fold to ASCII), and any other value raises |
| `RoverDirection.KelvinHeading` | working_auto_navigating/rover_direction.py:20 | "BAC\u212aWARD" (K written as the Kelvin sign) lowercases to "backward", as Python's `.lower()` gives |
| `PyValue.LowerChar` | working_auto_navigating/rover_direction.py:20 | A to Z lowercase to a to z, the Kelvin sign to 'k', and every other character is kept |
| `RoverDirection.Axes` | working_auto_navigating/rover_direction.py:23-39 | x and y are the first two items of a list or tuple; missing items and non-sequences give 0 |
| `RoverDirection.UltrasonicReading` | working_auto_navigating/rover_direction.py:41-62 | distance and detection come from the first two items of a list or tuple, defaulting to (0, False); a distance `float()` rejects becomes 0; detection is the truthiness of the second item |
| `RoverDirection.Expected` | working_auto_navigating/rover_direction.py:70-71 | the expected acceleration along an axis is +1 along the heading, -1 against it, else 0 |
| `RoverDirection.Drift` | working_auto_navigating/rover_direction.py:70-71 | the drift is the reading minus the expected value, and it raises exactly when the reading is not a number |
| `RoverDirection.DriftDirection` | working_auto_navigating/rover_direction.py:78 | the correction is Right iff dx > 0, Left iff dx < 0, Forward iff dx = 0 and dy > 0, Backward otherwise; never Reached |
| `RoverDirection.Decide` | working_auto_navigating/rover_direction.py:73-92 | Reached iff RFID, IR and ultrasonic are all set and the distance is within 5; the result under each other combination of the three flags |
| `RoverDirection.InnerReachedUnreachable` | working_auto_navigating/rover_direction.py:86-88 | the Reached inside the fifth rule is dead code: reaching that rule with IR and ultrasonic set implies a distance over 5 |
| `RoverDirection.Determine` | working_auto_navigating/rover_direction.py:15-97 | a fault before the rules gives Forward; otherwise the rules apply to the normalised readings; Reached iff no fault and all three detections with the distance within 5 |
| `RoverDirection.DetermineText` | working_auto_navigating/rover_direction.py:1-97 | the string result is one of the five names, and it is "Reached" exactly when the resolver decides Reached |
| `RoverDirection.RfidWithoutIr` | working_auto_navigating/rover_direction.py:77-78 | with RFID and no IR, the drifts alone decide |
| `RoverDirection.IrWithoutRfid` | working_auto_navigating/rover_direction.py:80-81 | with IR and no RFID, only Right or Left can result |
| `RoverDirection.UltrasonicOnly` | working_auto_navigating/rover_direction.py:83-84 | with only the ultrasonic set, the result is Forward when dy > 0, else Backward |
| `RoverDirection.ExampleReached` | working_auto_navigating/rover_direction.py:102 | the usage example answers "Reached" |
| `RoverDirection.ExampleAllMissing` | working_auto_navigating/rover_direction.py:107 | the all-None example answers "Backward" |
| `RoverDirection.ExampleEmptySequences` | working_auto_navigating/rover_direction.py:108 | empty ultrasonic and accelerometer sequences answer "Backward" |
| `Pathfinding.NeighborsAreAdjacent` | Navigation/pathfinding.py:22-23 | the four neighbours tried are exactly the cells one unit step away |
| `Pathfinding.PopMin` | Navigation/pathfinding.py:13 | the popped entry is in the queue and least in (cost, x, y) order, and the rest is the queue's multiset with exactly that one entry removed |
| `Pathfinding.Relax` | Navigation/pathfinding.py:24-29 | a neighbour is recorded, with its cost, link and queue entry, exactly when it is open and new or strictly cheaper; otherwise nothing changes |
| `Pathfinding.ExpandCell` | Navigation/pathfinding.py:21-29 | expanding a popped cell keeps the search invariant, and afterwards every open neighbour of that cell has a cost of at most one more |
| `Pathfinding.Explore` | Navigation/pathfinding.py:7-29 | when the search ends, every recorded cell links back one step at a time to the start; a recorded goal has no walk shorter than its cost; an unrecorded goal is unreachable |
| `Pathfinding.Reconstruct` | Navigation/pathfinding.py:31-39 | following the links from the goal gives a walk from the start whose length is the goal's cost, or just `[goal]` when the goal was never recorded |
| `Pathfinding.DijkstraPath` | Navigation/pathfinding.py:3-39 | the path ends at the goal; it is a walk from the start iff the goal is reachable, and then no walk is shorter; otherwise it is `[goal]`; `start == goal` gives `[start]` |
| `NavBattery.CommText` | Navigation/battery_manager.py:17 | the stored communication text is "Active" or "Inactive", each exactly for its status, so the navigator's comparison with "Inactive" (Navigation/rover_navigation.py:26) tests the `Inactive` status |
| `NavBattery.StatusText` | Navigation/battery_manager.py:18 | the stored movement text is "idle", "moving" or "stopped", each exactly for its status |
| `NavBattery.New` | Navigation/battery_manager.py:2-18 | the thresholds are stored, the manager is idle and not recharging, and communication is active iff the level is strictly above the low threshold |
| `NavBattery.UpdateLevel` | Navigation/battery_manager.py:64-75 | the level is set, communication is lost iff the level is strictly below the low threshold, and nothing else changes |
| `NavBattery.CheckCommunicationStatus` | Navigation/battery_manager.py:97-102 | communication is recomputed from the stored level with the same strict comparison; nothing else changes |
| `NavBattery.RechargeBattery` | Navigation/battery_manager.py:46-56 | below the recharge threshold and not already recharging, the level ends exactly at the threshold, the flag is clear, and communication is active iff the threshold exceeds the low level; otherwise nothing changes |
| `NavBattery.StopRecharge` | Navigation/battery_manager.py:58-62 | the flag is cleared exactly when the level has reached the recharge threshold; nothing else changes |
| `NavBattery.Manage` | Navigation/battery_manager.py:77-90 | below critical the rover stops and communication is kept; from critical up to the low level it idles without communication; above that it moves |
| `NavBattery.HandleBatteryCycle` | Navigation/battery_manager.py:92-95 | at or below the low threshold, with the level under the recharge threshold and no recharge running, the manager becomes the old one with the level at the recharge threshold and communication active iff that threshold exceeds the low one; in every other case (a higher level included) nothing changes |
| `NavBattery.SimulateMovement` | Navigation/battery_manager.py:104-111 | the rover stops iff the level is at or below critical, otherwise it moves; it is never left idle |
| `NavBattery.CheckIsUpdate` | Navigation/battery_manager.py:97-102 | checking communication is the same as re-reporting the stored level |
| `NavBattery.CheckAfterUpdate` | Navigation/battery_manager.py:64-75 | a check straight after an update changes nothing |
| `NavBattery.ThresholdDisagreement` | Navigation/battery_manager.py:12-17 | at exactly the low threshold the constructor gives no communication, while an update to the same level gives communication |
| `NavBattery.ConstructorAgreesOffThreshold` | Navigation/battery_manager.py:12-17 | away from the low threshold, the constructor and an update to its level agree |
| `NavBattery.CriticalDisagreement` | Navigation/battery_manager.py:77-111 | at exactly the critical level, `manage` does not stop the rover but `simulate_movement` does |
| `NavBattery.ManageIdempotent` | Navigation/battery_manager.py:77-90 | managing twice is the same as managing once |
| `NavBattery.ManageNeverRestores` | Navigation/battery_manager.py:77-90 | `manage` can take communication away but never restore it |
| `NavBattery.SettledPreserved` | Navigation/battery_manager.py:46-62 | every operation other than the recharge itself leaves the recharging flag clear |
| `NavBattery.DefaultCycleRestores` | Navigation/battery_manager.py:92-95 | with the default thresholds, a battery cycle at 10% or below ends at 80% with communication restored |
| `HysteresisBattery.Initial` | proj_1/rescue-rover/app/rover/battery_manager.py:8-16 | a new monitor is full, not charging, and in contact |
| `HysteresisBattery.Update` | proj_1/rescue-rover/app/rover/battery_manager.py:18-45 | the reading is stored whatever it is; a non-number then raises TypeError with both flags kept; for a number, integer or float, charging is on at 5% or below and off at 80% or above, and kept as it was in between; communication iff at least 10%; the change flag is true iff either flag changed |
| `HysteresisBattery.Run` | proj_1/rescue-rover/app/rover/battery_manager.py:18-20 | after a sequence of updates, including ones that raised, the level is the last reading, and an empty sequence changes nothing |
| `HysteresisBattery.RepeatUnchanged` | proj_1/rescue-rover/app/rover/battery_manager.py:18-45 | reporting the same level a second time leaves the monitor as it was and reports no change, or raises TypeError again for a non-number |
| `HysteresisBattery.NoChangeKeepsFlags` | proj_1/rescue-rover/app/rover/battery_manager.py:44-45 | an update that reports no change, or raises, only changed the level |
| `HysteresisBattery.ChargesUntilFull` | proj_1/rescue-rover/app/rover/battery_manager.py:25-30 | once charging, it stays charging through any readings that are below 80% or not numbers |
| `HysteresisBattery.IdleUntilEmpty` | proj_1/rescue-rover/app/rover/battery_manager.py:25-30 | once not charging, it stays off through any readings that are above 5% or not numbers |
| `HysteresisBattery.RunCommunication` | proj_1/rescue-rover/app/rover/battery_manager.py:32-42 | after any run ending in a numeric reading, communication depends only on that reading |
| `HysteresisBattery.BandRemembers` | proj_1/rescue-rover/app/rover/battery_manager.py:23-30 | inside the band the same reading leaves a charging monitor charging and an idle one idle |
| `HysteresisBattery.FractionalAndTextLevels` | proj_1/rescue-rover/app/rover/battery_manager.py:18-45 | a float reading of 79.5 keeps a charging monitor charging and restores communication; the text "50" is stored and then raises TypeError with both flags kept |
| `SensorHandler.NewHandler` | Navigation/sensor_handler.py:9-10 | a new handler has detected neither a survivor nor an obstacle |
| `SensorHandler.Near` | Navigation/sensor_handler.py:16 | a falsy reading is no; a truthy non-dict raises AttributeError; a dict compares its `distance` (default 0) below the bound |
| `SensorHandler.Close` | Navigation/sensor_handler.py:19 | a falsy reading is no; a truthy non-dict raises; a dict compares its `proximity` (default 0) above the bound |
| `SensorHandler.Tagged` | Navigation/sensor_handler.py:22 | yes iff the reading is a dict whose `tag_id` is "survivor_tag"; it raises iff the reading is a truthy non-dict |
| `SensorHandler.AnyAbove` | Navigation/sensor_handler.py:25 | the result is the or-chain (`AnyOf`) of the per-component tests in order, so a non-number before any component above the bound raises TypeError; no iff every value is a number of magnitude at most the bound |
| `SensorHandler.AboveTest` | Navigation/sensor_handler.py:25 | `abs(a) > bound` succeeds iff `a` is a number, and a non-number raises TypeError |
| `SensorHandler.NonNumberFirstRaises` | Navigation/sensor_handler.py:25 | `["a", 5.0]` raises TypeError at the string, although 5.0 exceeds the bound |
| `SensorHandler.Shaken` | Navigation/sensor_handler.py:25 | a falsy reading is no; a truthy non-dict raises; a dict tests its values against 1.0 |
| `SensorHandler.DetectSurvivor` | Navigation/sensor_handler.py:12-29 | the answer is the survivor verdict, and the handler's flag records it; an exception leaves the handler as it was |
| `SensorHandler.DetectObstacle` | Navigation/sensor_handler.py:31-45 | the answer is the obstacle verdict (distance below 1.0, or proximity above 0.8), and the handler's flag records it |
| `SensorHandler.CheckUltrasonic` | Navigation/sensor_handler.py:47-50 | a non-dict raises ValueError; a dict compares its distance (default 0) below 2.0 |
| `SensorHandler.CheckIr` | Navigation/sensor_handler.py:52-55 | a non-dict raises ValueError; a dict compares its proximity (default 0) above 0.5 |
| `SensorHandler.CheckRfid` | Navigation/sensor_handler.py:57-60 | it raises (ValueError) iff the data is not a dict, and answers yes iff `tag_id` is "survivor_tag" |
| `SensorHandler.CheckAccelerometer` | Navigation/sensor_handler.py:62-65 | a non-dict raises ValueError; a dict tests its values against 1.0 |
| `SensorHandler.SurvivorVerdict` | Navigation/sensor_handler.py:16-29 | the verdict is the first of the four tests, in order, that does not answer no: its yes or its exception; no iff all four answer no |
| `SensorHandler.ObstacleVerdict` | Navigation/sensor_handler.py:36-45 | the same for the two obstacle tests with the bounds 1.0 and 0.8 |
| `PyValue.AnyOf` | Navigation/sensor_handler.py:16-29 | an or-chain of tests that may raise is false iff every test is false, and otherwise equals the first test that is not false |
| `PyValue.AnyOfIsOrElse` | sensor_handler.py:48-51 | a left-to-right `or` of a test and the rest is `AnyOf` of the whole chain |
| `SensorHandler.SurvivorVerdictCases` | Navigation/sensor_handler.py:16-29 | a survivor is found iff some test says yes and every earlier test said no; none is found iff all four say no |
| `SensorHandler.NothingSensed` | Navigation/sensor_handler.py:12-29 | with only falsy readings, no survivor is found and the handler is unchanged |
| `SensorHandler.DefaultArgumentsNeverDetect` | Navigation/sensor_handler.py:12 | called with every argument at its default, it answers no and clears the flag |
| `SensorHandler.StricterBounds` | Navigation/sensor_handler.py:36-42 | the obstacle bounds are stricter than the survivor bounds, and they raise on the same readings |
| `SensorHandler.ObstacleImpliesSurvivor` | Navigation/sensor_handler.py:12-45 | on the same readings, an obstacle is always also a survivor |
| `SensorHandler.ChecksAgreeOnReadings` | Navigation/sensor_handler.py:47-65 | on a non-empty dict, each strict check agrees with the matching survivor test |
| `SensorHandler.EmptyReadingDisagreement` | Navigation/sensor_handler.py:47-50 | on an empty dict, the strict ultrasonic check answers yes while the survivor test answers no |
| `SensorHandler.ShakenExample` | Navigation/sensor_handler.py:25 | a single axis of magnitude 1.5 counts as movement |
| `FetchedSensorHandler.IndexBelow` | sensor_handler.py:19-23 | `data[key] < bound` succeeds iff the payload is a dict with a numeric value at the key; otherwise KeyError for a missing key, or TypeError |
| `FetchedSensorHandler.IndexAbove` | sensor_handler.py:25-41 | `data[key] > bound`, with the same success and error cases |
| `FetchedSensorHandler.ProcessUltrasonic` | sensor_handler.py:19-23 | succeeds iff the payload is a dict with a numeric `ultrasonic_distance`, answering whether it is under 2.0; a dict without the key raises KeyError, anything else TypeError |
| `FetchedSensorHandler.ProcessIr` | sensor_handler.py:25-29 | the same for `ir_signal_strength` above 0.8 |
| `FetchedSensorHandler.ProcessAccelerometer` | sensor_handler.py:37-41 | the same for `accelerometer_movement` above 1.0 |
| `FetchedSensorHandler.ProcessRfid` | sensor_handler.py:31-35 | succeeds iff the key is present in a dict, and answers the truthiness of the value |
| `FetchedSensorHandler.DetectSurvivor` | sensor_handler.py:43-53 | a failed fetch or a falsy payload gives no survivor; otherwise the answer is the first of the four tests, in order, that does not answer no (a yes or an exception), and no iff all four answer no |
| `FetchedSensorHandler.WellFormedDetection` | sensor_handler.py:43-53 | on a payload with all four well-typed fields nothing raises, and a survivor is found iff one of the four thresholds is crossed |
| `FetchedSensorHandler.UltrasonicDecidesAlone` | sensor_handler.py:48-51 | an echo under 2 m decides alone, so the other fields may be missing or malformed |
| `FetchedSensorHandler.MissingUltrasonicRaises` | sensor_handler.py:21 | a non-empty dict without the ultrasonic field raises KeyError |
| `FetchedSensorHandler.TagExample` | sensor_handler.py:43-53 | a far echo and weak IR, but a tag found, is a survivor |
| `RoverNavigation.NewNavigator` | Navigation/rover_navigation.py:14-15 | a new controller has a default battery manager and a fresh sensor handler |
| `RoverNavigation.CheckBatteryAndCommunication` | Navigation/rover_navigation.py:18-30 | the gate passes iff the level is at least 10 and communication is active |
| `RoverNavigation.ObstacleGate` | Navigation/rover_navigation.py:32-44 | the reply is the obstacle reply iff the obstacle verdict is yes, otherwise moving forward; it raises iff the verdict raises |
| `RoverNavigation.MoveForwardAsWritten` | Navigation/rover_navigation.py:46-63 | with the survivor check called without readings, a failed gate gives the battery reply, the survivor reply never comes, and past the gate the reply is the obstacle step's, with the survivor flag cleared |
| `RoverNavigation.MoveForward` | Navigation/rover_navigation.py:46-63 | a failed gate gives the battery reply; past the gate, the survivor reply comes iff the survivor verdict is yes, a raising verdict propagates its exception, and a no hands over to the obstacle step (obstacle reply or "moving forward") with the survivor flag cleared |
| `RoverNavigation.DefaultReady` | Navigation/rover_navigation.py:18-30 | a new controller passes the battery gate |
| `RoverNavigation.ReadyAfterUpdate` | Navigation/rover_navigation.py:18-30 | with the default thresholds, a reported level passes the gate iff it is at least 10 |
| `RoverNavigation.SurvivorMissed` | Navigation/rover_navigation.py:54-56 | with a survivor 1.5 m away and the obstacle readings passed in, the code as written moves forward, while the corrected gate stops for the survivor |
| `RoverNavigation.SameReadingsShadowObstacle` | Navigation/rover_navigation.py:54-60 | when the survivor and obstacle checks see the same readings, the obstacle reply never comes |
| `RechargeCheck.AtMost` | working_auto_navigating_k/app.py:484 | the comparison succeeds iff the value is a number, answering `value <= bound`; otherwise TypeError |
| `RechargeCheck.Field` | working_auto_navigating_k/app.py:475-476 | on a dict, a membership test then an index gives the field when it is present; None, bool and number payloads raise TypeError |
| `RechargeCheck.LevelOf` | working_auto_navigating_k/app.py:476-480 | the level is a dict's `level` entry or the number itself; anything else gives no level |
| `RechargeCheck.LevelAlarm` | working_auto_navigating_k/app.py:484-486 | a missing or None level never alarms; otherwise the alarm is `level <= 20` |
| `RechargeCheck.BatteryLow` | working_auto_navigating_k/app.py:475-486 | on a dict, the battery field's level is tested, and a missing field does not alarm |
| `RechargeCheck.StatusAlarm` | working_auto_navigating_k/app.py:489-493 | on a dict, the alarm is raised iff the `status` field is present and its `str()` text, lowercased, mentions low, battery or intermittent |
| `RechargeCheck.EscapedStatusRecharges` | working_auto_navigating_k/app.py:490 | the status `["\x0battery"]` renders as `['\\x0battery']`, which mentions "battery", so a recharge is needed |
| `PyValue.ReprStr` | working_auto_navigating_k/app.py:490 | a string's repr starts and ends with the quote Python picks: double quotes iff it holds a single quote and no double quote |
| `PyValue.EscapeChar` | working_auto_navigating_k/app.py:490 | printable ASCII other than the backslash and the quote is kept; every other character written differently becomes an escape of two to four characters starting with a backslash |
| `PyValue.EscapePlain` | working_auto_navigating_k/app.py:490 | a string of printable ASCII without the backslash or the quote is written unchanged inside the quotes |
| `RechargeCheck.ScanItems` | working_auto_navigating_k/app.py:496-499 | the scan of the items alarms iff some string value mentions low or battery, ignoring case |
| `RechargeCheck.ItemsAlarm` | working_auto_navigating_k/app.py:496-499 | `.items()` on a non-dict raises AttributeError; on a dict the result is the scan's |
| `RechargeCheck.Inspect` | working_auto_navigating_k/app.py:473-499 | the battery, status and items tests all run in order; the result raises iff one of them does, and then it is the first that raised; otherwise a recharge is flagged iff some test answered yes |
| `RechargeCheck.NeedsRecharge` | working_auto_navigating_k/app.py:460-507 | a failed status call always needs a recharge |
| `RechargeCheck.DictRecharge` | working_auto_navigating_k/app.py:473-499 | for a dict payload, a recharge is needed iff the level is non-numeric or at most 20, or the status text alarms, or some string field alarms |
| `RechargeCheck.NonDictRecharges` | working_auto_navigating_k/app.py:496-507 | a payload that is not a dict always needs a recharge, because an exception is raised at the latest by `.items()` |
| `RechargeCheck.LowLevelRecharges` | working_auto_navigating_k/app.py:475-486 | a level of 20 or less, given as a number or as a dict's `level`, always needs a recharge |
| `RechargeCheck.WordInFieldRecharges` | working_auto_navigating_k/app.py:496-499 | any string field mentioning "low", even inside another word, needs a recharge |
| `RechargeCheck.HealthyNoRecharge` | working_auto_navigating_k/app.py:473-499 | a payload with only a battery level above 20 needs no recharge |
| `SensorExtraction.Flag` | working_auto_navigating_k/app.py:616-658 | a dict gives its primary key, else `detected`, else the truthiness of `value`, else False; a bool is kept; a number gives its truthiness; a string is checked against the yes-words after lowercasing; anything else gives False |
| `SensorExtraction.Ultrasonic` | working_auto_navigating_k/app.py:663-679 | a dict gives (distance default 0, detection overridden by `detected`); a number d gives (d, d < 100); anything else gives (0, False) |
| `SensorExtraction.Accel` | working_auto_navigating_k/app.py:684-689 | a dict gives its x, y, z (default 0); a list of three or more gives its first three items; anything else gives [0, 0, 0] |
| `SensorExtraction.Extract` | working_auto_navigating_k/app.py:608-689 | a dict payload always extracts; None, bool and number payloads raise TypeError |
| `SensorExtraction.ExtractDict` | working_auto_navigating_k/app.py:610-689 | on a dict, each reading is its decoded field, or the default when the field is absent |
| `SensorExtraction.AbsentFieldsDefault` | working_auto_navigating_k/app.py:610-613 | a payload with none of the four fields gives the four defaults |
| `SensorExtraction.FlagUpperCase` | working_auto_navigating_k/app.py:632-633 | "DETECTED" counts as a detection |
| `SensorExtraction.FlagOtherWord` | working_auto_navigating_k/app.py:632-633 | "no" does not count |
| `SensorExtraction.FlagPrecedence` | working_auto_navigating_k/app.py:622-625 | for RFID, `tag_detected` wins over `detected` wherever it appears |
| `SensorExtraction.ShortAccelIgnored` | working_auto_navigating_k/app.py:688-689 | a list of two accelerometer values is ignored, not padded |
| `SensorExtraction.TupleAccelIgnored` | working_auto_navigating_k/app.py:686-689 | a tuple of three accelerometer values is ignored |
| `AutoNavigate.Lowered` | working_auto_navigating_k/app.py:748-790 | the lowercased answer is "reached" iff the resolver answered Reached; every other answer is a move word the service accepts |
| `AutoNavigate.LoweredIsLower` | working_auto_navigating_k/app.py:790 | the move word is Python's `.lower()` of the resolver's string |
| `AutoNavigate.Act` | working_auto_navigating_k/app.py:608-811 | the step crashes iff the four field reads or the `position` lookup raise; it drops the supply iff both succeed and RFID is truthy; otherwise it attempts a move word, ending Moved, MoveFailed or MoveRaised exactly as the move call answered 200, answered otherwise, or raised; it never reaches the "reached" branch |
| `AutoNavigate.AutoNavigate` | working_auto_navigating_k/app.py:448-811 | without a session it fails; when a recharge is needed it recharges and returns the heading it was given; only a recharge returns a direction; "reached" never happens; the step drops the supply, crashes or attempts a move iff there is a session, no recharge and a truthy payload; a successful move needs the call to answer 200 |
| `AutoNavigate.StatusAfter` | working_auto_navigating_k/app.py:448-847 | every outcome except a successful move writes a status; a refused move writes "Failed to move: …" and a move call that raised writes "Failed: Error moving rover: …" |
| `AutoNavigate.ThreadVerdict` | working_auto_navigating_k/app.py:420-428 | navigation completes iff the status is "Completed" or "Supply Dropped" occurs in it; otherwise it fails iff "Failed" occurs in it; otherwise the thread continues |
| `AutoNavigate.QuietStatus` | working_auto_navigating_k/app.py:420-428 | a non-empty status whose first character is not 'C' and which contains no 'S' and no 'F' lets the thread continue |
| `AutoNavigate.RechargeKeepsGoing` | working_auto_navigating_k/app.py:553-577 | after a recharge, successful or not, the thread continues; the failure text has a lowercase "failed" |
| `AutoNavigate.FailuresStop` | working_auto_navigating_k/app.py:425-428 | every failure status the step writes (no session, no sensor data, a crash, a refused or raising move) stops the navigation thread |
| `AutoNavigate.SupplyDropCompletes` | working_auto_navigating_k/app.py:420-423 | the supply-drop status completes navigation |
| `AutoNavigate.MoveKeepsStatus` | working_auto_navigating_k/app.py:792-811 | a successful move leaves the status as it was |
| `AutoNavigate.RfidDropsSupply` | working_auto_navigating_k/app.py:705-729 | a truthy RFID reading drops the supply without consulting the resolver |
| `AutoNavigate.ActSendsResolverAnswer` | working_auto_navigating_k/app.py:692-799 | without RFID, a successful move sends the resolver's answer in lowercase, unless the `position` lookup raised first, in which case the step crashes with that exception |
| `AutoNavigate.MoveIsResolverAnswer` | working_auto_navigating_k/app.py:731-799 | the same for a whole step, once the session and battery checks have passed |
| `AutoNavigate.NonDictCrashes` | working_auto_navigating_k/app.py:843-845 | a nonzero number as the payload crashes the step with TypeError |
| `AutoNavigate.PositionTextCrashes` | working_auto_navigating_k/app.py:692-693 | the string payload "position" passes the four field reads and then crashes the step with TypeError at the `position` lookup |
| `SensorPayload.NormalPosition` | working_auto_navigating_k/app.py:99-112 | a dict is kept; a list of two or more becomes {x, y}; anything else, or a missing field, becomes {0, 0} |
| `SensorPayload.FillAxes` | working_auto_navigating_k/app.py:139-145 | the missing axes are added as 0; existing entries keep their values; a dict with all three axes is unchanged |
| `SensorPayload.NormalAccelerometer` | working_auto_navigating_k/app.py:114-147 | the result is a dict with all three axes: a dict is filled in, a number becomes the x axis, a list gives up to three axes, and a missing field or any other value gives zeros |
| `SensorPayload.NormalUltrasonic` | working_auto_navigating_k/app.py:149-172 | a well-shaped dict is kept; a dict with a distance but no flag gets `distance < 100` (False for None), raising TypeError for a non-numeric distance; None or absent gives no echo; other values go through `float()`, with its errors |
| `SensorPayload.NormalIr` | working_auto_navigating_k/app.py:174-187 | a non-dict becomes {reflection: truthiness}; a dict with the flag is kept; a non-empty dict without it gets `reflection` set to its first value's truthiness, its other entries kept; a missing field gives {reflection: False}; it raises StopIteration iff the field is an empty dict |
| `SensorPayload.NormalRfid` | working_auto_navigating_k/app.py:189-203 | a non-dict becomes {tag_detected, tag_id}; a dict with the flag is kept; a dict without it keeps its entries and gains `tag_detected` set to its first value's truthiness, False when empty |
| `SensorPayload.BatteryStep` | working_auto_navigating_k/app.py:94-97 | `battery_level` mirrors `battery` when it is present; nothing else changes |
| `SensorPayload.PositionStep` | working_auto_navigating_k/app.py:99-112 | only the position field changes, to its normal form |
| `SensorPayload.AccelerometerStep` | working_auto_navigating_k/app.py:114-147 | only the accelerometer field changes, to its normal form |
| `SensorPayload.UltrasonicStep` | working_auto_navigating_k/app.py:149-172 | only the ultrasonic field changes; the step raises exactly when its normalisation does |
| `SensorPayload.IrStep` | working_auto_navigating_k/app.py:174-187 | only the IR field changes; the step raises StopIteration exactly when its normalisation does |
| `SensorPayload.RfidStep` | working_auto_navigating_k/app.py:189-203 | only the RFID field changes, to its normal form |
| `SensorPayload.Default` | working_auto_navigating_k/app.py:205-215 | a missing field gets the default value, and a present field is untouched |
| `SensorPayload.Prepare` | working_auto_navigating_k/app.py:93-147 | `battery_level` mirrors `battery` when present; position and accelerometer are exactly the normal forms of the input fields; nothing outside them changes |
| `SensorPayload.Sense` | working_auto_navigating_k/app.py:149-187 | it raises iff the ultrasonic or IR normalisation raises, the ultrasonic one first; on success both fields are exactly their normal forms and nothing else changes |
| `SensorPayload.Finish` | working_auto_navigating_k/app.py:189-215 | RFID is exactly its normal form; timestamp, readable time and recharging keep an existing value or take now, the readable time and False; nothing else changes |
| `SensorPayload.NormaliseFields` | working_auto_navigating_k/app.py:93-215 | a successful normalisation leaves every field in the shape the page reads, each rewritten field the normal form of its own input field, and each default only where the field was missing |
| `SensorPayload.NormaliseFieldsRaises` | working_auto_navigating_k/app.py:149-187 | normalisation fails iff the ultrasonic or IR field cannot be normalised, and with that field's exception |
| `SensorPayload.NormaliseFieldsKeeps` | working_auto_navigating_k/app.py:93-215 | `battery` and every unknown field pass through unchanged |
| `SensorPayload.NormalisedFixed` | working_auto_navigating_k/app.py:93-215 | an already-normalised payload goes through unchanged |
| `SensorPayload.NormaliseIdempotent` | working_auto_navigating_k/app.py:93-215 | normalising twice is the same as normalising once |
| `SensorPayload.Normalise` | working_auto_navigating_k/app.py:87-215 | a non-dict payload raises TypeError; a dict fails iff its `ultrasonic` or `ir` entry cannot be normalised, with that exception; otherwise position, accelerometer, ultrasonic, IR and RFID are the normal forms of the payload's entries and every default is filled |
| `SensorPayload.NormaliseKeepsOthers` | working_auto_navigating_k/app.py:93-215 | a payload field that no step rewrites reaches the page with its original value |

## Left out

- HTTP, Flask routes, threads, timeouts, retries and sleeps are left out. The
  outcomes of the status, recharge, sensor and move calls are inputs (`World`,
  the `Option` fetch, and reading parameters).
- The auto-navigation step calls itself again after a move (app.py:842). That
  call is left out: the model describes one step, which returns nothing after a move.
- The shared `rover_state` bookkeeping is left out: current and final position
  (the writes at app.py:694-703 and 753-773), the position update after a move
  (813-835), caches, and all printing and logging. The `position` lookup itself
  (692-693) is modelled, since it raises on a string or list payload.
- The intermediate status texts that are overwritten before the step returns
  (e.g. "LOW BATTERY - RECHARGING", "Supply drop point reached - RFID detected")
  are left out. So is the resumed move after a recharge: its result is not
  observed.
- The direction-resolver exception handler at app.py:742 is left out: the
  resolver catches every exception itself, so that handler cannot run.
- Exception messages are left out. Failure statuses carry a `message`
  parameter in place of the text Python would render.
- `RechargeCheck.StatusAlarm`: `repr` escapes are modelled for ASCII (the
  backslash, the quote, `\t`, `\n`, `\r`, `\xNN`). Non-ASCII characters that
  Python does not print, such as U+200B, are kept as they are, while Python writes
  an escape like `\u200b` whose last letter can complete "battery". Which
  characters Python prints depends on the Unicode database, which is not modelled.
- `str()` of a non-string value renders numbers as "0". The words searched
  for contain no digits, so the number text does not matter.
- `float()` of a string accepts an optional sign, digits and an optional
  fraction. Exponents, inf, nan, surrounding whitespace and underscores are
  not modelled.
- Integers and floats are both exact reals. Float rounding is not modelled.
- Dicts are assumed to have distinct keys, as JSON decoding produces. A lookup
  takes the first matching entry.
- Top-level key order is left out of the normalised payload. `SensorPayload`
  treats the payload as a map from field to value. Inside a sensor field, key
  order is kept.
- `RoverDirection.Heading`: `.lower()` is modelled for A to Z and the Kelvin
  sign U+212A, the only characters whose lowercase is an ASCII letter. Other
  non-ASCII uppercase letters stay as they are, where Python lowercases them,
  and the two-character lowercase of U+0130 is not modelled. Neither changes a
  comparison with the ASCII words the code looks for.
- `NavBattery.RechargeBattery`: battery levels are integers. With a fractional
  level, the code's counting loop would stop at the first value at or above
  the threshold, not exactly at it.
- `AutoNavigate.FailuresStop` states only that the thread stops, not that it
  reports failure. A crash message that itself contains "Supply Dropped"
  makes the thread's completion test fire first.
- The navigation controller's `get_sensor_data` accessor does not exist. As
  written, `detect_and_avoid_obstacle` would raise AttributeError. The model
  passes the readings in as parameters instead. The SLAM system it builds is
  left out.
- The endpoint's copies of `communication_status` and `battery` into
  `rover_state` (app.py:89-95) are left out: they are state writes, not part of
  the payload.
- working_auto_navigating_k/rover_direction.py is not part of this model. The
  step is modelled with the resolver of working_auto_navigating/rover_direction.py.

## Findings

| source | as written | input that shows it | evidently intended | confidence | as-written member | corrected member |
|---|---|---|---|---|---|---|
| Navigation/rover_navigation.py:54 | `move_forward` calls `detect_survivor()` with no readings, so the survivor check always answers no | a default controller with a survivor reading `{'distance': 1.5}`, its obstacle readings passed in as parameters (as written, `detect_and_avoid_obstacle` raises AttributeError at line 36 instead): the rover moves forward | the survivor check is given the current readings and stops the rover, as the method's documentation says | high, not executed | `RoverNavigation.MoveForwardAsWritten`, `RoverNavigation.SurvivorMissed` | `RoverNavigation.MoveForward` |

=== FILE: auto_navigate.dfy ===
/**
  One auto-navigation step and the loop condition around it. A step checks the
  session, then the battery (recharging and returning the current heading when
  needed), then reads the sensors. An RFID detection ends navigation with the
  supply dropped; otherwise the direction resolver picks a move, and a "reached"
  verdict ends navigation, while any other direction is sent as a lowercase move.

  Everything the step learns from the network is an input (`World`); the
  navigation status it writes is an output.
 */
module AutoNavigate {
  import opened PyValue
  import RoverDirection
  import RechargeCheck
  import SensorExtraction

  /** What the rover service answered during one step. */
  datatype World = World(
    session: bool,           // an active session id is set
    status: Option<Value>,   // the status call: None when it failed or did not answer 200
    rechargeOk: bool,        // one of the five recharge attempts answered 200
    sensors: Option<Value>,  // the sensor call, after up to three attempts: None when all failed
    move: MoveReply)         // how the move call went

  /** The move call: answered 200, answered something else, or raised before answering. */
  datatype MoveReply = Accepted | Refused | Raised

  /** How a step ended. */
  datatype Step =
    | NoSession
    | Recharged(success: bool)
    | NoSensorData
    | Crashed(exc: Exc)
    | SupplyDropped
    | DestinationReached
    | MoveFailed(direction: string)
    | MoveRaised(direction: string)
    | Moved(direction: string)

  /** The move words the rover service accepts. */
  predicate MoveWord(s: string) {
    s == "forward" || s == "backward" || s == "left" || s == "right"
  }

  /** The resolver's answer, lowercased. */
  function Lowered(d: RoverDirection.Direction): (s: string)
    ensures s == "reached" <==> d == RoverDirection.Reached
    ensures d != RoverDirection.Reached ==> MoveWord(s)
  {
    match d
    case Forward => "forward"
    case Backward => "backward"
    case Left => "left"
    case Right => "right"
    case Reached => "reached"
  }

  /** `Lowered` is Python's `.lower()` applied to the resolver's string. */
  lemma LoweredIsLower(d: RoverDirection.Direction)
    ensures Lowered(d) == Lower(RoverDirection.Name(d))
  {
    match d
    case Forward => LowerForward();
    case Backward => LowerBackward();
    case Left => LowerLeft();
    case Right => LowerRight();
    case Reached => LowerReached();
  }

  lemma LowerForward() ensures Lower("Forward") == "forward" {}
  lemma LowerBackward() ensures Lower("Backward") == "backward" {}
  lemma LowerLeft() ensures Lower("Left") == "left" {}
  lemma LowerRight() ensures Lower("Right") == "right" {}
  lemma LowerReached() ensures Lower("Reached") == "reached" {}

  /** The heading passed to the resolver: `current or "forward"`. */
  function HeadingArg(current: string): Value {
    VStr(if current == "" then "forward" else current)
  }

  /** The resolver on extracted readings. */
  function Resolve(current: string, rd: SensorExtraction.Readings): RoverDirection.Direction {
    RoverDirection.Determine(HeadingArg(current), rd.rfid, rd.ir, rd.ultrasonic, rd.accel)
  }

  /** A move was attempted in direction `direction`, whatever the service made of it. */
  predicate Attempted(r: Step) {
    r.Moved? || r.MoveFailed? || r.MoveRaised?
  }

  /**
    The part of a step after the sensor payload has been fetched: the four field
    reads, the `position` lookup, the RFID test, the resolver and the move.
   */
  function Act(data: Value, current: string, move: MoveReply): (r: Step)
    ensures r != DestinationReached
    ensures Attempted(r) ==> MoveWord(r.direction)
    ensures r.Crashed? <==>
      SensorExtraction.Extract(data).Raise? || RechargeCheck.Field(data, "position").Raise?
    ensures r == SupplyDropped <==>
      SensorExtraction.Extract(data).Ok? && RechargeCheck.Field(data, "position").Ok? &&
      Truthy(SensorExtraction.Extract(data).value.rfid)
    ensures Attempted(r) <==> !r.Crashed? && r != SupplyDropped
    ensures r.Moved? <==> Attempted(r) && move.Accepted?
    ensures r.MoveFailed? <==> Attempted(r) && move.Refused?
    ensures r.MoveRaised? <==> Attempted(r) && move.Raised?
  {
    match SensorExtraction.Extract(data)
    case Raise(e) => Crashed(e)
    case Ok(rd) =>
      match RechargeCheck.Field(data, "position")
      case Raise(e) => Crashed(e)
      case Ok(_) =>
        if Truthy(rd.rfid) then SupplyDropped
        else
          var next := Lowered(Resolve(current, rd));
          if next == "reached" then DestinationReached
          else
            match move
            case Accepted => Moved(next)
            case Refused => MoveFailed(next)
            case Raised => MoveRaised(next)
  }

  /**
    `auto_navigate(current)`: how the step ends, and the direction it returns to
    the navigation thread (only a recharge returns one: the heading it was given).
   */
  function AutoNavigate(w: World, current: string): (r: (Step, Option<string>))
    ensures !w.session ==> r == (NoSession, None)
    ensures w.session && RechargeCheck.NeedsRecharge(w.status) ==> r == (Recharged(w.rechargeOk), Some(current))
    ensures r.1.Some? <==> r.0.Recharged?
    ensures r.1.Some? ==> r.1.value == current
    ensures r.0 != DestinationReached
    ensures Attempted(r.0) ==> MoveWord(r.0.direction)
    ensures r.0.SupplyDropped? || r.0.Crashed? || Attempted(r.0) <==>
      w.session && !RechargeCheck.NeedsRecharge(w.status) && w.sensors.Some? && Truthy(w.sensors.value)
    ensures r.0.Moved? ==> w.move.Accepted?
  {
    if !w.session then (NoSession, None)
    else if RechargeCheck.NeedsRecharge(w.status) then (Recharged(w.rechargeOk), Some(current))
    else
      match w.sensors
      case None => (NoSensorData, None)
      case Some(data) =>
        if !Truthy(data) then (NoSensorData, None)
        else (Act(data, current, w.move), None)
  }

  /**
    The navigation status a step writes, or `None` when it leaves it alone (a
    successful move). `message` stands for the text of the exception or of the
    failed response, which the model does not render.
   */
  function StatusAfter(s: Step, message: string): (r: Option<string>)
    ensures r.None? <==> s.Moved?
  {
    match s
    case NoSession => Some(FailMark + ": No active session")
    case Recharged(ok) =>
      Some(if ok then "Recharged - Resuming exploration" else "Recharge failed - attempting to continue")
    case NoSensorData => Some(FailMark + ": Could not get sensor data after 3 attempts")
    case Crashed(_) => Some(FailMark + ": " + message)
    case SupplyDropped => Some("Completed - " + DropMark + " at RFID location")
    case DestinationReached => Some("Completed")
    case MoveFailed(_) => Some(FailMark + " to move: " + message)
    case MoveRaised(_) => Some(FailMark + ": Error moving rover: " + message)
    case Moved(_) => None
  }

  datatype Verdict = KeepGoing | Complete | Fail

  /** The phrases the navigation thread looks for in the status. */
  const DropMark: string := "Supply Dropped"
  const FailMark: string := "Failed"

  /** The navigation thread's exit test after each step, on the current status text. */
  function ThreadVerdict(status: string): (v: Verdict)
    ensures v == Complete <==>
      status == "Completed" || exists i :: OccursAt(status, DropMark, i)
    ensures v == Fail <==>
      status != "Completed" && (forall i :: !OccursAt(status, DropMark, i)) && exists i :: OccursAt(status, FailMark, i)
    ensures v == KeepGoing <==>
      status != "Completed" && (forall i :: !OccursAt(status, DropMark, i)) && forall i :: !OccursAt(status, FailMark, i)
  {
    ContainsIff(status, DropMark);
    ContainsIff(status, FailMark);
    if status == "Completed" || Contains(status, DropMark) then Complete
    else if Contains(status, FailMark) then Fail
    else KeepGoing
  }

  // ---------------------------------------------------------------------------
  // Properties

  lemma RechargedText()
    ensures forall i :: 0 <= i < |"Recharged - Resuming exploration"| ==>
      "Recharged - Resuming exploration"[i] != 'S' && "Recharged - Resuming exploration"[i] != 'F'
  {
  }

  lemma RechargeFailedText()
    ensures forall i :: 0 <= i < |"Recharge failed - attempting to continue"| ==>
      "Recharge failed - attempting to continue"[i] != 'S' && "Recharge failed - attempting to continue"[i] != 'F'
  {
  }

  /** A status that mentions neither phrase, and is not "Completed", lets the thread carry on. */
  lemma QuietStatus(s: string)
    requires |s| > 0 && s[0] != 'C'
    requires forall i :: 0 <= i < |s| ==> s[i] != 'S' && s[i] != 'F'
    ensures ThreadVerdict(s) == KeepGoing
  {
    MissingLetter(s, DropMark);
    MissingLetter(s, FailMark);
  }

  /**
    After a recharge, successful or not, the thread carries on: neither status
    text mentions "Failed" (the failure text has a lowercase "failed").
   */
  lemma RechargeKeepsGoing(ok: bool, message: string)
    ensures ThreadVerdict(StatusAfter(Recharged(ok), message).value) == KeepGoing
  {
    if ok {
      RechargedText();
      QuietStatus("Recharged - Resuming exploration");
    } else {
      RechargeFailedText();
      QuietStatus("Recharge failed - attempting to continue");
    }
  }

  /** Every failure the step reports stops the navigation thread. */
  lemma FailuresStop(s: Step, message: string)
    requires s.NoSession? || s.NoSensorData? || s.Crashed? || s.MoveFailed? || s.MoveRaised?
    ensures ThreadVerdict(StatusAfter(s, message).value) != KeepGoing
  {
    var t := StatusAfter(s, message).value;
    assert t == FailMark + t[|FailMark|..];
    ContainsMiddle("", FailMark, t[|FailMark|..]);
  }

  /** Dropping the supply completes navigation. */
  lemma SupplyDropCompletes(message: string)
    ensures ThreadVerdict(StatusAfter(SupplyDropped, message).value) == Complete
  {
    ContainsMiddle("Completed - ", DropMark, " at RFID location");
  }

  /** A successful move leaves the status, and so the thread's verdict, as it was. */
  lemma MoveKeepsStatus(d: string, message: string)
    ensures StatusAfter(Moved(d), message).None?
  {
  }

  /**
    On a dict payload whose RFID field decodes to a truthy value the step drops the
    supply, without consulting the resolver or moving.
   */
  lemma RfidDropsSupply(w: World, current: string, d: Dict)
    requires w.session && !RechargeCheck.NeedsRecharge(w.status)
    requires w.sensors == Some(VDict(d)) && |d| > 0
    requires Truthy(SensorExtraction.Extract(VDict(d)).value.rfid)
    ensures AutoNavigate(w, current).0 == SupplyDropped
  {
  }

  /**
    Once the readings are extracted without RFID, a successful move sends the
    resolver's answer in lowercase, unless the `position` lookup raised first.
   */
  lemma ActSendsResolverAnswer(data: Value, current: string)
    requires SensorExtraction.Extract(data).Ok?
    requires !Truthy(SensorExtraction.Extract(data).value.rfid)
    ensures RechargeCheck.Field(data, "position").Raise? ==>
      Act(data, current, Accepted) == Crashed(RechargeCheck.Field(data, "position").exc)
    ensures RechargeCheck.Field(data, "position").Ok? ==>
      Act(data, current, Accepted) == Moved(Lower(RoverDirection.Name(Resolve(current, SensorExtraction.Extract(data).value))))
  {
    LoweredIsLower(Resolve(current, SensorExtraction.Extract(data).value));
  }

  /**
    Without RFID the step always asks the resolver, and a sent move is exactly the
    resolver's answer in lowercase.
   */
  lemma MoveIsResolverAnswer(w: World, current: string, d: Dict)
    requires w.session && !RechargeCheck.NeedsRecharge(w.status)
    requires w.sensors == Some(VDict(d)) && |d| > 0 && w.move.Accepted?
    requires !Truthy(SensorExtraction.Extract(VDict(d)).value.rfid)
    ensures AutoNavigate(w, current).0 ==
      Moved(Lower(RoverDirection.Name(Resolve(current, SensorExtraction.Extract(VDict(d)).value))))
  {
    assert AutoNavigate(w, current).0 == Act(VDict(d), current, Accepted);
    ActSendsResolverAnswer(VDict(d), current);
  }

  /** A nonzero number as the payload is truthy but not a dict, and crashes the step. */
  lemma NonDictCrashes(w: World, current: string, n: real)
    requires w.session && !RechargeCheck.NeedsRecharge(w.status)
    requires w.sensors == Some(VNum(n)) && n != 0.0
    ensures AutoNavigate(w, current).0 == Crashed(TypeError)
  {
  }

  /**
    The payload `"position"` passes the four field reads (none of their names is a
    substring of it) and then crashes on the `position` lookup, since a string
    cannot be indexed by a string.
   */
  lemma PositionTextCrashes(w: World, current: string)
    requires w.session && !RechargeCheck.NeedsRecharge(w.status)
    requires w.sensors == Some(VStr("position"))
    ensures SensorExtraction.Extract(VStr("position")).Ok?
    ensures AutoNavigate(w, current).0 == Crashed(TypeError)
  {
    PositionPassesReads();
    PositionLookupRaises();
  }

  lemma PositionPassesReads()
    ensures SensorExtraction.Extract(VStr("position")).Ok?
  {
    var p := "position";
    assert forall i :: 0 <= i < |p| ==> p[i] != 'r' && p[i] != 'u' && p[i] != 'a';
    AbsentLetter(p, "rfid", 0);
    AbsentLetter(p, "ir", 1);
    AbsentLetter(p, "ultrasonic", 0);
    AbsentLetter(p, "accelerometer", 0);
  }

  lemma PositionLookupRaises()
    ensures RechargeCheck.Field(VStr("position"), "position") == Raise(TypeError)
  {
    var p := "position";
    assert HasPrefix(p, p);
  }
}

=== FILE: fetched_sensor_handler.dfy ===
/**
  The stand-alone survivor detector that fetches one flat payload and runs four
  threshold predicates over it. The fetch is an input: `None` when the request
  failed, otherwise the decoded body. The predicates index the payload directly,
  so a missing key raises `KeyError` and a non-dict payload raises `TypeError`.
 */
module FetchedSensorHandler {
  import opened PyValue

  /** `data[key] < bound`. */
  function IndexBelow(data: Value, key: string, bound: real): (r: Result<bool>)
    ensures r.Ok? <==> data.VDict? && HasKey(data.entries, key) && IsNumeric(Get(data.entries, key).value)
    ensures r.Ok? ==> (r.value <==> NumOf(Get(data.entries, key).value) < bound)
    ensures r.Raise? ==> r.exc == (if data.VDict? && HasKey(data.entries, key) then TypeError
                                   else if data.VDict? then KeyError else TypeError)
  {
    match Index(data, key)
    case Raise(e) => Raise(e)
    case Ok(v) => LessThan(v, bound)
  }

  /** `data[key] > bound`. */
  function IndexAbove(data: Value, key: string, bound: real): (r: Result<bool>)
    ensures r.Ok? <==> data.VDict? && HasKey(data.entries, key) && IsNumeric(Get(data.entries, key).value)
    ensures r.Ok? ==> (r.value <==> NumOf(Get(data.entries, key).value) > bound)
    ensures r.Raise? ==> r.exc == (if data.VDict? && HasKey(data.entries, key) then TypeError
                                   else if data.VDict? then KeyError else TypeError)
  {
    match Index(data, key)
    case Raise(e) => Raise(e)
    case Ok(v) => GreaterThan(v, bound)
  }

  /** `process_ultrasonic_data`: closer than 2 m. */
  function ProcessUltrasonic(data: Value): (r: Result<bool>)
    ensures r.Ok? <==> data.VDict? && HasKey(data.entries, "ultrasonic_distance") && IsNumeric(Get(data.entries, "ultrasonic_distance").value)
    ensures r.Ok? ==> (r.value <==> NumOf(Get(data.entries, "ultrasonic_distance").value) < 2.0)
    ensures data.VDict? && !HasKey(data.entries, "ultrasonic_distance") ==> r == Raise(KeyError)
    ensures r.Raise? && r.exc != KeyError ==> r.exc == TypeError
  {
    IndexBelow(data, "ultrasonic_distance", 2.0)
  }

  /** `process_ir_data`: signal strength above 0.8. */
  function ProcessIr(data: Value): (r: Result<bool>)
    ensures r.Ok? <==> data.VDict? && HasKey(data.entries, "ir_signal_strength") && IsNumeric(Get(data.entries, "ir_signal_strength").value)
    ensures r.Ok? ==> (r.value <==> NumOf(Get(data.entries, "ir_signal_strength").value) > 0.8)
    ensures data.VDict? && !HasKey(data.entries, "ir_signal_strength") ==> r == Raise(KeyError)
    ensures r.Raise? && r.exc != KeyError ==> r.exc == TypeError
  {
    IndexAbove(data, "ir_signal_strength", 0.8)
  }

  /** `process_rfid_data`: the tag flag is truthy. */
  function ProcessRfid(data: Value): (r: Result<bool>)
    ensures r.Ok? <==> data.VDict? && HasKey(data.entries, "rfid_tag_found")
    ensures r.Ok? ==> (r.value <==> Truthy(Get(data.entries, "rfid_tag_found").value))
  {
    match Index(data, "rfid_tag_found")
    case Raise(e) => Raise(e)
    case Ok(v) => Ok(Truthy(v))
  }

  /** `process_accelerometer_data`: movement above 1.0. */
  function ProcessAccelerometer(data: Value): (r: Result<bool>)
    ensures r.Ok? <==> data.VDict? && HasKey(data.entries, "accelerometer_movement") && IsNumeric(Get(data.entries, "accelerometer_movement").value)
    ensures r.Ok? ==> (r.value <==> NumOf(Get(data.entries, "accelerometer_movement").value) > 1.0)
    ensures data.VDict? && !HasKey(data.entries, "accelerometer_movement") ==> r == Raise(KeyError)
    ensures r.Raise? && r.exc != KeyError ==> r.exc == TypeError
  {
    IndexAbove(data, "accelerometer_movement", 1.0)
  }

  /**
    `detect_survivor()` given the outcome of the fetch: nothing, or a falsy body,
    means no survivor; otherwise the four predicates are or-ed left to right.
   */
  function DetectSurvivor(fetched: Option<Value>): (r: Result<bool>)
    ensures fetched.None? ==> r == Ok(false)
    ensures fetched.Some? && !Truthy(fetched.value) ==> r == Ok(false)
    ensures fetched.Some? && Truthy(fetched.value) ==> r == AnyOf(Tests(fetched.value))
  {
    match fetched
    case None => Ok(false)
    case Some(data) =>
      if !Truthy(data) then Ok(false)
      else
        OrChain4(ProcessUltrasonic(data), ProcessIr(data), ProcessRfid(data), ProcessAccelerometer(data));
        OrElse(ProcessUltrasonic(data),
               OrElse(ProcessIr(data), OrElse(ProcessRfid(data), ProcessAccelerometer(data))))
  }

  /** The four predicates in the order `detect_survivor` tries them. */
  function Tests(data: Value): (t: seq<Result<bool>>)
    ensures |t| == 4
  {
    [ProcessUltrasonic(data), ProcessIr(data), ProcessRfid(data), ProcessAccelerometer(data)]
  }

  /** The four readings of a payload, when all four are present and well-typed. */
  predicate WellFormed(data: Value) {
    data.VDict?
    && HasKey(data.entries, "ultrasonic_distance") && IsNumeric(Get(data.entries, "ultrasonic_distance").value)
    && HasKey(data.entries, "ir_signal_strength") && IsNumeric(Get(data.entries, "ir_signal_strength").value)
    && HasKey(data.entries, "rfid_tag_found")
    && HasKey(data.entries, "accelerometer_movement") && IsNumeric(Get(data.entries, "accelerometer_movement").value)
  }

  /**
    On a well-formed payload nothing raises, and a survivor is reported exactly
    when one of the four thresholds is crossed.
   */
  lemma WellFormedDetection(data: Value)
    requires WellFormed(data)
    ensures DetectSurvivor(Some(data)) == Ok(
      NumOf(Get(data.entries, "ultrasonic_distance").value) < 2.0
      || NumOf(Get(data.entries, "ir_signal_strength").value) > 0.8
      || Truthy(Get(data.entries, "rfid_tag_found").value)
      || NumOf(Get(data.entries, "accelerometer_movement").value) > 1.0)
  {
    assert Truthy(data);
  }

  /**
    A close ultrasonic echo decides on its own: once it is under 2 m, the other
    keys are never read, so they may be missing or malformed.
   */
  lemma UltrasonicDecidesAlone(data: Value)
    requires data.VDict? && HasKey(data.entries, "ultrasonic_distance")
    requires IsNumeric(Get(data.entries, "ultrasonic_distance").value)
    requires NumOf(Get(data.entries, "ultrasonic_distance").value) < 2.0
    ensures DetectSurvivor(Some(data)) == Ok(true)
  {
    assert Truthy(data);
  }

  /** Without the ultrasonic key, any non-empty dict payload raises `KeyError` first. */
  lemma MissingUltrasonicRaises(data: Value)
    requires data.VDict? && |data.entries| > 0 && !HasKey(data.entries, "ultrasonic_distance")
    ensures DetectSurvivor(Some(data)) == Raise(KeyError)
  {
  }

  /** A concrete payload: far echo, weak IR, but a tag found. */
  lemma TagExample()
    ensures DetectSurvivor(Some(VDict([
      ("ultrasonic_distance", VNum(5.0)),
      ("ir_signal_strength", VNum(0.1)),
      ("rfid_tag_found", VBool(true))]))) == Ok(true)
  {
    var d := [("ultrasonic_distance", VNum(5.0)), ("ir_signal_strength", VNum(0.1)), ("rfid_tag_found", VBool(true))];
    assert d[0].0 == "ultrasonic_distance";
    assert Get(d, "ultrasonic_distance") == Some(VNum(5.0));
    assert Get(d, "ir_signal_strength") == Some(VNum(0.1)) by {
      assert d[1].0 == "ir_signal_strength";
      GetTail(d, "ir_signal_strength");
    }
    assert Get(d, "rfid_tag_found") == Some(VBool(true)) by {
      assert d[2].0 == "rfid_tag_found";
      GetTail(d, "rfid_tag_found");
      GetTail(d[1..], "rfid_tag_found");
    }
  }
}

=== FILE: hysteresis_battery.dfy ===
/**
  The rescue rover's battery monitor: charging switches on at or below 5% and off
  at or above 80% (a hysteresis band in between), and communication is held only
  at 10% and above. An update reports whether either flag changed.

  The level is the decoded JSON value the service reports, so it may be an
  integer, a float or something that is not a number at all; the monitor stores
  it first, and the first comparison then raises TypeError for a non-number,
  leaving both flags as they were.
 */
module HysteresisBattery {
  import opened PyValue

  const ChargeStart: real := 5.0
  const ChargeStop: real := 80.0
  const CommThreshold: real := 10.0

  datatype Monitor = Monitor(level: Value, charging: bool, communication: bool)

  /** A fresh monitor: full battery, not charging, in contact. */
  function Initial(): (m: Monitor)
    ensures m.level == VNum(100.0) && !m.charging && m.communication
  {
    Monitor(VNum(100.0), false, true)
  }

  /**
    `update_battery_level(level)`: the monitor afterwards, and whether a flag
    changed or the exception the comparisons raised.
   */
  function Update(m: Monitor, level: Value): (r: (Monitor, Result<bool>))
    ensures r.0.level == level
    ensures r.1.Raise? <==> !IsNumeric(level)
    ensures r.1.Raise? ==> r.1.exc == TypeError && r.0 == m.(level := level)
    ensures IsNumeric(level) && NumOf(level) <= ChargeStart ==> r.0.charging
    ensures IsNumeric(level) && NumOf(level) >= ChargeStop ==> !r.0.charging
    ensures IsNumeric(level) && ChargeStart < NumOf(level) < ChargeStop ==> r.0.charging == m.charging
    ensures IsNumeric(level) ==> (r.0.communication <==> NumOf(level) >= CommThreshold)
    ensures r.1.Ok? ==>
      (r.1.value <==> r.0.charging != m.charging || r.0.communication != m.communication)
  {
    if !IsNumeric(level) then (m.(level := level), Raise(TypeError))
    else
      var x := NumOf(level);
      var charging :=
        if x <= ChargeStart && !m.charging then true
        else if x >= ChargeStop && m.charging then false
        else m.charging;
      var communication := x >= CommThreshold;
      (Monitor(level, charging, communication),
       Ok(m.charging != charging || m.communication != communication))
  }

  /**
    Feed a sequence of readings, one update each. The monitor outlives an update
    that raised: the caller logs the error and reports the next reading to the
    same monitor.
   */
  function Run(m: Monitor, levels: seq<Value>): (r: Monitor)
    ensures |levels| > 0 ==> r.level == levels[|levels| - 1]
    ensures |levels| == 0 ==> r == m
    decreases |levels|
  {
    if |levels| == 0 then m else Run(Update(m, levels[0]).0, levels[1..])
  }

  /** Reporting the same level twice: the second report changes nothing. */
  lemma RepeatUnchanged(m: Monitor, level: Value)
    ensures Update(Update(m, level).0, level).0 == Update(m, level).0
    ensures Update(Update(m, level).0, level).1 ==
      if IsNumeric(level) then Ok(false) else Raise(TypeError)
  {
  }

  /** An update that reports no change, or raised, kept both flags. */
  lemma NoChangeKeepsFlags(m: Monitor, level: Value)
    ensures Update(m, level).1 != Ok(true) ==>
      Update(m, level).0 == m.(level := level)
  {
  }

  /** Once charging, the monitor keeps charging until a numeric reading reaches 80%. */
  lemma {:induction false} ChargesUntilFull(m: Monitor, levels: seq<Value>)
    requires m.charging
    requires forall i :: 0 <= i < |levels| ==> !IsNumeric(levels[i]) || NumOf(levels[i]) < ChargeStop
    ensures Run(m, levels).charging
    decreases |levels|
  {
    if |levels| > 0 {
      var next := Update(m, levels[0]).0;
      assert next.charging;
      ChargesUntilFull(next, levels[1..]);
    }
  }

  /** Once not charging, the monitor stays off until a numeric reading drops to 5%. */
  lemma {:induction false} IdleUntilEmpty(m: Monitor, levels: seq<Value>)
    requires !m.charging
    requires forall i :: 0 <= i < |levels| ==> !IsNumeric(levels[i]) || NumOf(levels[i]) > ChargeStart
    ensures !Run(m, levels).charging
    decreases |levels|
  {
    if |levels| > 0 {
      var next := Update(m, levels[0]).0;
      assert !next.charging;
      IdleUntilEmpty(next, levels[1..]);
    }
  }

  /**
    After any run whose last reading is a number, the communication flag matches
    that reading, whatever came before.
   */
  lemma {:induction false} RunCommunication(m: Monitor, levels: seq<Value>)
    requires |levels| > 0 && IsNumeric(levels[|levels| - 1])
    ensures Run(m, levels).communication <==> NumOf(levels[|levels| - 1]) >= CommThreshold
    decreases |levels|
  {
    if |levels| > 1 {
      RunCommunication(Update(m, levels[0]).0, levels[1..]);
    }
  }

  /**
    Inside the band the charging flag depends on history: the same reading of 50%
    leaves a charging monitor charging and an idle one idle.
   */
  lemma BandRemembers()
    ensures Update(Monitor(VNum(3.0), true, false), VNum(50.0)).0.charging
    ensures !Update(Initial(), VNum(50.0)).0.charging
  {
  }

  /**
    A float reading just under the stop threshold keeps a charging monitor
    charging; a text reading is stored and then raises, with both flags kept.
   */
  lemma FractionalAndTextLevels()
    ensures Update(Monitor(VNum(3.0), true, false), VNum(79.5)) == (Monitor(VNum(79.5), true, true), Ok(true))
    ensures Update(Initial(), VStr("50")) == (Monitor(VStr("50"), false, true), Raise(TypeError))
  {
  }
}

=== FILE: nav_battery.dfy ===
/**
  The navigation stack's battery manager: a battery level with three thresholds
  (low, recharge, critical), a recharging flag, a communication status and a
  movement status. Every operation is a record update returning the new manager.
 */
module NavBattery {

  datatype Comm = Active | Inactive

  datatype Status = Idle | Moving | Stopped

  datatype Manager = Manager(
    level: int,
    low: int,
    rechargeAt: int,
    critical: int,
    recharging: bool,
    comm: Comm,
    status: Status)

  /**
    The `communication_status` text the manager stores; the navigator's gate
    compares it with "Inactive", which holds exactly for `Inactive`.
   */
  function CommText(c: Comm): (s: string)
    ensures s == "Active" || s == "Inactive"
    ensures s == "Active" <==> c == Active
    ensures s == "Inactive" <==> c == Inactive
  {
    match c
    case Active => "Active"
    case Inactive => "Inactive"
  }

  /** The `status` text the manager stores; each movement status has its own. */
  function StatusText(st: Status): (s: string)
    ensures s in {"idle", "moving", "stopped"}
    ensures s == "idle" <==> st == Idle
    ensures s == "moving" <==> st == Moving
    ensures s == "stopped" <==> st == Stopped
  {
    match st
    case Idle => "idle"
    case Moving => "moving"
    case Stopped => "stopped"
  }

  /** Operations never leave the recharging flag set: it is only raised inside a recharge. */
  predicate Settled(b: Manager) {
    !b.recharging
  }

  /** `BatteryManager(initial, low, recharge, critical)`. */
  function New(initial: int, low: int, rechargeAt: int, critical: int): (b: Manager)
    ensures b.level == initial && b.low == low && b.rechargeAt == rechargeAt && b.critical == critical
    ensures Settled(b) && b.status == Idle
    ensures b.comm == Active <==> initial > low
  {
    Manager(initial, low, rechargeAt, critical, false,
            if initial > low then Active else Inactive, Idle)
  }

  /** `BatteryManager()` with its default arguments. */
  function Default(): Manager {
    New(100, 10, 80, 5)
  }

  /** `update_battery_level(n)`: communication is lost strictly below the low threshold. */
  function UpdateLevel(b: Manager, n: int): (r: Manager)
    ensures r.level == n
    ensures r.comm == Inactive <==> n < b.low
    ensures r == b.(level := n, comm := r.comm)
  {
    b.(level := n, comm := if n < b.low then Inactive else Active)
  }

  /** `check_communication_status()`: recomputes communication from the stored level. */
  function CheckCommunicationStatus(b: Manager): (r: Manager)
    ensures r.comm == Inactive <==> b.level < b.low
    ensures r == b.(comm := r.comm)
  {
    b.(comm := if b.level < b.low then Inactive else Active)
  }

  /**
    `recharge_battery()`: when the level is below the recharge threshold and no
    recharge is running, count the level up one unit at a time to the threshold,
    then clear the flag and recompute communication with the constructor's strict
    comparison. Otherwise nothing happens.
   */
  method RechargeBattery(b: Manager) returns (r: Manager)
    ensures b.level < b.rechargeAt && !b.recharging ==>
      r.level == b.rechargeAt && !r.recharging
      && (r.comm == Active <==> b.rechargeAt > b.low)
      && r == b.(level := r.level, comm := r.comm)
    ensures !(b.level < b.rechargeAt && !b.recharging) ==> r == b
  {
    if b.level < b.rechargeAt && !b.recharging {
      var level := b.level;
      while level < b.rechargeAt
        invariant b.level <= level <= b.rechargeAt
        decreases b.rechargeAt - level
      {
        level := level + 1;
      }
      r := b.(level := level, recharging := false,
              comm := if level > b.low then Active else Inactive);
    } else {
      r := b;
    }
  }

  /** `stop_recharge()`: the flag is cleared only once the recharge threshold is reached. */
  function StopRecharge(b: Manager): (r: Manager)
    ensures r.recharging <==> b.recharging && b.level < b.rechargeAt
    ensures r == b.(recharging := r.recharging)
  {
    if b.level >= b.rechargeAt then b.(recharging := false) else b
  }

  /**
    `manage_battery_and_communication()`: below the critical level the rover stops
    and communication is left alone; up to the low threshold (inclusive) it idles
    and loses communication; above it, it moves.
   */
  function Manage(b: Manager): (r: Manager)
    ensures b.level < b.critical ==> r.status == Stopped && r.comm == b.comm
    ensures b.critical <= b.level <= b.low ==> r.status == Idle && r.comm == Inactive
    ensures b.critical <= b.level && b.low < b.level ==> r.status == Moving && r.comm == b.comm
    ensures r == b.(status := r.status, comm := r.comm)
  {
    if b.level < b.critical then b.(status := Stopped)
    else if b.level <= b.low then b.(status := Idle, comm := Inactive)
    else b.(status := Moving)
  }

  /** `handle_battery_cycle()`: recharge when the level is at or below the low threshold. */
  method HandleBatteryCycle(b: Manager) returns (r: Manager)
    ensures b.level <= b.low && b.level < b.rechargeAt && !b.recharging ==>
      r == b.(level := b.rechargeAt, comm := if b.rechargeAt > b.low then Active else Inactive)
    ensures !(b.level <= b.low && b.level < b.rechargeAt && !b.recharging) ==> r == b
    ensures Settled(b) ==> Settled(r)
  {
    if b.level <= b.low {
      r := RechargeBattery(b);
    } else {
      r := b;
    }
  }

  /** `simulate_movement(kind)`: stopped at or below the critical level, else moving. */
  function SimulateMovement(b: Manager, kind: string): (r: Manager)
    ensures r.status == Stopped <==> b.level <= b.critical
    ensures r.status != Idle
    ensures r == b.(status := r.status)
  {
    if b.level <= b.critical then b.(status := Stopped) else b.(status := Moving)
  }

  // ---------------------------------------------------------------------------
  // Properties relating the operations

  /** Checking communication agrees with re-reporting the stored level. */
  lemma CheckIsUpdate(b: Manager)
    ensures CheckCommunicationStatus(b) == UpdateLevel(b, b.level)
  {
  }

  /** Reporting a level and then checking changes nothing further. */
  lemma CheckAfterUpdate(b: Manager, n: int)
    ensures CheckCommunicationStatus(UpdateLevel(b, n)) == UpdateLevel(b, n)
  {
  }

  /**
    The constructor and `update_battery_level` disagree exactly at the low
    threshold: a manager created at that level has no communication, yet
    reporting the same level restores it.
   */
  lemma ThresholdDisagreement(low: int, rechargeAt: int, critical: int)
    ensures New(low, low, rechargeAt, critical).comm == Inactive
    ensures UpdateLevel(New(low, low, rechargeAt, critical), low).comm == Active
  {
  }

  /** Away from the low threshold the constructor and an update agree. */
  lemma ConstructorAgreesOffThreshold(initial: int, low: int, rechargeAt: int, critical: int)
    requires initial != low
    ensures UpdateLevel(New(initial, low, rechargeAt, critical), initial) == New(initial, low, rechargeAt, critical)
  {
  }

  /**
    `manage` and `simulate_movement` use different comparisons with the critical
    level: at exactly that level the first keeps the rover going while the second
    stops it.
   */
  lemma CriticalDisagreement(b: Manager, kind: string)
    requires b.level == b.critical
    ensures Manage(b).status != Stopped
    ensures SimulateMovement(b, kind).status == Stopped
  {
  }

  /** Managing twice is managing once. */
  lemma ManageIdempotent(b: Manager)
    ensures Manage(Manage(b)) == Manage(b)
  {
  }

  /** `manage` only takes communication away. */
  lemma ManageNeverRestores(b: Manager)
    ensures b.comm == Inactive ==> Manage(b).comm == Inactive
    ensures Manage(b).comm == Active ==> b.comm == Active && Manage(b).status != Idle
  {
  }

  /** Every operation keeps the recharging flag clear. */
  lemma SettledPreserved(b: Manager, n: int, kind: string)
    requires Settled(b)
    ensures Settled(UpdateLevel(b, n)) && Settled(CheckCommunicationStatus(b))
    ensures Settled(StopRecharge(b)) && Settled(Manage(b)) && Settled(SimulateMovement(b, kind))
  {
  }

  /** With the default thresholds, a cycle at low battery brings communication back. */
  method DefaultCycleRestores(n: int) returns (r: Manager)
    requires n <= 10
    ensures r.level == 80 && r.comm == Active && Settled(r)
  {
    var b := UpdateLevel(Default(), n);
    r := HandleBatteryCycle(b);
  }
}

=== FILE: pathfinding.dfy ===
/**
  Unit-cost shortest paths on a rows-by-cols occupancy map: Dijkstra's search with a
  priority queue ordered by (cost, x, y), moves to the four orthogonal neighbours
  only, a stop as soon as the goal leaves the queue, and the path rebuilt by walking
  predecessor links back from the goal.

  The returned path starts at `start` and ends at `goal`. When the goal cannot be
  reached (walled off, an obstacle itself, or off the map) the result is `[goal]`.
 */
module Pathfinding {
  import opened PyValue

  type Cell = (int, int)

  /** A 2-D map of cell values; `rows` and `cols` are the array's shape. */
  datatype Grid = Grid(rows: nat, cols: nat, cells: seq<seq<int>>)

  /** The cell values form a rectangular `rows` by `cols` array. */
  predicate WellFormed(g: Grid) {
    |g.cells| == g.rows && forall i :: 0 <= i < |g.cells| ==> |g.cells[i]| == g.cols
  }

  predicate InBounds(g: Grid, c: Cell) {
    0 <= c.0 < g.rows && 0 <= c.1 < g.cols
  }

  /** A cell the rover may enter: on the map and holding the value 0. */
  predicate Open(g: Grid, c: Cell) {
    InBounds(g, c) && c.0 < |g.cells| && c.1 < |g.cells[c.0]| && g.cells[c.0][c.1] == 0
  }

  /** The four neighbours in the order the search tries them: up, down, left, right in x/y. */
  function Neighbors(c: Cell): seq<Cell> {
    [(c.0 - 1, c.1), (c.0 + 1, c.1), (c.0, c.1 - 1), (c.0, c.1 + 1)]
  }

  /** One unit step along exactly one axis. */
  predicate Adjacent(a: Cell, b: Cell) {
    || (a.1 == b.1 && (a.0 - b.0 == 1 || b.0 - a.0 == 1))
    || (a.0 == b.0 && (a.1 - b.1 == 1 || b.1 - a.1 == 1))
  }

  lemma NeighborsAreAdjacent(c: Cell, n: Cell)
    ensures n in Neighbors(c) <==> Adjacent(c, n)
  {
  }

  // ---------------------------------------------------------------------------
  // Walks: the reference notion of a path on the map

  /** Move `i` of `p` is a unit step into an open cell. */
  predicate StepAt(g: Grid, p: seq<Cell>, i: int) {
    0 <= i < |p| - 1 && Adjacent(p[i], p[i + 1]) && Open(g, p[i + 1])
  }

  /**
    A walk: unit steps between consecutive cells, and every cell after the first
    open. The first cell is where the rover stands and need not be open.
   */
  predicate IsWalk(g: Grid, p: seq<Cell>) {
    |p| > 0 && forall i :: 0 <= i < |p| - 1 ==> StepAt(g, p, i)
  }

  predicate WalkBetween(g: Grid, p: seq<Cell>, s: Cell, t: Cell) {
    IsWalk(g, p) && p[0] == s && p[|p| - 1] == t
  }

  ghost predicate Reachable(g: Grid, s: Cell, t: Cell) {
    exists p :: WalkBetween(g, p, s, t)
  }

  /** No walk from `s` to `t` takes fewer than `n` moves. */
  ghost predicate NoShorterWalk(g: Grid, s: Cell, t: Cell, n: int) {
    forall p :: WalkBetween(g, p, s, t) ==> n <= |p| - 1
  }

  lemma WalkPrefix(g: Grid, p: seq<Cell>, j: nat)
    requires IsWalk(g, p) && j < |p|
    ensures IsWalk(g, p[..j + 1])
  {
    var q := p[..j + 1];
    forall i | 0 <= i < |q| - 1
      ensures StepAt(g, q, i)
    {
      assert StepAt(g, p, i);
    }
  }

  // ---------------------------------------------------------------------------
  // The priority queue

  /** A queue entry `(cost, (x, y))`. */
  datatype Entry = Entry(cost: nat, cell: Cell)

  /** Python's tuple order on `(cost, (x, y))`. */
  predicate EntryLe(a: Entry, b: Entry) {
    || a.cost < b.cost
    || (a.cost == b.cost && a.cell.0 < b.cell.0)
    || (a.cost == b.cost && a.cell.0 == b.cell.0 && a.cell.1 <= b.cell.1)
  }

  /** `heapq.heappop`: removes one least entry. */
  method PopMin(queue: seq<Entry>) returns (e: Entry, rest: seq<Entry>)
    requires |queue| > 0
    ensures e in queue
    ensures forall x :: x in queue ==> EntryLe(e, x)
    ensures forall x :: x in rest ==> x in queue
    ensures forall x :: x in queue && x != e ==> x in rest
    ensures |rest| == |queue| - 1
    ensures multiset(rest) == multiset(queue) - multiset{e}
  {
    var best := 0;
    var i := 1;
    while i < |queue|
      invariant 0 <= best < |queue|
      invariant 1 <= i <= |queue|
      invariant forall m :: 0 <= m < i ==> EntryLe(queue[best], queue[m])
    {
      if !EntryLe(queue[best], queue[i]) {
        best := i;
      }
      i := i + 1;
    }
    e := queue[best];
    rest := queue[..best] + queue[best + 1..];
    assert queue == queue[..best] + [e] + queue[best + 1..];
    assert multiset(queue) == multiset(queue[..best]) + multiset{e} + multiset(queue[best + 1..]);
  }

  // ---------------------------------------------------------------------------
  // Search state and its invariant

  type Costs = map<Cell, nat>
  type Links = map<Cell, Option<Cell>>

  /** The queue, the best known cost of each discovered cell, and its predecessor (`None` for the start). */
  datatype Search = Search(queue: seq<Entry>, dist: Costs, prev: Links)

  /** Relaxing neighbour `n` of `cur`, popped at `cost`: record it when it is open and new or cheaper. */
  function Relax(g: Grid, s: Search, cur: Cell, cost: nat, n: Cell): (r: Search)
    requires WellFormed(g)
    ensures Open(g, n) && (n !in s.dist || cost + 1 < s.dist[n]) ==> r == Improved(s, cur, cost, n)
    ensures !(Open(g, n) && (n !in s.dist || cost + 1 < s.dist[n])) ==> r == s
  {
    if 0 <= n.0 < g.rows && 0 <= n.1 < g.cols && g.cells[n.0][n.1] == 0 then
      var newCost := cost + 1;
      if n !in s.dist || newCost < s.dist[n] then
        Search(s.queue + [Entry(newCost, n)], s.dist[n := newCost], s.prev[n := Some(cur)])
      else s
    else s
  }

  /** The state after `n` is recorded at `cost + 1` via `cur`. */
  function Improved(s: Search, cur: Cell, cost: nat, n: Cell): Search {
    Search(s.queue + [Entry(cost + 1, n)], s.dist[n := cost + 1], s.prev[n := Some(cur)])
  }

  /** The start is discovered at cost 0 with no predecessor, and every discovered cell has a link entry. */
  ghost predicate Rooted(dist: Costs, prev: Links, start: Cell) {
    start in dist && dist[start] == 0 && prev.Keys == dist.Keys && prev[start] == None
  }

  /** Discovered cell `c` is linked to a visited predecessor one step cheaper. */
  ghost predicate Linked(g: Grid, dist: Costs, prev: Links, visited: set<Cell>, c: Cell) {
    && c in dist && c in prev && prev[c].Some?
    && prev[c].value in visited && prev[c].value in dist
    && Adjacent(prev[c].value, c) && Open(g, c)
    && dist[c] == dist[prev[c].value] + 1
  }

  ghost predicate AllLinked(g: Grid, start: Cell, dist: Costs, prev: Links, visited: set<Cell>) {
    forall c :: c in dist && c != start ==> Linked(g, dist, prev, visited, c)
  }

  /** A queue entry names a discovered cell, at no less than its best cost and the last popped cost. */
  ghost predicate Queued(g: Grid, start: Cell, dist: Costs, last: nat, e: Entry) {
    e.cell in dist && dist[e.cell] <= e.cost && last <= e.cost && (e.cell == start || Open(g, e.cell))
  }

  ghost predicate AllQueued(g: Grid, start: Cell, queue: seq<Entry>, dist: Costs, last: nat) {
    forall e :: e in queue ==> Queued(g, start, dist, last, e)
  }

  /** Every discovered, unvisited cell waits in the queue at its best cost. */
  ghost predicate FrontierQueued(queue: seq<Entry>, dist: Costs, visited: set<Cell>) {
    forall c :: c in dist && c !in visited ==> Entry(dist[c], c) in queue
  }

  /** Visited cells were popped no later than `last`, at a cost no walk beats. */
  ghost predicate Settled(g: Grid, start: Cell, dist: Costs, visited: set<Cell>, last: nat) {
    forall v :: v in visited ==> v in dist && dist[v] <= last && NoShorterWalk(g, start, v, dist[v])
  }

  ghost predicate Core(g: Grid, start: Cell, goal: Cell, s: Search, visited: set<Cell>, last: nat) {
    && Rooted(s.dist, s.prev, start)
    && goal !in visited
    && AllLinked(g, start, s.dist, s.prev, visited)
    && AllQueued(g, start, s.queue, s.dist, last)
    && FrontierQueued(s.queue, s.dist, visited)
    && Settled(g, start, s.dist, visited, last)
  }

  /** The first `upto` neighbours of `v` have been relaxed from it. */
  ghost predicate Expanded(g: Grid, dist: Costs, v: Cell, upto: nat) {
    && v in dist
    && forall i :: 0 <= i < upto && i < 4 ==>
         (Open(g, Neighbors(v)[i]) ==> Neighbors(v)[i] in dist && dist[Neighbors(v)[i]] <= dist[v] + 1)
  }

  ghost predicate AllExpanded(g: Grid, dist: Costs, cells: set<Cell>) {
    forall v :: v in cells ==> Expanded(g, dist, v, 4)
  }

  /** The link from a discovered cell other than the start goes one step back to a cheaper discovered cell. */
  ghost predicate Chained(g: Grid, start: Cell, dist: Costs, prev: Links) {
    forall c :: c in dist && c != start ==>
      c in prev && prev[c].Some? && prev[c].value in dist && Adjacent(prev[c].value, c) && Open(g, c)
      && dist[c] == dist[prev[c].value] + 1
  }

  /** What the search leaves for path reconstruction. */
  ghost predicate Outcome(g: Grid, start: Cell, goal: Cell, s: Search) {
    && Rooted(s.dist, s.prev, start)
    && Chained(g, start, s.dist, s.prev)
    && (goal in s.dist ==> NoShorterWalk(g, start, goal, s.dist[goal]))
    && (goal !in s.dist ==> !Reachable(g, start, goal))
  }

  /** `b` was discovered from `a`. */
  ghost predicate LinkedBack(s: Search, start: Cell, a: Cell, b: Cell) {
    b in s.dist && b != start && b in s.prev && s.prev[b] == Some(a)
  }

  // ---------------------------------------------------------------------------
  // Invariant maintenance

  lemma InitialCore(g: Grid, start: Cell, goal: Cell)
    ensures var s := Search([Entry(0, start)], map[start := 0], map[start := None]);
            Core(g, start, goal, s, {}, 0) && AllExpanded(g, s.dist, {})
  {
    var s := Search([Entry(0, start)], map[start := 0], map[start := None]);
    assert AllQueued(g, start, s.queue, s.dist, 0) by {
      forall e | e in s.queue
        ensures Queued(g, start, s.dist, 0, e)
      {
        assert e == Entry(0, start);
      }
    }
  }

  /** Linking stays valid when more cells are visited. */
  lemma LinkedMore(g: Grid, start: Cell, dist: Costs, prev: Links, visited: set<Cell>, more: set<Cell>)
    requires AllLinked(g, start, dist, prev, visited) && visited <= more
    ensures AllLinked(g, start, dist, prev, more)
  {
    forall c | c in dist && c != start
      ensures Linked(g, dist, prev, more, c)
    {
      assert Linked(g, dist, prev, visited, c);
    }
  }

  /** Popping an entry of an already visited cell keeps the invariant. */
  lemma SkipVisited(g: Grid, start: Cell, goal: Cell, s: Search, visited: set<Cell>, last: nat, e: Entry, rest: seq<Entry>)
    requires Core(g, start, goal, s, visited, last)
    requires forall x :: x in rest ==> x in s.queue
    requires forall x :: x in s.queue && x != e ==> x in rest
    requires e.cell in visited
    ensures Core(g, start, goal, s.(queue := rest), visited, last)
  {
    forall c | c in s.dist && c !in visited
      ensures Entry(s.dist[c], c) in rest
    {
      assert Entry(s.dist[c], c) in s.queue;
    }
    forall x | x in rest
      ensures Queued(g, start, s.dist, last, x)
    {
      assert x in s.queue;
    }
  }

  /**
    A walk from the start to an unvisited cell crosses the frontier: some cell on it
    is discovered, unvisited, and known at a cost no larger than its index.
   */
  lemma WalkCrossesFrontier(g: Grid, start: Cell, dist: Costs, prev: Links, visited: set<Cell>, last: nat, q: seq<Cell>)
    returns (j: nat)
    requires Rooted(dist, prev, start) && Settled(g, start, dist, visited, last) && AllExpanded(g, dist, visited)
    requires IsWalk(g, q) && q[0] == start && q[|q| - 1] !in visited
    ensures j < |q| && q[j] in dist && q[j] !in visited && dist[q[j]] <= j
  {
    j := 0;
    while q[j] in visited
      invariant j < |q|
      invariant forall i :: 0 <= i < j ==> q[i] in visited
      decreases |q| - j
    {
      j := j + 1;
    }
    if j > 0 {
      var p := q[j - 1];
      WalkPrefix(g, q, j - 1);
      assert WalkBetween(g, q[..j], start, p);
      assert dist[p] <= j - 1;
      assert StepAt(g, q, j - 1);
      NeighborsAreAdjacent(p, q[j]);
      assert Expanded(g, dist, p, 4);
      var i :| 0 <= i < 4 && Neighbors(p)[i] == q[j];
    }
  }

  /** The least entry of an unvisited cell carries its best cost, and no walk reaches the cell more cheaply. */
  lemma PopOptimal(g: Grid, start: Cell, goal: Cell, s: Search, visited: set<Cell>, last: nat, e: Entry)
    requires Core(g, start, goal, s, visited, last) && AllExpanded(g, s.dist, visited)
    requires e in s.queue && forall x :: x in s.queue ==> EntryLe(e, x)
    requires e.cell !in visited
    ensures e.cell in s.dist && e.cost == s.dist[e.cell]
    ensures NoShorterWalk(g, start, e.cell, e.cost)
  {
    assert Queued(g, start, s.dist, last, e);
    assert Entry(s.dist[e.cell], e.cell) in s.queue;
    forall q | WalkBetween(g, q, start, e.cell)
      ensures e.cost <= |q| - 1
    {
      var j := WalkCrossesFrontier(g, start, s.dist, s.prev, visited, last, q);
      assert Entry(s.dist[q[j]], q[j]) in s.queue;
    }
  }

  /** Marking the popped cell visited starts its expansion with the invariant intact. */
  lemma Visit(g: Grid, start: Cell, goal: Cell, s: Search, visited: set<Cell>, last: nat, e: Entry, rest: seq<Entry>)
    requires Core(g, start, goal, s, visited, last) && AllExpanded(g, s.dist, visited)
    requires e in s.queue && forall x :: x in s.queue ==> EntryLe(e, x)
    requires forall x :: x in rest ==> x in s.queue
    requires forall x :: x in s.queue && x != e ==> x in rest
    requires e.cell !in visited && e.cell != goal
    ensures e.cell in s.dist && s.dist[e.cell] == e.cost
    ensures Core(g, start, goal, s.(queue := rest), visited + {e.cell}, e.cost)
  {
    PopOptimal(g, start, goal, s, visited, last, e);
    var visited' := visited + {e.cell};
    assert Queued(g, start, s.dist, last, e);
    LinkedMore(g, start, s.dist, s.prev, visited, visited');
    forall c | c in s.dist && c !in visited'
      ensures Entry(s.dist[c], c) in rest
    {
      assert Entry(s.dist[c], c) in s.queue;
    }
    forall x | x in rest
      ensures Queued(g, start, s.dist, e.cost, x)
    {
      assert Queued(g, start, s.dist, last, x);
      assert EntryLe(e, x);
    }
  }

  /** Recording a cheaper cost for open neighbour `n` of the visited cell `cur`. */
  ghost predicate Improves(g: Grid, s: Search, visited: set<Cell>, cur: Cell, k: nat, n: Cell) {
    && cur in visited && cur in s.dist && s.dist[cur] == k && Adjacent(cur, n)
    && Open(g, n) && (n !in s.dist || k + 1 < s.dist[n])
  }

  lemma ImproveLinks(g: Grid, start: Cell, s: Search, visited: set<Cell>, cur: Cell, k: nat, n: Cell)
    requires AllLinked(g, start, s.dist, s.prev, visited) && Improves(g, s, visited, cur, k, n)
    requires n !in visited
    ensures var s' := Improved(s, cur, k, n);
            AllLinked(g, start, s'.dist, s'.prev, visited)
  {
    var s' := Improved(s, cur, k, n);
    forall c | c in s'.dist && c != start
      ensures Linked(g, s'.dist, s'.prev, visited, c)
    {
      if c != n {
        assert Linked(g, s.dist, s.prev, visited, c);
      }
    }
  }

  lemma ImproveQueue(g: Grid, start: Cell, s: Search, visited: set<Cell>, cur: Cell, k: nat, n: Cell)
    requires AllQueued(g, start, s.queue, s.dist, k) && FrontierQueued(s.queue, s.dist, visited)
    requires Improves(g, s, visited, cur, k, n)
    ensures var s' := Improved(s, cur, k, n);
            AllQueued(g, start, s'.queue, s'.dist, k) && FrontierQueued(s'.queue, s'.dist, visited)
  {
    var s' := Improved(s, cur, k, n);
    forall x | x in s'.queue
      ensures Queued(g, start, s'.dist, k, x)
    {
      if x != Entry(k + 1, n) {
        assert x in s.queue;
        assert Queued(g, start, s.dist, k, x);
      }
    }
    forall c | c in s'.dist && c !in visited
      ensures Entry(s'.dist[c], c) in s'.queue
    {
      if c != n {
        assert Entry(s.dist[c], c) in s.queue;
      }
    }
  }

  lemma ImproveCore(g: Grid, start: Cell, goal: Cell, s: Search, visited: set<Cell>, cur: Cell, k: nat, n: Cell)
    requires Core(g, start, goal, s, visited, k) && Improves(g, s, visited, cur, k, n)
    ensures n !in visited
    ensures Core(g, start, goal, Improved(s, cur, k, n), visited, k)
  {
    var s' := Improved(s, cur, k, n);
    assert n !in visited;
    ImproveLinks(g, start, s, visited, cur, k, n);
    ImproveQueue(g, start, s, visited, cur, k, n);
    assert n != start;
    forall v | v in visited
      ensures v in s'.dist && s'.dist[v] <= k && NoShorterWalk(g, start, v, s'.dist[v])
    {
      assert v != n;
    }
  }

  /** Costs that only drop, on a superset of cells, keep a cell's expansion. */
  lemma ExpandedKept(g: Grid, dist: Costs, dist': Costs, v: Cell, upto: nat)
    requires Expanded(g, dist, v, upto)
    requires dist.Keys <= dist'.Keys && v in dist' && dist'[v] == dist[v]
    requires forall c :: c in dist ==> dist'[c] <= dist[c]
    ensures Expanded(g, dist', v, upto)
  {
    forall i | 0 <= i < upto && i < 4 && Open(g, Neighbors(v)[i])
      ensures Neighbors(v)[i] in dist' && dist'[Neighbors(v)[i]] <= dist'[v] + 1
    {
      assert Neighbors(v)[i] in dist;
    }
  }

  lemma AllExpandedKept(g: Grid, dist: Costs, dist': Costs, cells: set<Cell>)
    requires AllExpanded(g, dist, cells)
    requires dist.Keys <= dist'.Keys && forall c :: c in cells ==> c in dist' && dist'[c] == dist[c]
    requires forall c :: c in dist ==> dist'[c] <= dist[c]
    ensures AllExpanded(g, dist', cells)
  {
    forall v | v in cells
      ensures Expanded(g, dist', v, 4)
    {
      ExpandedKept(g, dist, dist', v, 4);
    }
  }

  /** Relaxing the next neighbour of the cell being expanded keeps the invariant. */
  lemma RelaxStep(g: Grid, start: Cell, goal: Cell, s: Search, visited: set<Cell>, cur: Cell, k: nat, j: nat)
    requires WellFormed(g)
    requires Core(g, start, goal, s, visited, k)
    requires cur in visited && cur in s.dist && s.dist[cur] == k
    requires AllExpanded(g, s.dist, visited - {cur}) && Expanded(g, s.dist, cur, j) && j < 4
    ensures var s' := Relax(g, s, cur, k, Neighbors(cur)[j]);
            && Core(g, start, goal, s', visited, k)
            && cur in s'.dist && s'.dist[cur] == k
            && AllExpanded(g, s'.dist, visited - {cur}) && Expanded(g, s'.dist, cur, j + 1)
  {
    var n := Neighbors(cur)[j];
    if Open(g, n) && (n !in s.dist || k + 1 < s.dist[n]) {
      NeighborsAreAdjacent(cur, n);
      assert Improves(g, s, visited, cur, k, n);
      ImproveCore(g, start, goal, s, visited, cur, k, n);
      ImproveExpanded(g, s, visited, cur, k, j);
    }
  }

  lemma ImproveExpanded(g: Grid, s: Search, visited: set<Cell>, cur: Cell, k: nat, j: nat)
    requires j < 4 && Improves(g, s, visited, cur, k, Neighbors(cur)[j])
    requires AllExpanded(g, s.dist, visited - {cur}) && Expanded(g, s.dist, cur, j)
    requires Neighbors(cur)[j] !in visited
    ensures var s' := Improved(s, cur, k, Neighbors(cur)[j]);
            && AllExpanded(g, s'.dist, visited - {cur}) && Expanded(g, s'.dist, cur, j + 1)
  {
    var n := Neighbors(cur)[j];
    var s' := Improved(s, cur, k, n);
    assert forall c :: c in s.dist ==> s'.dist[c] <= s.dist[c];
    AllExpandedKept(g, s.dist, s'.dist, visited - {cur});
    ExpandedKept(g, s.dist, s'.dist, cur, j);
  }

  /** A set holding the start and closed under open neighbours holds the end of every walk. */
  lemma {:induction false} ClosedUnderWalks(g: Grid, dist: Costs, closed: set<Cell>, p: seq<Cell>)
    requires AllExpanded(g, dist, closed) && dist.Keys <= closed
    requires IsWalk(g, p) && p[0] in closed
    ensures p[|p| - 1] in closed
  {
    if |p| > 1 {
      var q := p[..|p| - 1];
      WalkPrefix(g, p, |p| - 2);
      ClosedUnderWalks(g, dist, closed, q);
      var a, b := p[|p| - 2], p[|p| - 1];
      assert a == q[|q| - 1];
      assert StepAt(g, p, |p| - 2);
      NeighborsAreAdjacent(a, b);
      assert Expanded(g, dist, a, 4);
      var i :| 0 <= i < 4 && Neighbors(a)[i] == b;
    }
  }

  lemma LinksChained(g: Grid, start: Cell, dist: Costs, prev: Links, visited: set<Cell>)
    requires AllLinked(g, start, dist, prev, visited)
    ensures Chained(g, start, dist, prev)
  {
    forall c | c in dist && c != start
      ensures prev[c].Some? && prev[c].value in dist && Adjacent(prev[c].value, c) && Open(g, c)
              && dist[c] == dist[prev[c].value] + 1
    {
      assert Linked(g, dist, prev, visited, c);
    }
  }

  /** With the queue empty, every discovered cell is visited and closed, so the goal is out of reach. */
  lemma Exhausted(g: Grid, start: Cell, goal: Cell, s: Search, visited: set<Cell>, last: nat)
    requires Core(g, start, goal, s, visited, last) && AllExpanded(g, s.dist, visited)
    requires |s.queue| == 0
    ensures Outcome(g, start, goal, s)
  {
    assert s.dist.Keys <= visited by {
      forall c | c in s.dist
        ensures c in visited
      {
        if c !in visited {
          assert false;
        }
      }
    }
    LinksChained(g, start, s.dist, s.prev, visited);
    if Reachable(g, start, goal) {
      var p :| WalkBetween(g, p, start, goal);
      ClosedUnderWalks(g, s.dist, visited, p);
      assert false;
    }
  }

  /** Every cell of a `rows` by `cols` map. */
  ghost function Box(rows: nat, cols: nat): (r: set<Cell>)
    ensures forall c :: c in r <==> 0 <= c.0 < rows && 0 <= c.1 < cols
  {
    if rows == 0 then {} else Box(rows - 1, cols) + Row(rows - 1, cols)
  }

  ghost function Row(x: int, cols: nat): (r: set<Cell>)
    ensures forall c :: c in r <==> c.0 == x && 0 <= c.1 < cols
  {
    if cols == 0 then {} else Row(x, cols - 1) + {(x, cols - 1)}
  }

  // ---------------------------------------------------------------------------
  // The search

  /** The inner loop of `dijkstra_path`: relax the four neighbours of `cur`, just popped at `cost`. */
  method ExpandCell(g: Grid, start: Cell, goal: Cell, s: Search, ghost visited: set<Cell>, cur: Cell, cost: nat)
    returns (s': Search)
    requires WellFormed(g)
    requires Core(g, start, goal, s, visited, cost)
    requires cur in visited && cur in s.dist && s.dist[cur] == cost
    requires AllExpanded(g, s.dist, visited - {cur})
    ensures Core(g, start, goal, s', visited, cost) && AllExpanded(g, s'.dist, visited)
  {
    s' := s;
    var neighbors := Neighbors(cur);
    for j := 0 to 4
      invariant Core(g, start, goal, s', visited, cost)
      invariant cur in s'.dist && s'.dist[cur] == cost
      invariant AllExpanded(g, s'.dist, visited - {cur}) && Expanded(g, s'.dist, cur, j)
    {
      RelaxStep(g, start, goal, s', visited, cur, cost, j);
      s' := Relax(g, s', cur, cost, neighbors[j]);
    }
  }

  /**
    The main loop of `dijkstra_path`: pop the least entry, skip it if already
    visited, stop at the goal, otherwise expand it.
   */
  method Explore(g: Grid, start: Cell, goal: Cell) returns (s: Search)
    requires WellFormed(g)
    ensures Outcome(g, start, goal, s)
  {
    s := Search([Entry(0, start)], map[start := 0], map[start := None]);
    var visited: set<Cell> := {};
    ghost var last: nat := 0;
    ghost var universe := Box(g.rows, g.cols) + {start};
    var found := false;
    InitialCore(g, start, goal);

    while |s.queue| > 0
      invariant !found
      invariant Core(g, start, goal, s, visited, last) && AllExpanded(g, s.dist, visited)
      invariant visited <= universe
      decreases universe - visited, |s.queue|
    {
      var e, rest := PopMin(s.queue);
      if e.cell in visited {
        SkipVisited(g, start, goal, s, visited, last, e, rest);
        s := s.(queue := rest);
        continue;
      }
      assert Queued(g, start, s.dist, last, e);
      assert e.cell in universe;
      if e.cell == goal {
        PopOptimal(g, start, goal, s, visited, last, e);
        LinksChained(g, start, s.dist, s.prev, visited);
        s := s.(queue := rest);
        visited := visited + {e.cell};
        found := true;
        break;
      }
      Visit(g, start, goal, s, visited, last, e, rest);
      s := s.(queue := rest);
      visited := visited + {e.cell};
      last := e.cost;
      s := ExpandCell(g, start, goal, s, visited, e.cell, e.cost);
    }
    if !found {
      Exhausted(g, start, goal, s, visited, last);
    }
  }

  /**
    The part of the path rebuilt so far: `path` leads from the cell after `current`
    to the goal along predecessor links, and its length matches the costs.
   */
  ghost predicate Trail(g: Grid, start: Cell, goal: Cell, s: Search, path: seq<Cell>, current: Option<Cell>) {
    && (current.Some? && path == [] ==> current.value == goal)
    && (current.Some? && path != [] ==>
          current.value in s.dist && LinkedBack(s, start, current.value, path[0]))
    && (path != [] ==> path[|path| - 1] == goal)
    && (forall i :: 0 <= i < |path| - 1 ==> LinkedBack(s, start, path[i], path[i + 1]))
    && (goal in s.dist ==> forall i :: 0 <= i < |path| ==>
          path[i] in s.dist && s.dist[path[i]] + (|path| - 1 - i) == s.dist[goal])
    && (goal in s.dist && current.None? ==> path != [] && path[0] == start)
    && (goal !in s.dist ==> (current.Some? ==> path == []) && (current.None? ==> path == [goal]))
  }

  function TrailMeasure(s: Search, current: Option<Cell>): nat {
    if current.None? then 0 else if current.value in s.dist then s.dist[current.value] + 2 else 1
  }

  /** One step back along the links keeps the trail and gets closer to the start. */
  lemma TrailStep(g: Grid, start: Cell, goal: Cell, s: Search, path: seq<Cell>, current: Option<Cell>)
    requires Outcome(g, start, goal, s) && Trail(g, start, goal, s, path, current) && current.Some?
    ensures var c := current.value;
            var next := if c in s.prev then s.prev[c] else None;
            Trail(g, start, goal, s, [c] + path, next) && TrailMeasure(s, next) < TrailMeasure(s, current)
  {
    var c := current.value;
    var path' := [c] + path;
    var next := if c in s.prev then s.prev[c] else None;
    forall i | 0 <= i < |path'| - 1
      ensures LinkedBack(s, start, path'[i], path'[i + 1])
    {
      if i > 0 {
        assert LinkedBack(s, start, path[i - 1], path[i]);
      }
    }
    if goal in s.dist {
      forall i | 0 <= i < |path'|
        ensures path'[i] in s.dist && s.dist[path'[i]] + (|path'| - 1 - i) == s.dist[goal]
      {
        if i > 0 {
          assert path'[i] == path[i - 1];
        }
      }
    }
  }

  /** Following predecessor links back from the goal, as `prev_nodes.get` does, until `None`. */
  method Reconstruct(g: Grid, start: Cell, goal: Cell, s: Search) returns (path: seq<Cell>)
    requires Outcome(g, start, goal, s)
    ensures |path| > 0 && path[|path| - 1] == goal
    ensures goal in s.dist ==> WalkBetween(g, path, start, goal) && |path| - 1 == s.dist[goal]
    ensures goal !in s.dist ==> path == [goal]
  {
    path := [];
    var current: Option<Cell> := Some(goal);
    while current.Some?
      invariant Trail(g, start, goal, s, path, current)
      decreases TrailMeasure(s, current)
    {
      TrailStep(g, start, goal, s, path, current);
      var c := current.value;
      path := [c] + path;
      current := if c in s.prev then s.prev[c] else None;
    }
    if goal in s.dist {
      forall i | 0 <= i < |path| - 1
        ensures StepAt(g, path, i)
      {
        assert LinkedBack(s, start, path[i], path[i + 1]);
      }
    }
  }

  /**
    `dijkstra_path`: the search, then the walk back along predecessor links.
    Reconstruction prepends each cell, which is what appending and then reversing
    produces.
   */
  method DijkstraPath(g: Grid, start: Cell, goal: Cell) returns (path: seq<Cell>)
    requires WellFormed(g)
    ensures |path| > 0 && path[|path| - 1] == goal
    ensures Reachable(g, start, goal) <==> WalkBetween(g, path, start, goal)
    ensures Reachable(g, start, goal) ==> NoShorterWalk(g, start, goal, |path| - 1)
    ensures !Reachable(g, start, goal) ==> path == [goal]
    ensures start == goal ==> path == [start]
  {
    var s := Explore(g, start, goal);
    path := Reconstruct(g, start, goal, s);
    if start == goal {
      assert WalkBetween(g, [start], start, goal);
    }
  }
}

=== FILE: py_value.dfy ===
/**
  Loosely-typed values as the rover code receives them: decoded JSON payloads and
  the Python values built from them. Python's `int` and `float` are one numeric case
  (`VNum`, an exact real); `bool` is numeric too, as `isinstance(True, int)` holds in
  Python. A dict is a sequence of key/value pairs in insertion order.

  Operations that raise in Python return `Raise(exc)`; only the class of the
  exception is kept.
 */
module PyValue {

  datatype Option<+T> = None | Some(value: T)

  datatype Exc = TypeError | ValueError | KeyError | AttributeError | StopIteration

  datatype Result<+T> = Ok(value: T) | Raise(exc: Exc)

  datatype Value =
    | VNone
    | VBool(b: bool)
    | VNum(n: real)
    | VStr(s: string)
    | VList(items: seq<Value>)
    | VTuple(items: seq<Value>)
    | VDict(entries: seq<(string, Value)>)

  type Dict = seq<(string, Value)>

  /** Python truthiness, `bool(v)`. */
  predicate Truthy(v: Value) {
    match v
    case VNone => false
    case VBool(b) => b
    case VNum(n) => n != 0.0
    case VStr(s) => |s| > 0
    case VList(items) => |items| > 0
    case VTuple(items) => |items| > 0
    case VDict(entries) => |entries| > 0
  }

  /** `isinstance(v, (int, float))`; booleans are ints in Python. */
  predicate IsNumeric(v: Value) {
    v.VBool? || v.VNum?
  }

  function NumOf(v: Value): (r: real)
    requires IsNumeric(v)
    ensures v.VNum? ==> r == v.n
    ensures v.VBool? ==> (r == 1.0 <==> v.b) && (r == 0.0 <==> !v.b)
  {
    if v.VNum? then v.n else if v.b then 1.0 else 0.0
  }

  function Abs(r: real): real {
    if r < 0.0 then -r else r
  }

  /** `items[i] if len(items) > i else default`. */
  function Element(items: seq<Value>, i: nat, default: Value): (r: Value)
    ensures i < |items| ==> r == items[i]
    ensures i >= |items| ==> r == default
  {
    if i < |items| then items[i] else default
  }

  // ---------------------------------------------------------------------------
  // Dictionaries

  predicate HasKey(d: Dict, k: string) {
    exists i :: 0 <= i < |d| && d[i].0 == k
  }

  /** The position of the first entry with key `k`. */
  function Slot(d: Dict, k: string): (r: Option<nat>)
    ensures r.None? <==> !HasKey(d, k)
    ensures r.Some? ==> r.value < |d| && d[r.value].0 == k
    ensures r.Some? ==> forall j :: 0 <= j < r.value ==> d[j].0 != k
  {
    if |d| == 0 then None
    else if d[0].0 == k then Some(0)
    else
      match Slot(d[1..], k)
      case None =>
        None
      case Some(i) =>
        assert forall j :: 1 <= j <= i ==> d[j] == d[1..][j - 1];
        Some(i + 1)
  }

  /** `d.get(k)`: the value stored under the first occurrence of `k`. */
  function Get(d: Dict, k: string): (r: Option<Value>)
    ensures r.Some? <==> HasKey(d, k)
  {
    match Slot(d, k)
    case Some(i) => Some(d[i].1)
    case None => None
  }

  /** `d.get(k, default)`. */
  function GetOr(d: Dict, k: string, default: Value): (r: Value)
    ensures !HasKey(d, k) ==> r == default
    ensures HasKey(d, k) ==> Some(r) == Get(d, k)
  {
    match Get(d, k)
    case Some(v) => v
    case None => default
  }

  /** Two dicts with the same keys in the same positions. */
  predicate SameKeys(a: Dict, b: Dict) {
    |a| == |b| && forall i :: 0 <= i < |a| ==> a[i].0 == b[i].0
  }

  lemma SameKeysSlot(a: Dict, b: Dict, k: string)
    requires SameKeys(a, b)
    ensures Slot(a, k) == Slot(b, k)
  {
    if HasKey(a, k) {
      var i :| 0 <= i < |a| && a[i].0 == k;
      assert b[i].0 == k;
    }
    if HasKey(b, k) {
      var i :| 0 <= i < |b| && b[i].0 == k;
      assert a[i].0 == k;
    }
  }

  /** `d[k] = v`: overwrites the value of an existing key in place, otherwise appends. */
  function Put(d: Dict, k: string, v: Value): (r: Dict)
    ensures HasKey(d, k) ==> |r| == |d| && SameKeys(d, r)
    ensures !HasKey(d, k) ==> r == d + [(k, v)]
  {
    match Slot(d, k)
    case Some(i) => d[i := (k, v)]
    case None => d + [(k, v)]
  }

  /** Reading back a key just written gives the written value. */
  lemma GetPutSame(d: Dict, k: string, v: Value)
    ensures Get(Put(d, k, v), k) == Some(v)
  {
    var r := Put(d, k, v);
    if HasKey(d, k) {
      SameKeysSlot(d, r, k);
    } else {
      assert r[|d|].0 == k;
      assert forall j :: 0 <= j < |d| ==> r[j] == d[j];
    }
  }

  /** Writing a key leaves every other key's value unchanged. */
  lemma GetPutOther(d: Dict, k: string, v: Value, j: string)
    requires j != k
    ensures Get(Put(d, k, v), j) == Get(d, j)
  {
    var r := Put(d, k, v);
    if HasKey(d, k) {
      SameKeysSlot(d, r, j);
      var i := Slot(d, k).value;
      if Slot(d, j).Some? {
        assert Slot(d, j).value != i;
      }
    } else {
      assert forall m :: 0 <= m < |d| ==> r[m] == d[m];
      if HasKey(d, j) {
        var i :| 0 <= i < |d| && d[i].0 == j;
        assert r[i].0 == j;
      }
    }
  }

  /** Writing back the value already stored under a key changes nothing. */
  lemma PutGetIdentity(d: Dict, k: string)
    requires HasKey(d, k)
    ensures Put(d, k, Get(d, k).value) == d
  {
  }

  /** The keys after a write: the old ones and the written one. */
  lemma PutKeys(d: Dict, k: string, v: Value, j: string)
    ensures HasKey(Put(d, k, v), j) <==> HasKey(d, j) || j == k
  {
    if j == k {
      GetPutSame(d, k, v);
    } else {
      GetPutOther(d, k, v, j);
    }
  }

  lemma GetTail(d: Dict, k: string)
    requires |d| > 0 && d[0].0 != k
    ensures Get(d, k) == Get(d[1..], k)
    ensures HasKey(d, k) <==> HasKey(d[1..], k)
  {
    if HasKey(d, k) {
      var i :| 0 <= i < |d| && d[i].0 == k;
      assert d[1..][i - 1].0 == k;
    }
    if HasKey(d[1..], k) {
      var i :| 0 <= i < |d[1..]| && d[1..][i].0 == k;
      assert d[i + 1].0 == k;
    }
  }

  /** `d.values()`, in insertion order. */
  function Values(d: Dict): (r: seq<Value>)
    ensures |r| == |d|
    ensures forall i :: 0 <= i < |d| ==> r[i] == d[i].1
  {
    if |d| == 0 then [] else [d[0].1] + Values(d[1..])
  }

  /**
    `a or b` in a condition where evaluating either operand may raise: an
    exception in `a` propagates, a true `a` skips `b`, and otherwise `b` decides.
   */
  function OrElse(a: Result<bool>, b: Result<bool>): (r: Result<bool>)
    ensures a.Raise? ==> r == a
    ensures a == Ok(true) ==> r == Ok(true)
    ensures a == Ok(false) ==> r == b
  {
    match a
    case Raise(_) => a
    case Ok(x) => if x then a else b
  }

  /**
    `t0 or t1 or …` over tests that may raise, read declaratively: the first test
    that does not come out false decides, and all false means false.
   */
  function AnyOf(tests: seq<Result<bool>>): (r: Result<bool>)
    ensures r == Ok(false) <==> forall k :: 0 <= k < |tests| ==> tests[k] == Ok(false)
    ensures r != Ok(false) ==>
      exists k :: 0 <= k < |tests| && tests[k] == r && forall m :: 0 <= m < k ==> tests[m] == Ok(false)
  {
    if |tests| == 0 then Ok(false)
    else if tests[0] != Ok(false) then tests[0]
    else
      var r := AnyOf(tests[1..]);
      assert forall k :: 1 <= k < |tests| ==> tests[k] == tests[1..][k - 1];
      r
  }

  /** The left-to-right `OrElse` chain computes `AnyOf`. */
  lemma AnyOfIsOrElse(a: Result<bool>, rest: seq<Result<bool>>)
    ensures AnyOf([a] + rest) == OrElse(a, AnyOf(rest))
  {
    assert ([a] + rest)[1..] == rest;
  }

  /** `a or b` as an `AnyOf`. */
  lemma OrChain2(a: Result<bool>, b: Result<bool>)
    ensures AnyOf([a, b]) == OrElse(a, OrElse(b, Ok(false)))
  {
    AnyOfIsOrElse(b, []);
    AnyOfIsOrElse(a, [b]);
    assert [b] + [] == [b];
    assert [a] + [b] == [a, b];
  }

  /** `a or b or c or d` as an `AnyOf`. */
  lemma OrChain4(a: Result<bool>, b: Result<bool>, c: Result<bool>, d: Result<bool>)
    ensures AnyOf([a, b, c, d]) == OrElse(a, OrElse(b, OrElse(c, OrElse(d, Ok(false)))))
  {
    AnyOfIsOrElse(d, []);
    AnyOfIsOrElse(c, [d]);
    AnyOfIsOrElse(b, [c, d]);
    AnyOfIsOrElse(a, [b, c, d]);
    assert [d] + [] == [d];
    assert [c] + [d] == [c, d];
    assert [b] + [c, d] == [b, c, d];
    assert [a] + [b, c, d] == [a, b, c, d];
  }

  // ---------------------------------------------------------------------------
  // Text

  /**
    `str.lower()` on one character, for the letters whose lowercase is an ASCII
    letter: A to Z, and the KELVIN SIGN U+212A, which lowercases to 'k'. Every
    other character is left alone (see the README on non-ASCII letters).
   */
  function LowerChar(c: char): (r: char)
    ensures 'A' <= c <= 'Z' ==> 'a' <= r <= 'z' && r as int == c as int + 32
    ensures c == KelvinSign ==> r == 'k'
    ensures !('A' <= c <= 'Z') && c != KelvinSign ==> r == c
  {
    if 'A' <= c <= 'Z' then (c as int + 32) as char
    else if c == KelvinSign then 'k'
    else c
  }

  const KelvinSign: char := '\U{212A}'

  /** The only characters that lowercase to an ASCII letter are A to Z, the letter itself and the Kelvin sign. */
  lemma LowerCharToAscii(c: char)
    ensures 'a' <= LowerChar(c) <= 'z' <==> 'A' <= c <= 'Z' || 'a' <= c <= 'z' || c == KelvinSign
  {
  }

  function Lower(s: string): (r: string)
    ensures |r| == |s|
    ensures forall i :: 0 <= i < |s| ==> r[i] == LowerChar(s[i])
  {
    if |s| == 0 then "" else [LowerChar(s[0])] + Lower(s[1..])
  }

  /** Lowercasing works character by character, so it distributes over concatenation. */
  lemma LowerAppend(a: string, b: string)
    ensures Lower(a + b) == Lower(a) + Lower(b)
  {
    assert forall i :: 0 <= i < |a + b| ==> Lower(a + b)[i] == (Lower(a) + Lower(b))[i];
  }

  predicate HasPrefix(s: string, t: string) {
    |t| <= |s| && s[..|t|] == t
  }

  /** Python's substring test `t in s`. */
  predicate Contains(s: string, t: string)
    decreases |s|
  {
    HasPrefix(s, t) || (|s| > 0 && Contains(s[1..], t))
  }

  predicate OccursAt(s: string, t: string, i: int) {
    0 <= i <= |s| - |t| && s[i..i + |t|] == t
  }

  /** `Contains` agrees with the declarative reading: `t` occurs at some offset. */
  lemma {:induction false} ContainsIff(s: string, t: string)
    ensures Contains(s, t) <==> exists i :: OccursAt(s, t, i)
  {
    if |s| > 0 {
      ContainsIff(s[1..], t);
      if exists i :: OccursAt(s, t, i) {
        var i :| OccursAt(s, t, i);
        if i > 0 {
          assert OccursAt(s[1..], t, i - 1) by {
            assert s[1..][i - 1..i - 1 + |t|] == s[i..i + |t|];
          }
        } else {
          assert HasPrefix(s, t);
        }
      }
      if Contains(s, t) {
        if HasPrefix(s, t) {
          assert OccursAt(s, t, 0);
        } else {
          var i :| OccursAt(s[1..], t, i);
          assert OccursAt(s, t, i + 1) by {
            assert s[1..][i..i + |t|] == s[i + 1..i + 1 + |t|];
          }
        }
      }
    } else {
      if exists i :: OccursAt(s, t, i) {
        var i :| OccursAt(s, t, i);
        assert HasPrefix(s, t);
      }
      if Contains(s, t) {
        assert OccursAt(s, t, 0);
      }
    }
  }

  /** A text without the first letter of `t` cannot contain `t`. */
  lemma {:induction false} MissingLetter(s: string, t: string)
    requires |t| > 0
    requires forall i :: 0 <= i < |s| ==> s[i] != t[0]
    ensures !Contains(s, t)
    decreases |s|
  {
    if |s| > 0 {
      assert !HasPrefix(s, t) by {
        if |t| <= |s| {
          assert s[..|t|][0] == s[0];
        }
      }
      MissingLetter(s[1..], t);
    }
  }

  /** A text that lacks any one letter of `t` cannot contain `t`. */
  lemma AbsentLetter(s: string, t: string, j: int)
    requires 0 <= j < |t|
    requires forall i :: 0 <= i < |s| ==> s[i] != t[j]
    ensures !Contains(s, t)
  {
    ContainsIff(s, t);
  }

  /** `u` occurs in `a + u + b`. */
  lemma ContainsMiddle(a: string, u: string, b: string)
    ensures Contains(a + u + b, u)
  {
    assert OccursAt(a + u + b, u, |a|) by {
      assert (a + u + b)[|a|..|a| + |u|] == u;
    }
    ContainsIff(a + u + b, u);
  }

  predicate IsDigit(c: char) {
    '0' <= c <= '9'
  }

  predicate AllDigits(s: string) {
    forall i :: 0 <= i < |s| ==> IsDigit(s[i])
  }

  /** The value of a run of decimal digits, most significant first. */
  function DigitsValue(s: string): nat
    requires AllDigits(s)
  {
    if |s| == 0 then 0
    else DigitsValue(s[..|s| - 1]) * 10 + (s[|s| - 1] as int - '0' as int)
  }

  function Pow10(n: nat): (r: nat)
    ensures r >= 1
  {
    if n == 0 then 1 else 10 * Pow10(n - 1)
  }

  function IndexOf(s: string, c: char): (r: Option<nat>)
    ensures r.Some? ==> r.value < |s| && s[r.value] == c
    ensures r.Some? ==> forall i :: 0 <= i < r.value ==> s[i] != c
    ensures r.None? ==> forall i :: 0 <= i < |s| ==> s[i] != c
  {
    if |s| == 0 then None
    else if s[0] == c then Some(0)
    else match IndexOf(s[1..], c)
      case None => None
      case Some(i) => Some(i + 1)
  }

  /**
    `float(s)` for plain decimal text: an optional sign, then digits with at most one
    decimal point and at least one digit. Anything else is a `ValueError` (None).
   */
  function ParseFloat(s: string): (r: Option<real>)
    ensures |s| == 0 ==> r.None?
  {
    var negative := |s| > 0 && s[0] == '-';
    var body := if |s| > 0 && (s[0] == '-' || s[0] == '+') then s[1..] else s;
    var (whole, frac) :=
      match IndexOf(body, '.')
      case None => (body, "")
      case Some(i) => (body[..i], body[i + 1..]);
    if AllDigits(whole) && AllDigits(frac) && |whole| + |frac| > 0 then
      var magnitude := DigitsValue(whole) as real + DigitsValue(frac) as real / Pow10(|frac|) as real;
      Some(if negative then -magnitude else magnitude)
    else None
  }

  function DigitChar(d: nat): (c: char)
    requires d < 10
    ensures IsDigit(c) && c as int - '0' as int == d
  {
    ('0' as int + d) as char
  }

  /** Decimal text of a natural number, as `str(n)` prints it. */
  function NatText(n: nat): (s: string)
    ensures |s| > 0 && AllDigits(s)
  {
    if n < 10 then [DigitChar(n)] else NatText(n / 10) + [DigitChar(n % 10)]
  }

  /** Reading back printed digits gives the number. */
  lemma {:induction false} DigitsValueNatText(n: nat)
    ensures DigitsValue(NatText(n)) == n
  {
    if n >= 10 {
      var s := NatText(n);
      assert s[..|s| - 1] == NatText(n / 10);
      DigitsValueNatText(n / 10);
    }
  }

  /** `float(str(n)) == n` for every natural number. */
  lemma ParseFloatNatText(n: nat)
    ensures ParseFloat(NatText(n)) == Some(n as real)
  {
    var s := NatText(n);
    assert s[0] != '-' && s[0] != '+' by { assert IsDigit(s[0]); }
    assert forall i :: 0 <= i < |s| ==> s[i] != '.' by {
      assert AllDigits(s);
    }
    DigitsValueNatText(n);
  }

  // ---------------------------------------------------------------------------
  // Python operators that may raise

  /** `float(v)`. */
  function ToFloat(v: Value): (r: Result<real>)
    ensures IsNumeric(v) ==> r == Ok(NumOf(v))
    ensures r.Raise? ==> r.exc == (if v.VStr? then ValueError else TypeError)
    ensures !IsNumeric(v) && !v.VStr? ==> r.Raise?
  {
    match v
    case VNum(n) => Ok(n)
    case VBool(b) => Ok(if b then 1.0 else 0.0)
    case VStr(s) =>
      (match ParseFloat(s)
       case Some(x) => Ok(x)
       case None => Raise(ValueError))
    case _ => Raise(TypeError)
  }

  /** `v < bound` for a numeric literal `bound`. */
  function LessThan(v: Value, bound: real): (r: Result<bool>)
    ensures r.Ok? <==> IsNumeric(v)
    ensures r.Ok? ==> (r.value <==> NumOf(v) < bound)
    ensures r.Raise? ==> r.exc == TypeError
  {
    if IsNumeric(v) then Ok(NumOf(v) < bound) else Raise(TypeError)
  }

  /** `v > bound` for a numeric literal `bound`. */
  function GreaterThan(v: Value, bound: real): (r: Result<bool>)
    ensures r.Ok? <==> IsNumeric(v)
    ensures r.Ok? ==> (r.value <==> NumOf(v) > bound)
    ensures r.Raise? ==> r.exc == TypeError
  {
    if IsNumeric(v) then Ok(NumOf(v) > bound) else Raise(TypeError)
  }

  /** `key in container`: dict keys, sequence elements, or a substring test. */
  function In(key: string, container: Value): (r: Result<bool>)
    ensures container.VDict? ==> r == Ok(HasKey(container.entries, key))
    ensures r.Raise? <==> container.VNone? || container.VBool? || container.VNum?
  {
    match container
    case VDict(d) => Ok(HasKey(d, key))
    case VList(items) => Ok(VStr(key) in items)
    case VTuple(items) => Ok(VStr(key) in items)
    case VStr(s) => Ok(Contains(s, key))
    case _ => Raise(TypeError)
  }

  /** `container[key]` with a string key. */
  function Index(container: Value, key: string): (r: Result<Value>)
    ensures r.Ok? <==> container.VDict? && HasKey(container.entries, key)
    ensures r.Ok? ==> Get(container.entries, key) == Some(r.value)
    ensures r.Raise? ==> r.exc == (if container.VDict? then KeyError else TypeError)
  {
    match container
    case VDict(d) =>
      (match Get(d, key)
       case Some(v) => Ok(v)
       case None => Raise(KeyError))
    case _ => Raise(TypeError)
  }

  // ---------------------------------------------------------------------------
  // str() and repr()

  /**
    `repr(v)`. Strings (dict keys included) are quoted and escaped as `ReprStr`
    does, and every number is rendered as "0": the callers only search this text
    for keywords made of letters, so the digits of a number never matter to them.
   */
  function Repr(v: Value): string {
    match v
    case VNone => "None"
    case VBool(b) => if b then "True" else "False"
    case VNum(_) => "0"
    case VStr(s) => ReprStr(s)
    case VList(items) => "[" + Join(seq(|items|, i requires 0 <= i < |items| => Repr(items[i]))) + "]"
    case VTuple(items) => "(" + Join(seq(|items|, i requires 0 <= i < |items| => Repr(items[i]))) + ")"
    case VDict(entries) =>
      "{" + Join(seq(|entries|, i requires 0 <= i < |entries| => ReprStr(entries[i].0) + ": " + Repr(entries[i].1))) + "}"
  }

  /**
    `repr(s)` for a string: double quotes when `s` holds a single quote and no
    double quote, single quotes otherwise, with the quote used, backslashes and
    the ASCII control characters escaped.
   */
  function ReprStr(s: string): (r: string)
    ensures |r| >= 2 && r[0] == r[|r| - 1] == QuoteFor(s)
  {
    [QuoteFor(s)] + Escape(s, QuoteFor(s)) + [QuoteFor(s)]
  }

  function QuoteFor(s: string): (q: char)
    ensures q == '"' <==> '\'' in s && '"' !in s
    ensures q == '"' || q == '\''
  {
    if '\'' in s && '"' !in s then '"' else '\''
  }

  function Escape(s: string, quote: char): (r: string)
    ensures |r| >= |s|
  {
    if |s| == 0 then "" else EscapeChar(s[0], quote) + Escape(s[1..], quote)
  }

  /** One character as Python's `repr` writes it inside a string quoted with `quote`. */
  function EscapeChar(c: char, quote: char): (r: string)
    ensures 1 <= |r| <= 4
    ensures |r| == 1 <==> r == [c]
    ensures |r| > 1 ==> r[0] == '\\'
    ensures ' ' <= c <= '~' && c != '\\' && c != quote ==> r == [c]
  {
    if c == '\\' then "\\\\"
    else if c == quote then ['\\', c]
    else if c == '\t' then "\\t"
    else if c == '\n' then "\\n"
    else if c == '\r' then "\\r"
    else if c as int < 0x20 || c as int == 0x7f then ['\\', 'x', HexDigit(c as int / 16), HexDigit(c as int % 16)]
    else [c]
  }

  /** Printable ASCII other than the backslash and the quote is written as itself. */
  lemma {:induction false} EscapePlain(s: string, quote: char)
    requires forall i :: 0 <= i < |s| ==> ' ' <= s[i] <= '~' && s[i] != '\\' && s[i] != quote
    ensures Escape(s, quote) == s
  {
    if |s| > 0 {
      EscapePlain(s[1..], quote);
      assert s == [s[0]] + s[1..];
    }
  }

  function HexDigit(d: int): char
    requires 0 <= d < 16
  {
    "0123456789abcdef"[d]
  }

  function Join(parts: seq<string>): string {
    if |parts| == 0 then ""
    else if |parts| == 1 then parts[0]
    else parts[0] + ", " + Join(parts[1..])
  }

  /** The repr of a one-item list is the item's repr in brackets. */
  lemma ReprSingleton(x: Value)
    ensures Repr(VList([x])) == "[" + Repr(x) + "]"
  {
    var items := [x];
    var parts := seq(|items|, i requires 0 <= i < |items| => Repr(items[i]));
    assert parts == [Repr(x)];
  }

  /** `str(v)`: a string is itself, anything else its repr. */
  function Str(v: Value): (r: string)
    ensures v.VStr? ==> r == v.s
  {
    if v.VStr? then v.s else Repr(v)
  }
}

=== FILE: recharge_check.dfy ===
/**
  The "needs recharge" test at the start of each auto-navigation step. The rover's
  status payload is inspected three ways: the battery level (a number, or the
  `level` of a dict) at or below 20%, alarming words in the `status` text, and
  alarming words in any string field. A failed status call, or any exception
  while inspecting the payload, also counts as needing a recharge.
 */
module RechargeCheck {
  import opened PyValue

  /** The level at or below which a recharge is ordered. */
  const RechargeLevel: real := 20.0

  /** `v <= bound`. */
  function AtMost(v: Value, bound: real): (r: Result<bool>)
    ensures r.Ok? <==> IsNumeric(v)
    ensures r.Ok? ==> (r.value <==> NumOf(v) <= bound)
    ensures r.Raise? ==> r.exc == TypeError
  {
    if IsNumeric(v) then Ok(NumOf(v) <= bound) else Raise(TypeError)
  }

  /** `key in data` followed by `data[key]`: the field when present. */
  function Field(data: Value, key: string): (r: Result<Option<Value>>)
    ensures data.VDict? ==> r == Ok(Get(data.entries, key))
    ensures data.VNone? || data.VBool? || data.VNum? ==> r == Raise(TypeError)
    ensures r.Raise? ==> r.exc == TypeError
  {
    match In(key, data)
    case Raise(e) => Raise(e)
    case Ok(present) =>
      if !present then Ok(None)
      else
        match Index(data, key)
        case Raise(e) => Raise(e)
        case Ok(v) => Ok(Some(v))
  }

  /** The level a `battery` field carries: the `level` entry of a dict, or the number itself. */
  function LevelOf(battery: Value): (r: Option<Value>)
    ensures battery.VDict? ==> r == Get(battery.entries, "level")
    ensures IsNumeric(battery) ==> r == Some(battery)
    ensures !battery.VDict? && !IsNumeric(battery) ==> r.None?
  {
    if battery.VDict? then Get(battery.entries, "level")
    else if IsNumeric(battery) then Some(battery)
    else None
  }

  /** The level test on an optional level; an absent or `None` level never alarms. */
  function LevelAlarm(level: Option<Value>): (r: Result<bool>)
    ensures level.None? || level == Some(VNone) ==> r == Ok(false)
    ensures level.Some? && level.value != VNone ==> r == AtMost(level.value, RechargeLevel)
  {
    match level
    case None => Ok(false)
    case Some(l) => if l == VNone then Ok(false) else AtMost(l, RechargeLevel)
  }

  /** The battery-field test. */
  function BatteryLow(data: Value): (r: Result<bool>)
    ensures data.VDict? ==>
      r == (match Get(data.entries, "battery")
            case None => Ok(false)
            case Some(b) => LevelAlarm(LevelOf(b)))
  {
    match Field(data, "battery")
    case Raise(e) => Raise(e)
    case Ok(None) => Ok(false)
    case Ok(Some(b)) => LevelAlarm(LevelOf(b))
  }

  /** Words in the lowercased status text that call for a recharge. */
  predicate StatusAlarmText(t: string) {
    Contains(t, "low") || Contains(t, "battery") || Contains(t, "intermittent")
  }

  /** The `status`-field test: the field is rendered with `str()` and lowercased. */
  function StatusAlarm(data: Value): (r: Result<bool>)
    ensures data.VDict? ==>
      r == Ok(HasKey(data.entries, "status") && StatusAlarmText(Lower(Str(Get(data.entries, "status").value))))
  {
    match Field(data, "status")
    case Raise(e) => Raise(e)
    case Ok(None) => Ok(false)
    case Ok(Some(s)) => Ok(StatusAlarmText(Lower(Str(s))))
  }

  /** A string field whose lowercased text mentions "low" or "battery". */
  predicate FieldAlarm(v: Value) {
    v.VStr? && (Contains(Lower(v.s), "low") || Contains(Lower(v.s), "battery"))
  }

  predicate AnyFieldAlarm(d: Dict) {
    exists i :: 0 <= i < |d| && FieldAlarm(d[i].1)
  }

  /** The scan over `status_data.items()`: the flag is set by any alarming string field. */
  method ScanItems(d: Dict) returns (alarm: bool)
    ensures alarm <==> AnyFieldAlarm(d)
  {
    alarm := false;
    var i := 0;
    while i < |d|
      invariant 0 <= i <= |d|
      invariant alarm <==> exists j :: 0 <= j < i && FieldAlarm(d[j].1)
    {
      if d[i].1.VStr? && (Contains(Lower(d[i].1.s), "low") || Contains(Lower(d[i].1.s), "battery")) {
        alarm := true;
      }
      i := i + 1;
    }
  }

  /** The items test; `.items()` exists only on a dict. */
  function ItemsAlarm(data: Value): (r: Result<bool>)
    ensures data.VDict? ==> r == Ok(AnyFieldAlarm(data.entries))
    ensures !data.VDict? ==> r == Raise(AttributeError)
  {
    if data.VDict? then Ok(AnyFieldAlarm(data.entries)) else Raise(AttributeError)
  }

  /** The battery, status and items tests, in the order they run. */
  function Checks(data: Value): (r: seq<Result<bool>>)
    ensures |r| == 3
  {
    [BatteryLow(data), StatusAlarm(data), ItemsAlarm(data)]
  }

  /**
    The three tests in order, each run whatever the earlier ones found: the
    first exception ends the inspection, and otherwise a recharge is flagged iff
    some test answered yes.
   */
  function Inspect(data: Value): (r: Result<bool>)
    ensures r.Ok? <==> forall k :: 0 <= k < 3 ==> Checks(data)[k].Ok?
    ensures r.Ok? ==> (r.value <==> exists k :: 0 <= k < 3 && Checks(data)[k] == Ok(true))
    ensures r.Raise? ==>
      exists k :: 0 <= k < 3 && Checks(data)[k] == r && forall j :: 0 <= j < k ==> Checks(data)[j].Ok?
  {
    var cs := Checks(data);
    assert cs[0] == BatteryLow(data) && cs[1] == StatusAlarm(data) && cs[2] == ItemsAlarm(data);
    match BatteryLow(data)
    case Raise(e) => Raise(e)
    case Ok(a) =>
      match StatusAlarm(data)
      case Raise(e) => Raise(e)
      case Ok(b) =>
        match ItemsAlarm(data)
        case Raise(e) => Raise(e)
        case Ok(c) =>
          assert a || b || c <==> cs[0] == Ok(true) || cs[1] == Ok(true) || cs[2] == Ok(true);
          Ok(a || b || c)
  }

  /**
    Whether the step must recharge, given the status call's outcome: `None` when
    the call failed or did not answer 200, else the decoded payload.
   */
  function NeedsRecharge(status: Option<Value>): (need: bool)
    ensures status.None? ==> need
  {
    match status
    case None => true
    case Some(data) =>
      match Inspect(data)
      case Raise(_) => true
      case Ok(alarm) => alarm
  }

  // ---------------------------------------------------------------------------
  // Properties

  /** The level found in a dict payload's `battery` field, if any. */
  function PayloadLevel(d: Dict): Option<Value> {
    match Get(d, "battery")
    case None => None
    case Some(b) => LevelOf(b)
  }

  /**
    For a dict payload, a recharge is needed exactly when the battery level is a
    number at most 20 or is not a number at all (the comparison raises), when the
    status text alarms, or when some string field alarms.
   */
  lemma DictRecharge(d: Dict)
    ensures NeedsRecharge(Some(VDict(d))) <==>
      (PayloadLevel(d).Some? && PayloadLevel(d).value != VNone
       && (!IsNumeric(PayloadLevel(d).value) || NumOf(PayloadLevel(d).value) <= RechargeLevel))
      || (HasKey(d, "status") && StatusAlarmText(Lower(Str(Get(d, "status").value))))
      || AnyFieldAlarm(d)
  {
  }

  /** A payload that is not a dict always leads to a recharge: at the latest `.items()` raises. */
  lemma NonDictRecharges(data: Value)
    requires !data.VDict?
    ensures NeedsRecharge(Some(data))
  {
    match BatteryLow(data)
    case Raise(_) =>
    case Ok(_) =>
      match StatusAlarm(data)
      case Raise(_) =>
      case Ok(_) =>
        assert ItemsAlarm(data).Raise?;
  }

  /** A low level in either form alarms, whatever else the payload says. */
  lemma LowLevelRecharges(d: Dict, level: real)
    requires level <= RechargeLevel
    requires Get(d, "battery") == Some(VNum(level)) || Get(d, "battery") == Some(VDict([("level", VNum(level))]))
    ensures NeedsRecharge(Some(VDict(d)))
  {
    DictRecharge(d);
    if Get(d, "battery") == Some(VDict([("level", VNum(level))])) {
      assert Get([("level", VNum(level))], "level") == Some(VNum(level)) by {
        assert [("level", VNum(level))][0].0 == "level";
      }
    }
  }

  /** Any string field mentioning "low" alarms, even a word like "slow". */
  lemma WordInFieldRecharges(d: Dict, i: nat)
    requires i < |d| && d[i].1.VStr? && Contains(Lower(d[i].1.s), "low")
    ensures NeedsRecharge(Some(VDict(d)))
  {
    DictRecharge(d);
    assert FieldAlarm(d[i].1);
  }

  /** A healthy payload: a level above 20 and no alarming text. */
  lemma HealthyNoRecharge(level: real)
    requires level > RechargeLevel
    ensures !NeedsRecharge(Some(VDict([("battery", VNum(level))])))
  {
    var d := [("battery", VNum(level))];
    DictRecharge(d);
    assert Get(d, "battery") == Some(VNum(level)) by {
      assert d[0].0 == "battery";
    }
    assert !HasKey(d, "status");
    assert !AnyFieldAlarm(d);
  }

  /** The status text `["\x0battery"]`: a vertical tab, then "attery". */
  const TabbedBattery: string := "\U{0b}attery"

  /**
    `str()` of a list escapes a vertical tab as `\x0b`, whose last letter starts a
    "battery": a status `["\x0battery"]` calls for a recharge.
   */
  lemma EscapedStatusRecharges()
    ensures StatusAlarm(VDict([("status", VList([VStr(TabbedBattery)]))])) == Ok(true)
    ensures NeedsRecharge(Some(VDict([("status", VList([VStr(TabbedBattery)]))])))
  {
    var d := [("status", VList([VStr(TabbedBattery)]))];
    assert Get(d, "status") == Some(VList([VStr(TabbedBattery)])) by {
      assert d[0].0 == "status";
    }
    var a, u, b := "[" + "'\\x0", "battery", "'" + "]";
    TabbedBatteryText();
    assert Str(VList([VStr(TabbedBattery)])) == a + u + b;
    LowerAppend(a + u, b);
    LowerAppend(a, u);
    assert Lower(u) == u;
    ContainsMiddle(Lower(a), u, Lower(b));
    DictRecharge(d);
  }

  lemma TabbedBatteryText()
    ensures Str(VList([VStr(TabbedBattery)])) == "[" + ("'\\x0" + "battery" + "'") + "]"
  {
    ReprSingleton(VStr(TabbedBattery));
    TabbedBatteryRepr();
  }

  lemma TabbedBatteryRepr()
    ensures ReprStr(TabbedBattery) == "'\\x0" + "battery" + "'"
  {
    TabbedBatteryQuote();
    TabbedBatteryEscape();
  }

  lemma TabbedBatteryQuote()
    ensures QuoteFor(TabbedBattery) == '\''
  {
    var t := TabbedBattery;
    assert '\'' !in t by {
      assert forall i :: 0 <= i < |t| ==> t[i] != '\'';
    }
  }

  lemma TabbedBatteryEscape()
    ensures Escape(TabbedBattery, '\'') == "\\x0" + "battery"
  {
    var t := TabbedBattery;
    assert EscapeChar(t[0], '\'') == "\\x0b" by {
      assert t[0] as int == 11;
      assert HexDigit(0) == '0' && HexDigit(11) == 'b';
    }
    EscapePlain(t[1..], '\'');
    assert "\\x0b" + "attery" == "\\x0" + "battery";
  }
}

=== FILE: rover_direction.dfy ===
/**
  The reactive direction resolver: from the rover's heading and one reading of each
  sensor (RFID, IR, ultrasonic, accelerometer) it picks the next move, or reports
  that the destination is reached. Rules are tried in a fixed order and the first
  that applies wins. Malformed readings fall back to neutral defaults, and any
  fault while resolving yields Forward.
 */
module RoverDirection {
  import opened PyValue

  datatype Direction = Forward | Backward | Left | Right | Reached

  /** The string the resolver returns for each outcome. */
  function Name(d: Direction): (s: string)
    ensures s in {"Forward", "Backward", "Left", "Right", "Reached"}
  {
    match d
    case Forward => "Forward"
    case Backward => "Backward"
    case Left => "Left"
    case Right => "Right"
    case Reached => "Reached"
  }

  lemma NameInjective(a: Direction, b: Direction)
    requires Name(a) == Name(b)
    ensures a == b
  {
  }

  /** The heading after defaulting `None` to "forward" and lowercasing; `.lower()` on a non-string raises. */
  function Heading(current: Value): (r: Result<string>)
    ensures current.VNone? ==> r == Ok("forward")
    ensures current.VStr? ==> r == Ok(Lower(current.s))
    ensures r.Raise? <==> !current.VNone? && !current.VStr?
  {
    match current
    case VNone => Ok("forward")
    case VStr(s) => Ok(Lower(s))
    case _ => Raise(AttributeError)
  }

  /** The x and y accelerometer axes; a non-sequence or a short one gives 0 for the missing axes. */
  function Axes(accelerometer: Value): (r: (Value, Value))
    ensures !accelerometer.VList? && !accelerometer.VTuple? ==> r == (VNum(0.0), VNum(0.0))
    ensures (accelerometer.VList? || accelerometer.VTuple?) ==>
      && (|accelerometer.items| > 0 ==> r.0 == accelerometer.items[0])
      && (|accelerometer.items| <= 0 ==> r.0 == VNum(0.0))
      && (|accelerometer.items| > 1 ==> r.1 == accelerometer.items[1])
      && (|accelerometer.items| <= 1 ==> r.1 == VNum(0.0))
  {
    match accelerometer
    case VList(items) => (Element(items, 0, VNum(0.0)), Element(items, 1, VNum(0.0)))
    case VTuple(items) => (Element(items, 0, VNum(0.0)), Element(items, 1, VNum(0.0)))
    case _ => (VNum(0.0), VNum(0.0))
  }

  /**
    The ultrasonic reading as (distance, detected). A non-sequence or short one gives
    (0, False) for the missing parts; a distance `float()` rejects becomes 0.
   */
  function UltrasonicReading(ultrasonic: Value): (r: (real, bool))
    ensures !ultrasonic.VList? && !ultrasonic.VTuple? ==> r == (0.0, false)
    ensures (ultrasonic.VList? || ultrasonic.VTuple?) && |ultrasonic.items| <= 1 ==> !r.1
    ensures (ultrasonic.VList? || ultrasonic.VTuple?) && |ultrasonic.items| == 0 ==> r.0 == 0.0
    ensures (ultrasonic.VList? || ultrasonic.VTuple?) && |ultrasonic.items| > 1 ==> (r.1 <==> Truthy(ultrasonic.items[1]))
    ensures (ultrasonic.VList? || ultrasonic.VTuple?) && |ultrasonic.items| > 0 ==>
      r.0 == (match ToFloat(ultrasonic.items[0]) case Ok(x) => x case Raise(_) => 0.0)
  {
    var (distance, detected) :=
      match ultrasonic
      case VList(items) => (Element(items, 0, VNum(0.0)), Element(items, 1, VBool(false)))
      case VTuple(items) => (Element(items, 0, VNum(0.0)), Element(items, 1, VBool(false)))
      case _ => (VNum(0.0), VBool(false));
    var d := match ToFloat(distance) case Ok(x) => x case Raise(_) => 0.0;
    (d, Truthy(detected))
  }

  /** The acceleration expected along one axis for the current heading: +1 along `positive`, -1 along `negative`, else 0. */
  function Expected(heading: string, positive: string, negative: string): (r: real)
    ensures heading == positive ==> r == 1.0
    ensures heading != positive && heading == negative ==> r == -1.0
    ensures heading != positive && heading != negative ==> r == 0.0
  {
    if heading == positive then 1.0 else if heading == negative then -1.0 else 0.0
  }

  /** `axis - expected`, which raises when the axis reading is not a number. */
  function Drift(axis: Value, expected: real): (r: Result<real>)
    ensures r.Ok? <==> IsNumeric(axis)
    ensures r.Ok? ==> r.value == NumOf(axis) - expected
  {
    if IsNumeric(axis) then Ok(NumOf(axis) - expected) else Raise(TypeError)
  }

  /** The drift correction: Right, else Left, else Forward, else Backward, by the signs of the drifts. */
  function DriftDirection(dx: real, dy: real): (r: Direction)
    ensures r != Reached
    ensures r == Right <==> dx > 0.0
    ensures r == Left <==> dx < 0.0
    ensures r == Forward <==> dx == 0.0 && dy > 0.0
    ensures r == Backward <==> dx == 0.0 && dy <= 0.0
  {
    if dx > 0.0 then Right else if dx < 0.0 then Left else if dy > 0.0 then Forward else Backward
  }

  /** The six rules, first match wins, on normalised readings and drifts. */
  function Decide(rfid: bool, ir: bool, distance: real, detected: bool, dx: real, dy: real): (r: Direction)
    ensures r == Reached <==> rfid && ir && detected && Abs(distance) <= 5.0
    ensures rfid && !ir ==> r == DriftDirection(dx, dy)
    ensures !rfid && ir ==> r == (if dx > 0.0 then Right else Left)
    ensures !rfid && !ir && detected ==> r == (if dy > 0.0 then Forward else Backward)
    ensures !rfid && !ir && !detected ==> r == DriftDirection(dx, dy)
    ensures rfid && ir && !(detected && Abs(distance) <= 5.0) ==> r == DriftDirection(dx, dy)
  {
    if rfid && ir && detected && Abs(distance) <= 5.0 then Reached
    else if rfid && !ir then DriftDirection(dx, dy)
    else if !rfid && ir then (if dx > 0.0 then Right else Left)
    else if !ir && detected then (if dy > 0.0 then Forward else Backward)
    else if ir && detected then
      (if Abs(distance) <= 5.0 then Reached else DriftDirection(dx, dy))
    else DriftDirection(dx, dy)
  }

  /**
    The inner Reached of the fifth rule can never be taken: whenever control gets
    past the first four rules with IR and ultrasonic both set, the distance is over 5.
   */
  lemma InnerReachedUnreachable(rfid: bool, ir: bool, distance: real, detected: bool)
    requires !(rfid && ir && detected && Abs(distance) <= 5.0)
    requires !(rfid && !ir)
    requires !(!rfid && ir)
    requires !(!ir && detected)
    requires ir && detected
    ensures Abs(distance) > 5.0
  {
  }

  /** True when resolving faults before any rule is tried; the result is then Forward. */
  predicate Faults(current: Value, accelerometer: Value) {
    Heading(current).Raise? || !IsNumeric(Axes(accelerometer).0) || !IsNumeric(Axes(accelerometer).1)
  }

  /** The resolver: normalise the inputs, compute the drifts, apply the rules; any fault gives Forward. */
  function Determine(current: Value, rfid: Value, irSensor: Value, ultrasonic: Value, accelerometer: Value): (r: Direction)
    ensures Faults(current, accelerometer) ==> r == Forward
    ensures r == Reached <==>
      && !Faults(current, accelerometer)
      && Truthy(rfid) && Truthy(irSensor)
      && UltrasonicReading(ultrasonic).1 && Abs(UltrasonicReading(ultrasonic).0) <= 5.0
    ensures !Faults(current, accelerometer) ==>
      r == Decide(Truthy(rfid), Truthy(irSensor), UltrasonicReading(ultrasonic).0, UltrasonicReading(ultrasonic).1,
                  NumOf(Axes(accelerometer).0) - Expected(Heading(current).value, "right", "left"),
                  NumOf(Axes(accelerometer).1) - Expected(Heading(current).value, "forward", "backward"))
  {
    match Heading(current)
    case Raise(_) => Forward
    case Ok(heading) =>
      var (x, y) := Axes(accelerometer);
      var (distance, detected) := UltrasonicReading(ultrasonic);
      match (Drift(x, Expected(heading, "right", "left")), Drift(y, Expected(heading, "forward", "backward")))
      case (Ok(dx), Ok(dy)) => Decide(Truthy(rfid), Truthy(irSensor), distance, detected, dx, dy)
      case _ => Forward
  }

  /** The resolver's string result: always one of the five direction names. */
  function DetermineText(current: Value, rfid: Value, irSensor: Value, ultrasonic: Value, accelerometer: Value): (s: string)
    ensures s in {"Forward", "Backward", "Left", "Right", "Reached"}
    ensures s == "Reached" <==> Determine(current, rfid, irSensor, ultrasonic, accelerometer) == Reached
  {
    var d := Determine(current, rfid, irSensor, ultrasonic, accelerometer);
    assert Name(d) == "Reached" ==> d == Reached by {
      if Name(d) == "Reached" { NameInjective(d, Reached); }
    }
    Name(d)
  }

  /** With RFID but no IR, the drifts alone decide, in the order Right, Left, Forward, Backward. */
  lemma RfidWithoutIr(current: Value, rfid: Value, irSensor: Value, ultrasonic: Value, accelerometer: Value)
    requires !Faults(current, accelerometer)
    requires Truthy(rfid) && !Truthy(irSensor)
    ensures var dx := NumOf(Axes(accelerometer).0) - Expected(Heading(current).value, "right", "left");
            var dy := NumOf(Axes(accelerometer).1) - Expected(Heading(current).value, "forward", "backward");
            Determine(current, rfid, irSensor, ultrasonic, accelerometer) == DriftDirection(dx, dy)
  {
  }

  /** With IR but no RFID, only Right or Left can come out. */
  lemma IrWithoutRfid(current: Value, rfid: Value, irSensor: Value, ultrasonic: Value, accelerometer: Value)
    requires !Faults(current, accelerometer)
    requires !Truthy(rfid) && Truthy(irSensor)
    ensures Determine(current, rfid, irSensor, ultrasonic, accelerometer) in {Right, Left}
  {
  }

  /** With only the ultrasonic set, the result is Forward when the longitudinal drift is positive, else Backward. */
  lemma UltrasonicOnly(current: Value, rfid: Value, irSensor: Value, ultrasonic: Value, accelerometer: Value)
    requires !Faults(current, accelerometer)
    requires !Truthy(rfid) && !Truthy(irSensor) && UltrasonicReading(ultrasonic).1
    ensures var dy := NumOf(Axes(accelerometer).1) - Expected(Heading(current).value, "forward", "backward");
            Determine(current, rfid, irSensor, ultrasonic, accelerometer) == (if dy > 0.0 then Forward else Backward)
  {
  }

  /** The usage example: heading forward, RFID and IR set, an object 4 units away. */
  lemma ExampleReached()
    ensures DetermineText(VStr("forward"), VBool(true), VBool(true), VTuple([VNum(4.0), VBool(true)]),
                          VList([VNum(0.5), VNum(0.2), VNum(0.1)])) == "Reached"
  {
    ForwardHeading();
    var us := VTuple([VNum(4.0), VBool(true)]);
    var accel := VList([VNum(0.5), VNum(0.2), VNum(0.1)]);
    assert UltrasonicReading(us) == (4.0, true) by {
      assert ToFloat(VNum(4.0)) == Ok(4.0);
    }
    assert !Faults(VStr("forward"), accel) by {
      assert Axes(accel) == (VNum(0.5), VNum(0.2));
    }
  }

  /** A heading spelled with the Kelvin sign for its K lowercases to "backward", as Python's `.lower()` does. */
  lemma KelvinHeading()
    ensures Heading(VStr("BAC" + [KelvinSign] + "WARD")) == Ok("backward")
  {
    var s := "BAC" + [KelvinSign] + "WARD";
    assert Lower(s) == "backward" by {
      assert s[3] == KelvinSign;
    }
  }

  lemma ForwardHeading()
    ensures Heading(VStr("forward")) == Ok("forward")
  {
    assert Lower("forward") == "forward";
  }

  /** Problematic inputs: None everywhere it is allowed gives Backward (the expected forward motion is missing). */
  lemma ExampleAllMissing()
    ensures DetermineText(VNone, VNone, VBool(false), VTuple([VNone, VNone]), VNone) == "Backward"
  {
    var us := VTuple([VNone, VNone]);
    assert ToFloat(VNone).Raise?;
    assert UltrasonicReading(us) == (0.0, false);
    assert !Faults(VNone, VNone);
    assert Expected("forward", "forward", "backward") == 1.0;
    assert Determine(VNone, VNone, VBool(false), us, VNone) == Decide(false, false, 0.0, false, 0.0, -1.0);
  }

  /** Empty ultrasonic and accelerometer sequences give Backward too. */
  lemma ExampleEmptySequences()
    ensures DetermineText(VStr("forward"), VBool(true), VBool(true), VList([]), VList([])) == "Backward"
  {
    ForwardHeading();
    assert UltrasonicReading(VList([])) == (0.0, false);
    assert !Faults(VStr("forward"), VList([]));
    assert Expected("forward", "forward", "backward") == 1.0;
  }
}

=== FILE: rover_navigation.dfy ===
/**
  The navigation controller's forward-move gate: battery and communication
  first, then the survivor check, then the obstacle check. Sensor readings are
  inputs, because the controller's own reading accessor does not exist.
 */
module RoverNavigation {
  import opened PyValue
  import NavBattery
  import SensorHandler

  /** The controller state the gate consults: its battery manager and sensor handler. */
  datatype Navigator = Navigator(battery: NavBattery.Manager, sensors: SensorHandler.Handler)

  /** `RoverNavigation(...)`: a default battery manager and a fresh handler. */
  function NewNavigator(): (n: Navigator)
    ensures n.battery == NavBattery.Default()
    ensures n.sensors == SensorHandler.NewHandler()
  {
    Navigator(NavBattery.Default(), SensorHandler.NewHandler())
  }

  /**
    `check_battery_and_communication()`: a fixed 10% floor (independent of the
    manager's own threshold) and an active link.
   */
  function CheckBatteryAndCommunication(b: NavBattery.Manager): (ok: bool)
    ensures ok <==> b.level >= 10 && b.comm.Active?
  {
    if b.level < 10 then false
    else if b.comm.Inactive? then false
    else true
  }

  datatype Reply = BatteryIssue | SurvivorFound | ObstacleAhead | MovingForward

  /** The `message` field of each reply. */
  function Message(r: Reply): string {
    match r
    case BatteryIssue => "Cannot move forward: Battery/Communication issue."
    case SurvivorFound => "Survivor detected. Stopping rover."
    case ObstacleAhead => "Obstacle detected. Stopping rover."
    case MovingForward => "Rover started moving forward"
  }

  /** The obstacle step, shared by both gates. */
  function ObstacleGate(h: SensorHandler.Handler, ultrasonic: Value, ir: Value): (r: Result<(Reply, SensorHandler.Handler)>)
    ensures r.Ok? <==> SensorHandler.ObstacleVerdict(ultrasonic, ir).Ok?
    ensures r.Ok? ==> (r.value.0 == ObstacleAhead <==> SensorHandler.ObstacleVerdict(ultrasonic, ir).value)
    ensures r.Ok? ==> r.value.0 in {ObstacleAhead, MovingForward}
  {
    match SensorHandler.DetectObstacle(h, ultrasonic, ir)
    case Raise(e) => Raise(e)
    case Ok((blocked, h1)) =>
      if blocked then Ok((ObstacleAhead, h1)) else Ok((MovingForward, h1))
  }

  /**
    `move_forward()` as written: the survivor check is called with no readings,
    so it always answers no and clears the flag, and only the obstacle check can
    stop the rover once the battery gate passes.
   */
  function MoveForwardAsWritten(n: Navigator, ultrasonic: Value, ir: Value): (r: Result<(Reply, SensorHandler.Handler)>)
    ensures !CheckBatteryAndCommunication(n.battery) ==> r == Ok((BatteryIssue, n.sensors))
    ensures r.Ok? ==> r.value.0 != SurvivorFound
    ensures CheckBatteryAndCommunication(n.battery) ==>
      r == ObstacleGate(n.sensors.(survivorDetected := false), ultrasonic, ir)
  {
    if !CheckBatteryAndCommunication(n.battery) then Ok((BatteryIssue, n.sensors))
    else
      match SensorHandler.DetectSurvivor(n.sensors, VNone, VNone, VNone, VNone)
      case Raise(e) => Raise(e)
      case Ok((found, h1)) =>
        if found then Ok((SurvivorFound, h1))
        else ObstacleGate(h1, ultrasonic, ir)
  }

  /**
    `move_forward()` with the survivor check given the survivor readings, as its
    documentation describes; the obstacle check gets its own readings, since the
    original fetches them separately.
   */
  function MoveForward(n: Navigator, survivor: (Value, Value, Value, Value), ultrasonic: Value, ir: Value)
    : (r: Result<(Reply, SensorHandler.Handler)>)
    ensures !CheckBatteryAndCommunication(n.battery) ==> r == Ok((BatteryIssue, n.sensors))
    ensures CheckBatteryAndCommunication(n.battery) ==>
      (r == Ok((SurvivorFound, n.sensors.(survivorDetected := true)))
       <==> SensorHandler.SurvivorVerdict(survivor.0, survivor.1, survivor.2, survivor.3) == Ok(true))
    ensures r.Ok? && r.value.0 == MovingForward ==>
      CheckBatteryAndCommunication(n.battery)
      && SensorHandler.SurvivorVerdict(survivor.0, survivor.1, survivor.2, survivor.3) == Ok(false)
      && SensorHandler.ObstacleVerdict(ultrasonic, ir) == Ok(false)
    ensures (CheckBatteryAndCommunication(n.battery)
             && SensorHandler.SurvivorVerdict(survivor.0, survivor.1, survivor.2, survivor.3) == Ok(false)) ==>
      r == ObstacleGate(n.sensors.(survivorDetected := false), ultrasonic, ir)
    ensures (CheckBatteryAndCommunication(n.battery)
             && SensorHandler.SurvivorVerdict(survivor.0, survivor.1, survivor.2, survivor.3).Raise?) ==>
      r == Raise(SensorHandler.SurvivorVerdict(survivor.0, survivor.1, survivor.2, survivor.3).exc)
  {
    if !CheckBatteryAndCommunication(n.battery) then Ok((BatteryIssue, n.sensors))
    else
      match SensorHandler.DetectSurvivor(n.sensors, survivor.0, survivor.1, survivor.2, survivor.3)
      case Raise(e) => Raise(e)
      case Ok((found, h1)) =>
        if found then Ok((SurvivorFound, h1))
        else ObstacleGate(h1, ultrasonic, ir)
  }

  // ---------------------------------------------------------------------------
  // Properties

  /** A freshly built controller passes the battery gate. */
  lemma DefaultReady()
    ensures CheckBatteryAndCommunication(NewNavigator().battery)
  {
  }

  /**
    With the default thresholds, a reported level passes the gate exactly when it
    is at least 10%: the fixed floor and the manager's low threshold coincide.
   */
  lemma ReadyAfterUpdate(level: int)
    ensures CheckBatteryAndCommunication(NavBattery.UpdateLevel(NavBattery.Default(), level)) <==> level >= 10
  {
  }

  /** A survivor close by: 1.5 m away, which is not close enough to be an obstacle. */
  function NearbySurvivor(): Value {
    VDict([("distance", VNum(1.5))])
  }

  /**
    The rover as written drives on next to the survivor, while the corrected gate
    stops for it.
   */
  lemma SurvivorMissed()
    ensures MoveForwardAsWritten(NewNavigator(), NearbySurvivor(), VNone).Ok?
    ensures MoveForwardAsWritten(NewNavigator(), NearbySurvivor(), VNone).value.0 == MovingForward
    ensures MoveForward(NewNavigator(), (NearbySurvivor(), VNone, VNone, VNone), NearbySurvivor(), VNone).Ok?
    ensures MoveForward(NewNavigator(), (NearbySurvivor(), VNone, VNone, VNone), NearbySurvivor(), VNone).value.0 == SurvivorFound
  {
    DefaultReady();
    var d := [("distance", VNum(1.5))];
    assert Get(d, "distance") == Some(VNum(1.5)) by {
      assert d[0].0 == "distance";
    }
  }

  /**
    When the survivor and obstacle readings are the same, the corrected gate never
    answers with the obstacle reply: anything close enough to block the rover is
    already reported as a survivor.
   */
  lemma SameReadingsShadowObstacle(n: Navigator, ultrasonic: Value, ir: Value, rfid: Value, accel: Value)
    ensures var r := MoveForward(n, (ultrasonic, ir, rfid, accel), ultrasonic, ir);
      r.Ok? ==> r.value.0 != ObstacleAhead
  {
    SensorHandler.ObstacleImpliesSurvivor(ultrasonic, ir, rfid, accel);
  }
}

=== FILE: sensor_extraction.dfy ===
/**
  How an auto-navigation step reads the four sensor fields of a fetched payload
  before consulting the direction resolver. Each field is optional and loosely
  typed; absent or unrecognised fields leave the defaults (no RFID, no IR, an
  ultrasonic reading of (0, False), accelerometer [0, 0, 0]).
 */
module SensorExtraction {
  import opened PyValue
  import RechargeCheck

  /** The four inputs handed to the direction resolver, as Python values. */
  datatype Readings = Readings(rfid: Value, ir: Value, ultrasonic: Value, accel: Value)

  function Zero(): Value {
    VNum(0.0)
  }

  function DefaultUltrasonic(): Value {
    VTuple([Zero(), VBool(false)])
  }

  function DefaultAccel(): Value {
    VList([Zero(), Zero(), Zero()])
  }

  /** The string forms accepted as a detection, compared after lowercasing. */
  predicate YesWord(s: string) {
    s == "true" || s == "yes" || s == "1" || s == "detected"
  }

  /**
    A detection flag from a raw field. A dict is read by key precedence (`primary`,
    then `detected`, then the truthiness of `value`); a boolean is kept; a number
    is its truthiness; a string is tested against the yes-words; anything else
    leaves the default False. The dict entries are returned raw, as the code does.
   */
  function Flag(raw: Value, primary: string): (r: Value)
    ensures raw.VDict? && HasKey(raw.entries, primary) ==> Some(r) == Get(raw.entries, primary)
    ensures raw.VDict? && !HasKey(raw.entries, primary) && HasKey(raw.entries, "detected") ==>
      Some(r) == Get(raw.entries, "detected")
    ensures raw.VDict? && !HasKey(raw.entries, primary) && !HasKey(raw.entries, "detected") ==>
      r == VBool(HasKey(raw.entries, "value") && Truthy(Get(raw.entries, "value").value))
    ensures !raw.VDict? ==> r.VBool?
    ensures raw.VBool? || raw.VNum? ==> (r.b <==> Truthy(raw))
    ensures raw.VStr? ==> (r.b <==> YesWord(Lower(raw.s)))
    ensures raw.VNone? || raw.VList? || raw.VTuple? ==> r == VBool(false)
  {
    match raw
    case VDict(d) =>
      (match Get(d, primary)
       case Some(v) => v
       case None =>
         match Get(d, "detected")
         case Some(v) => v
         case None =>
           match Get(d, "value")
           case Some(v) => VBool(Truthy(v))
           case None => VBool(false))
    case VBool(_) => raw
    case VNum(n) => VBool(n != 0.0)
    case VStr(s) => VBool(YesWord(Lower(s)))
    case _ => VBool(false)
  }

  /**
    The ultrasonic field as a (distance, detection) tuple. A dict gives its
    `distance` (default 0) and its `detection` (default False), which a `detected`
    entry overrides; a number is the distance, detected below 100; anything else
    gives the default.
   */
  function Ultrasonic(raw: Value): (r: Value)
    ensures r.VTuple? && |r.items| == 2
    ensures raw.VDict? ==> r.items[0] == GetOr(raw.entries, "distance", Zero())
    ensures raw.VDict? && HasKey(raw.entries, "detected") ==> Some(r.items[1]) == Get(raw.entries, "detected")
    ensures raw.VDict? && !HasKey(raw.entries, "detected") ==>
      r.items[1] == GetOr(raw.entries, "detection", VBool(false))
    ensures IsNumeric(raw) ==> r == VTuple([VNum(NumOf(raw)), VBool(NumOf(raw) < 100.0)])
    ensures !raw.VDict? && !IsNumeric(raw) ==> r == DefaultUltrasonic()
  {
    match raw
    case VDict(d) =>
      var distance := GetOr(d, "distance", Zero());
      var detection := match Get(d, "detected") case Some(v) => v case None => GetOr(d, "detection", VBool(false));
      VTuple([distance, detection])
    case VNum(n) => VTuple([VNum(n), VBool(n < 100.0)])
    case VBool(b) => var n := if b then 1.0 else 0.0; VTuple([VNum(n), VBool(n < 100.0)])
    case _ => DefaultUltrasonic()
  }

  /**
    The accelerometer field as a list of three axes: a dict's `x`, `y`, `z` with
    missing axes 0, the first three items of a list of at least three, else the
    default.
   */
  function Accel(raw: Value): (r: Value)
    ensures r.VList? && |r.items| == 3
    ensures raw.VDict? ==>
      r.items == [GetOr(raw.entries, "x", Zero()), GetOr(raw.entries, "y", Zero()), GetOr(raw.entries, "z", Zero())]
    ensures raw.VList? && |raw.items| >= 3 ==> r.items == raw.items[..3]
    ensures !raw.VDict? && !(raw.VList? && |raw.items| >= 3) ==> r == DefaultAccel()
  {
    match raw
    case VDict(d) => VList([GetOr(d, "x", Zero()), GetOr(d, "y", Zero()), GetOr(d, "z", Zero())])
    case VList(items) => if |items| >= 3 then VList(items[0..3]) else DefaultAccel()
    case _ => DefaultAccel()
  }

  /** One field: its decoded form when present, else the default. */
  function Decode(field: Option<Value>, decode: Value -> Value, default: Value): Value {
    match field
    case Some(v) => decode(v)
    case None => default
  }

  /**
    The extraction of all four fields. Each membership test and lookup on the
    payload may raise when it is not a dict; the first exception ends it.
   */
  function Extract(data: Value): (r: Result<Readings>)
    ensures data.VDict? ==> r.Ok?
    ensures data.VNone? || data.VBool? || data.VNum? ==> r == Raise(TypeError)
  {
    match RechargeCheck.Field(data, "rfid")
    case Raise(e) => Raise(e)
    case Ok(rfid) =>
      match RechargeCheck.Field(data, "ir")
      case Raise(e) => Raise(e)
      case Ok(ir) =>
        match RechargeCheck.Field(data, "ultrasonic")
        case Raise(e) => Raise(e)
        case Ok(us) =>
          match RechargeCheck.Field(data, "accelerometer")
          case Raise(e) => Raise(e)
          case Ok(accel) =>
            Ok(Readings(
              Decode(rfid, v => Flag(v, "tag_detected"), VBool(false)),
              Decode(ir, v => Flag(v, "reflection"), VBool(false)),
              Decode(us, Ultrasonic, DefaultUltrasonic()),
              Decode(accel, Accel, DefaultAccel())))
  }

  // ---------------------------------------------------------------------------
  // Properties

  /** On a dict payload each reading is the decoded field, or the default when the field is absent. */
  lemma ExtractDict(d: Dict)
    ensures Extract(VDict(d)) == Ok(Readings(
      Decode(Get(d, "rfid"), v => Flag(v, "tag_detected"), VBool(false)),
      Decode(Get(d, "ir"), v => Flag(v, "reflection"), VBool(false)),
      Decode(Get(d, "ultrasonic"), Ultrasonic, DefaultUltrasonic()),
      Decode(Get(d, "accelerometer"), Accel, DefaultAccel())))
  {
  }

  /** A payload with none of the four fields gives the defaults. */
  lemma AbsentFieldsDefault(d: Dict)
    requires !HasKey(d, "rfid") && !HasKey(d, "ir") && !HasKey(d, "ultrasonic") && !HasKey(d, "accelerometer")
    ensures Extract(VDict(d)) == Ok(Readings(VBool(false), VBool(false), DefaultUltrasonic(), DefaultAccel()))
  {
    ExtractDict(d);
  }

  /** The string form of a flag is case-insensitive: "DETECTED" counts. */
  lemma FlagUpperCase()
    ensures Flag(VStr("DETECTED"), "tag_detected") == VBool(true)
  {
    assert Lower("DETECTED") == "detected";
  }

  /** A string outside the yes-words, such as "no", is False. */
  lemma FlagOtherWord()
    ensures Flag(VStr("no"), "tag_detected") == VBool(false)
  {
    assert Lower("no") == "no";
  }

  /** For the RFID field, `tag_detected` wins over `detected`. */
  lemma FlagPrecedence(a: Value, b: Value)
    ensures Flag(VDict([("detected", b), ("tag_detected", a)]), "tag_detected") == a
  {
    var d := [("detected", b), ("tag_detected", a)];
    assert Get(d, "tag_detected") == Some(a) by {
      assert d[1].0 == "tag_detected";
      GetTail(d, "tag_detected");
      assert d[1..][0].0 == "tag_detected";
    }
  }

  /** A short accelerometer list is ignored rather than padded. */
  lemma ShortAccelIgnored(a: Value, b: Value)
    ensures Accel(VList([a, b])) == DefaultAccel()
  {
  }

  /** A tuple accelerometer reading is not a list and is ignored too. */
  lemma TupleAccelIgnored(a: Value, b: Value, c: Value)
    ensures Accel(VTuple([a, b, c])) == DefaultAccel()
  {
  }
}

=== FILE: sensor_handler.dfy ===
/**
  The navigation stack's survivor and obstacle classifiers. Each reading is a
  loosely-typed value (absent readings are `VNone`); a reading is consulted only
  when it is truthy, and a consulted reading must be a dict, since the
  classifiers call `.get` and `.values()` on it.
 */
module SensorHandler {
  import opened PyValue

  /** The two flags a handler remembers from its last classifications. */
  datatype Handler = Handler(survivorDetected: bool, obstacleDetected: bool)

  function NewHandler(): (h: Handler)
    ensures !h.survivorDetected && !h.obstacleDetected
  {
    Handler(false, false)
  }

  /** `reading.get(key, default)` on a reading that has been found truthy. */
  function Probe(reading: Value, key: string, default: Value): (r: Result<Value>)
    ensures reading.VDict? ==> r == Ok(GetOr(reading.entries, key, default))
    ensures !reading.VDict? ==> r == Raise(AttributeError)
  {
    if reading.VDict? then Ok(GetOr(reading.entries, key, default)) else Raise(AttributeError)
  }

  /** `reading and reading.get('distance', 0) < bound`. */
  function Near(reading: Value, bound: real): (r: Result<bool>)
    ensures !Truthy(reading) ==> r == Ok(false)
    ensures Truthy(reading) && !reading.VDict? ==> r == Raise(AttributeError)
    ensures Truthy(reading) && reading.VDict? ==>
      r == LessThan(GetOr(reading.entries, "distance", VNum(0.0)), bound)
  {
    if !Truthy(reading) then Ok(false)
    else
      match Probe(reading, "distance", VNum(0.0))
      case Raise(e) => Raise(e)
      case Ok(d) => LessThan(d, bound)
  }

  /** `reading and reading.get('proximity', 0) > bound`. */
  function Close(reading: Value, bound: real): (r: Result<bool>)
    ensures !Truthy(reading) ==> r == Ok(false)
    ensures Truthy(reading) && !reading.VDict? ==> r == Raise(AttributeError)
    ensures Truthy(reading) && reading.VDict? ==>
      r == GreaterThan(GetOr(reading.entries, "proximity", VNum(0.0)), bound)
  {
    if !Truthy(reading) then Ok(false)
    else
      match Probe(reading, "proximity", VNum(0.0))
      case Raise(e) => Raise(e)
      case Ok(p) => GreaterThan(p, bound)
  }

  /** `reading and reading.get('tag_id', '') == 'survivor_tag'`. */
  function Tagged(reading: Value): (r: Result<bool>)
    ensures r.Ok? <==> !Truthy(reading) || reading.VDict?
    ensures r == Ok(true) <==>
      reading.VDict? && Get(reading.entries, "tag_id") == Some(VStr("survivor_tag"))
  {
    if !Truthy(reading) then Ok(false)
    else
      match Probe(reading, "tag_id", VStr(""))
      case Raise(e) => Raise(e)
      case Ok(t) => Ok(t == VStr("survivor_tag"))
  }

  /** `abs(a) > bound` for one component: `abs` of a non-number raises `TypeError`. */
  function AboveTest(a: Value, bound: real): (r: Result<bool>)
    ensures r.Ok? <==> IsNumeric(a)
    ensures r.Ok? ==> (r.value <==> Abs(NumOf(a)) > bound)
    ensures r.Raise? ==> r.exc == TypeError
  {
    if IsNumeric(a) then Ok(Abs(NumOf(a)) > bound) else Raise(TypeError)
  }

  /** The generator's tests, one per component, in order. */
  function AboveTests(values: seq<Value>, bound: real): (t: seq<Result<bool>>)
    ensures |t| == |values|
    ensures forall k :: 0 <= k < |values| ==> t[k] == AboveTest(values[k], bound)
  {
    if |values| == 0 then [] else [AboveTest(values[0], bound)] + AboveTests(values[1..], bound)
  }

  /**
    `any(abs(a) > bound for a in values)`: stops at the first component above the
    bound; a non-numeric component met before that raises `TypeError`.
   */
  function AnyAbove(values: seq<Value>, bound: real): (r: Result<bool>)
    ensures r == AnyOf(AboveTests(values, bound))
    ensures r == Ok(false) <==>
      forall k :: 0 <= k < |values| ==> IsNumeric(values[k]) && Abs(NumOf(values[k])) <= bound
    ensures r == Ok(true) ==>
      exists k :: 0 <= k < |values| && IsNumeric(values[k]) && Abs(NumOf(values[k])) > bound
    ensures r.Raise? ==> r.exc == TypeError
    ensures r.Raise? ==> exists k :: 0 <= k < |values| && !IsNumeric(values[k])
  {
    if |values| == 0 then Ok(false)
    else if !IsNumeric(values[0]) then Raise(TypeError)
    else if Abs(NumOf(values[0])) > bound then Ok(true)
    else
      var rest := AnyAbove(values[1..], bound);
      assert forall k :: 1 <= k < |values| ==> values[k] == values[1..][k - 1];
      assert AboveTests(values, bound)[1..] == AboveTests(values[1..], bound);
      rest
  }

  /** A non-number ahead of every component above the bound raises, whatever follows it. */
  lemma NonNumberFirstRaises()
    ensures AnyAbove([VStr("a"), VNum(5.0)], 1.0) == Raise(TypeError)
  {
  }

  /** `reading and any(abs(a) > 1.0 for a in reading.values())`. */
  function Shaken(reading: Value): (r: Result<bool>)
    ensures !Truthy(reading) ==> r == Ok(false)
    ensures Truthy(reading) && !reading.VDict? ==> r == Raise(AttributeError)
    ensures Truthy(reading) && reading.VDict? ==> r == AnyAbove(Values(reading.entries), 1.0)
  {
    if !Truthy(reading) then Ok(false)
    else if !reading.VDict? then Raise(AttributeError)
    else AnyAbove(Values(reading.entries), 1.0)
  }

  /** The survivor verdict: the four tests in order, the first true one deciding. */
  function SurvivorVerdict(ultrasonic: Value, ir: Value, rfid: Value, accel: Value): (r: Result<bool>)
    ensures r == AnyOf([Near(ultrasonic, 2.0), Close(ir, 0.5), Tagged(rfid), Shaken(accel)])
  {
    OrChain4(Near(ultrasonic, 2.0), Close(ir, 0.5), Tagged(rfid), Shaken(accel));
    OrElse(Near(ultrasonic, 2.0), OrElse(Close(ir, 0.5), OrElse(Tagged(rfid), Shaken(accel))))
  }

  /** The obstacle verdict: the ultrasonic test, then the IR test, with stricter bounds. */
  function ObstacleVerdict(ultrasonic: Value, ir: Value): (r: Result<bool>)
    ensures r == AnyOf([Near(ultrasonic, 1.0), Close(ir, 0.8)])
  {
    OrChain2(Near(ultrasonic, 1.0), Close(ir, 0.8));
    OrElse(Near(ultrasonic, 1.0), Close(ir, 0.8))
  }

  /**
    `detect_survivor(...)`: the verdict and the handler afterwards. The flag is
    written only when the call returns; an exception leaves the handler as it was.
   */
  function DetectSurvivor(h: Handler, ultrasonic: Value, ir: Value, rfid: Value, accel: Value)
    : (r: Result<(bool, Handler)>)
    ensures r.Ok? <==> SurvivorVerdict(ultrasonic, ir, rfid, accel).Ok?
    ensures r.Ok? ==> r.value.0 == SurvivorVerdict(ultrasonic, ir, rfid, accel).value
    ensures r.Ok? ==> r.value.1 == h.(survivorDetected := r.value.0)
  {
    match SurvivorVerdict(ultrasonic, ir, rfid, accel)
    case Raise(e) => Raise(e)
    case Ok(found) => Ok((found, h.(survivorDetected := found)))
  }

  /** `detect_obstacle(...)`: the verdict and the handler afterwards. */
  function DetectObstacle(h: Handler, ultrasonic: Value, ir: Value): (r: Result<(bool, Handler)>)
    ensures r.Ok? <==> ObstacleVerdict(ultrasonic, ir).Ok?
    ensures r.Ok? ==> r.value.0 == ObstacleVerdict(ultrasonic, ir).value
    ensures r.Ok? ==> r.value.1 == h.(obstacleDetected := r.value.0)
  {
    match ObstacleVerdict(ultrasonic, ir)
    case Raise(e) => Raise(e)
    case Ok(found) => Ok((found, h.(obstacleDetected := found)))
  }

  // ---------------------------------------------------------------------------
  // The strict single-sensor checks: a non-dict is rejected outright.

  function CheckUltrasonic(data: Value): (r: Result<bool>)
    ensures !data.VDict? ==> r == Raise(ValueError)
    ensures data.VDict? ==> r == LessThan(GetOr(data.entries, "distance", VNum(0.0)), 2.0)
  {
    if !data.VDict? then Raise(ValueError)
    else LessThan(GetOr(data.entries, "distance", VNum(0.0)), 2.0)
  }

  function CheckIr(data: Value): (r: Result<bool>)
    ensures !data.VDict? ==> r == Raise(ValueError)
    ensures data.VDict? ==> r == GreaterThan(GetOr(data.entries, "proximity", VNum(0.0)), 0.5)
  {
    if !data.VDict? then Raise(ValueError)
    else GreaterThan(GetOr(data.entries, "proximity", VNum(0.0)), 0.5)
  }

  function CheckRfid(data: Value): (r: Result<bool>)
    ensures r.Raise? <==> !data.VDict?
    ensures r.Raise? ==> r.exc == ValueError
    ensures r == Ok(true) <==> data.VDict? && Get(data.entries, "tag_id") == Some(VStr("survivor_tag"))
  {
    if !data.VDict? then Raise(ValueError)
    else Ok(GetOr(data.entries, "tag_id", VStr("")) == VStr("survivor_tag"))
  }

  function CheckAccelerometer(data: Value): (r: Result<bool>)
    ensures !data.VDict? ==> r == Raise(ValueError)
    ensures data.VDict? ==> r == AnyAbove(Values(data.entries), 1.0)
  {
    if !data.VDict? then Raise(ValueError)
    else AnyAbove(Values(data.entries), 1.0)
  }

  // ---------------------------------------------------------------------------
  // Properties

  /**
    The survivor verdict is true exactly when some test is true and every test
    before it completed with false; it is false exactly when all four complete
    with false.
   */
  lemma SurvivorVerdictCases(ultrasonic: Value, ir: Value, rfid: Value, accel: Value)
    ensures SurvivorVerdict(ultrasonic, ir, rfid, accel) == Ok(true) <==>
      Near(ultrasonic, 2.0) == Ok(true)
      || (Near(ultrasonic, 2.0) == Ok(false) && Close(ir, 0.5) == Ok(true))
      || (Near(ultrasonic, 2.0) == Ok(false) && Close(ir, 0.5) == Ok(false) && Tagged(rfid) == Ok(true))
      || (Near(ultrasonic, 2.0) == Ok(false) && Close(ir, 0.5) == Ok(false) && Tagged(rfid) == Ok(false)
          && Shaken(accel) == Ok(true))
    ensures SurvivorVerdict(ultrasonic, ir, rfid, accel) == Ok(false) <==>
      Near(ultrasonic, 2.0) == Ok(false) && Close(ir, 0.5) == Ok(false)
      && Tagged(rfid) == Ok(false) && Shaken(accel) == Ok(false)
  {
  }

  /** With no readings at all, or only empty ones, no survivor is reported. */
  lemma NothingSensed(ultrasonic: Value, ir: Value, rfid: Value, accel: Value)
    requires !Truthy(ultrasonic) && !Truthy(ir) && !Truthy(rfid) && !Truthy(accel)
    ensures DetectSurvivor(NewHandler(), ultrasonic, ir, rfid, accel) == Ok((false, NewHandler()))
  {
  }

  /** `detect_survivor()` with every argument left at its default. */
  lemma DefaultArgumentsNeverDetect(h: Handler)
    ensures DetectSurvivor(h, VNone, VNone, VNone, VNone) == Ok((false, h.(survivorDetected := false)))
  {
  }

  /** A near reading below 1 m is also below 2 m, and a strong IR return above 0.8 also exceeds 0.5. */
  lemma StricterBounds(ultrasonic: Value, ir: Value)
    ensures Near(ultrasonic, 1.0) == Ok(true) ==> Near(ultrasonic, 2.0) == Ok(true)
    ensures Near(ultrasonic, 1.0).Ok? <==> Near(ultrasonic, 2.0).Ok?
    ensures Close(ir, 0.8) == Ok(true) ==> Close(ir, 0.5) == Ok(true)
  {
  }

  /** For the same readings, an obstacle is always also a survivor. */
  lemma ObstacleImpliesSurvivor(ultrasonic: Value, ir: Value, rfid: Value, accel: Value)
    ensures ObstacleVerdict(ultrasonic, ir) == Ok(true) ==>
      SurvivorVerdict(ultrasonic, ir, rfid, accel) == Ok(true)
  {
    StricterBounds(ultrasonic, ir);
  }

  /** On a non-empty dict the strict checks agree with the survivor tests. */
  lemma ChecksAgreeOnReadings(data: Value)
    requires data.VDict? && Truthy(data)
    ensures CheckUltrasonic(data) == Near(data, 2.0)
    ensures CheckIr(data) == Close(data, 0.5)
    ensures CheckRfid(data) == Tagged(data)
    ensures CheckAccelerometer(data) == Shaken(data)
  {
  }

  /**
    On an empty dict they do not: the strict ultrasonic check treats the missing
    distance as 0 and reports a survivor, while `detect_survivor` skips the falsy
    reading.
   */
  lemma EmptyReadingDisagreement()
    ensures CheckUltrasonic(VDict([])) == Ok(true)
    ensures Near(VDict([]), 2.0) == Ok(false)
  {
  }

  /** One shaken axis is enough: `{'x': 0.2, 'y': -1.5}` counts as movement. */
  lemma ShakenExample()
    ensures Shaken(VDict([("x", VNum(0.2)), ("y", VNum(-1.5))])) == Ok(true)
  {
    var d := [("x", VNum(0.2)), ("y", VNum(-1.5))];
    assert Values(d) == [VNum(0.2), VNum(-1.5)];
  }
}

=== FILE: sensor_payload.dfy ===
/**
  Normalising a sensor payload from the rover service before it reaches the web
  page: every sensor field is brought to the dict shape the page reads, and missing
  fields get defaults. Reading the clock is left to the caller: the current epoch
  seconds and the formatted local time come in as values.

  Each step touches one key and reads only that key (the battery step also reads
  "battery"), so a normalised payload passes through unchanged a second time.
 */
module SensorPayload {
  import opened PyValue

  const Zero := VNum(0.0)

  function XY(x: Value, y: Value): (r: Value)
    ensures r.VDict? && HasKey(r.entries, "x") && HasKey(r.entries, "y")
  {
    var r := VDict([("x", x), ("y", y)]);
    assert r.entries[0].0 == "x" && r.entries[1].0 == "y";
    r
  }

  function XYZ(x: Value, y: Value, z: Value): (r: Value)
    ensures r.VDict? && HasAxes(r.entries)
  {
    var r := VDict([("x", x), ("y", y), ("z", z)]);
    assert r.entries[0].0 == "x" && r.entries[1].0 == "y" && r.entries[2].0 == "z";
    r
  }

  /** A dict holding the single entry `k: v`. */
  function Single(k: string, v: Value): (r: Value)
    ensures r.VDict? && HasKey(r.entries, k) && Get(r.entries, k) == Some(v)
  {
    var r := VDict([(k, v)]);
    assert r.entries[0].0 == k;
    r
  }

  // ---------------------------------------------------------------------------
  // One field at a time

  /** The position field: a dict is kept, a list of two or more becomes {x, y}, anything else {0, 0}. */
  function NormalPosition(v: Option<Value>): (r: Value)
    ensures r.VDict?
    ensures v.Some? && v.value.VDict? ==> r == v.value
    ensures v.Some? && v.value.VList? && |v.value.items| >= 2 ==> r == XY(v.value.items[0], v.value.items[1])
    ensures v.None? || !(v.value.VDict? || (v.value.VList? && |v.value.items| >= 2)) ==> r == XY(Zero, Zero)
  {
    match v
    case None => XY(Zero, Zero)
    case Some(p) =>
      if p.VDict? then p
      else if p.VList? && |p.items| >= 2 then XY(p.items[0], p.items[1])
      else XY(Zero, Zero)
  }

  predicate HasAxes(a: Dict) {
    HasKey(a, "x") && HasKey(a, "y") && HasKey(a, "z")
  }

  /** Adds each missing axis as 0, after the keys already there. */
  function FillAxes(a: Dict): (r: Dict)
    ensures HasAxes(r)
    ensures forall k :: HasKey(a, k) ==> Get(r, k) == Get(a, k)
    ensures forall k :: HasKey(r, k) <==> HasKey(a, k) || k in {"x", "y", "z"}
    ensures forall k :: k in {"x", "y", "z"} && !HasKey(a, k) ==> Get(r, k) == Some(Zero)
    ensures HasAxes(a) ==> r == a
  {
    var a1 := FillAxis(a, "x");
    var a2 := FillAxis(a1, "y");
    FillAxis(a2, "z")
  }

  function FillAxis(a: Dict, k: string): (r: Dict)
    ensures HasKey(r, k)
    ensures forall j :: HasKey(a, j) ==> Get(r, j) == Get(a, j)
    ensures forall j :: HasKey(r, j) <==> HasKey(a, j) || j == k
    ensures !HasKey(a, k) ==> Get(r, k) == Some(Zero)
    ensures HasKey(a, k) ==> r == a
  {
    if HasKey(a, k) then a
    else
      var r := Put(a, k, Zero);
      assert forall j :: HasKey(a, j) ==> Get(r, j) == Get(a, j) by {
        forall j | HasKey(a, j)
          ensures Get(r, j) == Get(a, j)
        {
          GetPutOther(a, k, Zero, j);
        }
      }
      GetPutSame(a, k, Zero);
      r
  }

  /**
    The accelerometer field: a dict gets its missing axes as 0, a number becomes the
    x axis, a list gives up to three axes, anything else all zeros.
   */
  function NormalAccelerometer(v: Option<Value>): (r: Value)
    ensures r.VDict? && HasAxes(r.entries)
    ensures v.Some? && v.value.VDict? ==> r == VDict(FillAxes(v.value.entries))
    ensures v.Some? && IsNumeric(v.value) ==> r == XYZ(v.value, Zero, Zero)
    ensures v.Some? && v.value.VList? ==>
      r == XYZ(Element(v.value.items, 0, Zero), Element(v.value.items, 1, Zero), Element(v.value.items, 2, Zero))
    ensures v.None? || !(v.value.VDict? || IsNumeric(v.value) || v.value.VList?) ==> r == XYZ(Zero, Zero, Zero)
  {
    match v
    case None => XYZ(Zero, Zero, Zero)
    case Some(a) =>
      if a.VDict? then VDict(FillAxes(a.entries))
      else if IsNumeric(a) then XYZ(a, Zero, Zero)
      else if a.VList? then XYZ(Element(a.items, 0, Zero), Element(a.items, 1, Zero), Element(a.items, 2, Zero))
      else XYZ(Zero, Zero, Zero)
  }

  /** The shape the page reads: a detection flag is present whenever a distance is. */
  predicate UltrasonicShape(u: Dict) {
    HasKey(u, "detection") || !HasKey(u, "distance")
  }

  /** {distance: None, detection: False}. */
  function NoEcho(): (r: Value)
    ensures r.VDict? && UltrasonicShape(r.entries)
  {
    var r := VDict([("distance", VNone), ("detection", VBool(false))]);
    assert r.entries[1].0 == "detection";
    r
  }

  /** {distance: x, detection: x < 100}. */
  function Echo(x: real): (r: Value)
    ensures r.VDict? && UltrasonicShape(r.entries)
  {
    var r := VDict([("distance", VNum(x)), ("detection", VBool(x < 100.0))]);
    assert r.entries[1].0 == "detection";
    r
  }

  /**
    The ultrasonic field. A dict with a distance but no detection flag gets
    `detection = distance < 100` (False for a `None` distance); `None` or a missing
    field means no echo; any other value goes through `float()`.
   */
  function NormalUltrasonic(v: Option<Value>): (r: Result<Value>)
    ensures r.Ok? ==> r.value.VDict? && UltrasonicShape(r.value.entries)
    ensures v.Some? && v.value.VDict? && UltrasonicShape(v.value.entries) ==> r == Ok(v.value)
    ensures v.None? || (v.Some? && v.value.VNone?) ==> r == Ok(NoEcho())
    ensures v.Some? && !v.value.VDict? && !v.value.VNone? ==>
      match ToFloat(v.value)
      case Ok(x) => r == Ok(Echo(x))
      case Raise(e) => r == Raise(e)
    ensures v.Some? && v.value.VDict? && !UltrasonicShape(v.value.entries) ==>
      var distance := Get(v.value.entries, "distance").value;
      && (r.Raise? <==> !distance.VNone? && !IsNumeric(distance))
      && (r.Raise? ==> r.exc == TypeError)
      && (r.Ok? ==> r.value.entries == Put(v.value.entries, "detection",
                                           VBool(!distance.VNone? && NumOf(distance) < 100.0)))
  {
    match v
    case None => Ok(NoEcho())
    case Some(u) =>
      if u.VDict? then
        if UltrasonicShape(u.entries) then Ok(u)
        else
          var distance := Get(u.entries, "distance").value;
          if distance.VNone? then
            GetPutSame(u.entries, "detection", VBool(false));
            Ok(VDict(Put(u.entries, "detection", VBool(false))))
          else
            match LessThan(distance, 100.0)
            case Ok(near) =>
              GetPutSame(u.entries, "detection", VBool(near));
              Ok(VDict(Put(u.entries, "detection", VBool(near))))
            case Raise(e) => Raise(e)
      else if u.VNone? then Ok(NoEcho())
      else
        match ToFloat(u)
        case Ok(x) => Ok(Echo(x))
        case Raise(e) => Raise(e)
  }

  /**
    The IR field: a non-dict becomes {reflection: bool(value)}; a dict without a
    reflection flag takes the truthiness of its first value, and an empty one makes
    `next(iter(...))` raise StopIteration.
   */
  function NormalIr(v: Option<Value>): (r: Result<Value>)
    ensures r.Ok? ==> r.value.VDict? && HasKey(r.value.entries, "reflection")
    ensures r.Raise? <==> v.Some? && v.value == VDict([])
    ensures r.Raise? ==> r.exc == StopIteration
    ensures v.Some? && !v.value.VDict? ==> r == Ok(Single("reflection", VBool(Truthy(v.value))))
    ensures v.Some? && v.value.VDict? && HasKey(v.value.entries, "reflection") ==> r == Ok(v.value)
    ensures v.None? ==> r == Ok(Single("reflection", VBool(false)))
    ensures v.Some? && v.value.VDict? && !HasKey(v.value.entries, "reflection") && |v.value.entries| > 0 ==>
      r == Ok(VDict(Put(v.value.entries, "reflection", VBool(Truthy(v.value.entries[0].1)))))
  {
    match v
    case None => Ok(Single("reflection", VBool(false)))
    case Some(i) =>
      if !i.VDict? then Ok(Single("reflection", VBool(Truthy(i))))
      else if HasKey(i.entries, "reflection") then Ok(i)
      else if |i.entries| == 0 then Raise(StopIteration)
      else
        GetPutSame(i.entries, "reflection", VBool(Truthy(i.entries[0].1)));
        Ok(VDict(Put(i.entries, "reflection", VBool(Truthy(i.entries[0].1)))))
  }

  /**
    The RFID field: a non-dict becomes {tag_detected: bool(value), tag_id: the value
    if it is a string, else None}; a dict without tag_detected takes the truthiness
    of its first value, False when it is empty.
   */
  function NormalRfid(v: Option<Value>): (r: Value)
    ensures r.VDict? && HasKey(r.entries, "tag_detected")
    ensures v.Some? && !v.value.VDict? ==>
      r == VDict([("tag_detected", VBool(Truthy(v.value))), ("tag_id", if v.value.VStr? then v.value else VNone)])
    ensures v.Some? && v.value.VDict? && HasKey(v.value.entries, "tag_detected") ==> r == v.value
    ensures v.Some? && v.value.VDict? && !HasKey(v.value.entries, "tag_detected") ==>
      Get(r.entries, "tag_detected") ==
        Some(VBool(|v.value.entries| > 0 && Truthy(v.value.entries[0].1)))
    ensures v.Some? && v.value.VDict? && !HasKey(v.value.entries, "tag_detected") ==>
      r.entries == Put(v.value.entries, "tag_detected", VBool(|v.value.entries| > 0 && Truthy(v.value.entries[0].1)))
    ensures v.None? ==> r == Single("tag_detected", VBool(false))
  {
    match v
    case None => Single("tag_detected", VBool(false))
    case Some(t) =>
      if !t.VDict? then
        var r := VDict([("tag_detected", VBool(Truthy(t))), ("tag_id", if t.VStr? then t else VNone)]);
        assert r.entries[0].0 == "tag_detected";
        r
      else if HasKey(t.entries, "tag_detected") then t
      else
        var flag := VBool(|t.entries| > 0 && Truthy(t.entries[0].1));
        GetPutSame(t.entries, "tag_detected", flag);
        VDict(Put(t.entries, "tag_detected", flag))
  }

  // ---------------------------------------------------------------------------
  // Steps over the payload's top-level fields

  /** The top-level field names the normalisation reads or writes, and every other name. */
  datatype Key =
    | Battery | BatteryLevel | Position | Accelerometer | Ultrasonic | Ir | Rfid
    | Timestamp | ReadableTime | Recharging
    | Other(name: string)

  function KeyName(k: Key): string {
    match k
    case Battery => "battery"
    case BatteryLevel => "battery_level"
    case Position => "position"
    case Accelerometer => "accelerometer"
    case Ultrasonic => "ultrasonic"
    case Ir => "ir"
    case Rfid => "rfid"
    case Timestamp => "timestamp"
    case ReadableTime => "readable_time"
    case Recharging => "recharging"
    case Other(name) => name
  }

  /** The key a field name stands for; it names that field back. */
  function KeyOf(s: string): (k: Key)
    ensures KeyName(k) == s
  {
    if s == "battery" then Battery
    else if s == "battery_level" then BatteryLevel
    else if s == "position" then Position
    else if s == "accelerometer" then Accelerometer
    else if s == "ultrasonic" then Ultrasonic
    else if s == "ir" then Ir
    else if s == "rfid" then Rfid
    else if s == "timestamp" then Timestamp
    else if s == "readable_time" then ReadableTime
    else if s == "recharging" then Recharging
    else Other(s)
  }

  /** The payload's top-level fields; their order is not modelled. */
  type Fields = map<Key, Value>

  /** A decoded payload dict as fields; the first occurrence of a name wins. */
  function ToFields(d: Dict): (r: Fields)
    ensures forall s :: KeyOf(s) in r <==> HasKey(d, s)
    ensures forall s :: KeyOf(s) in r ==> Get(d, s) == Some(r[KeyOf(s)])
  {
    if |d| == 0 then map[]
    else
      var rest := ToFields(d[1..]);
      forall s | s != d[0].0
        ensures Get(d, s) == Get(d[1..], s)
        ensures HasKey(d, s) <==> HasKey(d[1..], s)
      {
        GetTail(d, s);
      }
      assert forall s :: KeyOf(s) == KeyOf(d[0].0) ==> s == d[0].0 by {
        forall s | KeyOf(s) == KeyOf(d[0].0) ensures s == d[0].0 {
          assert KeyName(KeyOf(s)) == s;
        }
      }
      rest[KeyOf(d[0].0) := d[0].1]
  }

  /** `payload.get(k)`. */
  function Field(m: Fields, k: Key): (r: Option<Value>)
    ensures r.Some? <==> k in m
    ensures r.Some? ==> r.value == m[k]
  {
    if k in m then Some(m[k]) else None
  }

  /** Every field but `k` is as it was, present or absent alike. */
  ghost predicate Keeps(m: Fields, r: Fields, k: Key) {
    forall j {:trigger Field(r, j)} :: j != k ==> Field(r, j) == Field(m, j)
  }

  /**
    Which stage writes a field: 1 the battery, position and accelerometer steps, 2 the
    ultrasonic and IR steps, 3 the RFID step and the defaults, 0 none.
   */
  function Stage(k: Key): nat {
    match k
    case BatteryLevel | Position | Accelerometer => 1
    case Ultrasonic | Ir => 2
    case Rfid | Timestamp | ReadableTime | Recharging => 3
    case Battery | Other(_) => 0
  }

  /** Every field that stage `n` does not write is as it was. */
  ghost predicate KeepsStage(m: Fields, r: Fields, n: nat) {
    forall j {:trigger Field(r, j)} :: Stage(j) != n ==> Field(r, j) == Field(m, j)
  }

  /** The web page's `battery_level` mirrors `battery` whenever the latter is present. */
  function BatteryStep(m: Fields): (r: Fields)
    ensures Keeps(m, r, BatteryLevel)
    ensures Battery in m ==> Field(r, BatteryLevel) == Field(m, Battery)
    ensures Battery !in m ==> r == m
  {
    if Battery in m then m[BatteryLevel := m[Battery]] else m
  }

  function PositionStep(m: Fields): (r: Fields)
    ensures Keeps(m, r, Position)
    ensures Field(r, Position) == Some(NormalPosition(Field(m, Position)))
  {
    m[Position := NormalPosition(Field(m, Position))]
  }

  function AccelerometerStep(m: Fields): (r: Fields)
    ensures Keeps(m, r, Accelerometer)
    ensures Field(r, Accelerometer) == Some(NormalAccelerometer(Field(m, Accelerometer)))
  {
    m[Accelerometer := NormalAccelerometer(Field(m, Accelerometer))]
  }

  function UltrasonicStep(m: Fields): (r: Result<Fields>)
    ensures r.Raise? <==> NormalUltrasonic(Field(m, Ultrasonic)).Raise?
    ensures r.Raise? ==> r.exc == NormalUltrasonic(Field(m, Ultrasonic)).exc
    ensures r.Ok? ==> Keeps(m, r.value, Ultrasonic)
    ensures r.Ok? ==> Ultrasonic in r.value && NormalUltrasonic(Field(m, Ultrasonic)) == Ok(r.value[Ultrasonic])
  {
    match NormalUltrasonic(Field(m, Ultrasonic))
    case Raise(e) => Raise(e)
    case Ok(v) => Ok(m[Ultrasonic := v])
  }

  function IrStep(m: Fields): (r: Result<Fields>)
    ensures r.Raise? <==> NormalIr(Field(m, Ir)).Raise?
    ensures r.Raise? ==> r.exc == StopIteration
    ensures r.Ok? ==> Keeps(m, r.value, Ir)
    ensures r.Ok? ==> Ir in r.value && NormalIr(Field(m, Ir)) == Ok(r.value[Ir])
  {
    match NormalIr(Field(m, Ir))
    case Raise(e) => Raise(e)
    case Ok(v) => Ok(m[Ir := v])
  }

  function RfidStep(m: Fields): (r: Fields)
    ensures Keeps(m, r, Rfid)
    ensures Field(r, Rfid) == Some(NormalRfid(Field(m, Rfid)))
  {
    m[Rfid := NormalRfid(Field(m, Rfid))]
  }

  /** `if key not in payload: payload[key] = value`. */
  function Default(m: Fields, k: Key, value: Value): (r: Fields)
    ensures Keeps(m, r, k) && k in r
    ensures k in m ==> r == m
    ensures k !in m ==> r[k] == value
  {
    if k in m then m else m[k := value]
  }

  // ---------------------------------------------------------------------------
  // The whole payload

  predicate PositionShaped(v: Option<Value>) {
    v.Some? && v.value.VDict?
  }

  predicate AccelerometerShaped(v: Option<Value>) {
    v.Some? && v.value.VDict? && HasAxes(v.value.entries)
  }

  predicate UltrasonicShaped(v: Option<Value>) {
    v.Some? && v.value.VDict? && UltrasonicShape(v.value.entries)
  }

  predicate IrShaped(v: Option<Value>) {
    v.Some? && v.value.VDict? && HasKey(v.value.entries, "reflection")
  }

  predicate RfidShaped(v: Option<Value>) {
    v.Some? && v.value.VDict? && HasKey(v.value.entries, "tag_detected")
  }

  /** The battery, position and accelerometer fields in shape. */
  predicate Prepared(m: Fields) {
    && (Battery in m ==> BatteryLevel in m && m[BatteryLevel] == m[Battery])
    && PositionShaped(Field(m, Position))
    && AccelerometerShaped(Field(m, Accelerometer))
  }

  /** The ultrasonic and IR fields in shape. */
  predicate Sensed(m: Fields) {
    UltrasonicShaped(Field(m, Ultrasonic)) && IrShaped(Field(m, Ir))
  }

  /** The RFID field in shape and the three defaulted fields present. */
  predicate Stamped(m: Fields) {
    RfidShaped(Field(m, Rfid)) && Timestamp in m && ReadableTime in m && Recharging in m
  }

  /** Every field in the shape the page reads. */
  predicate Normalised(m: Fields) {
    Prepared(m) && Sensed(m) && Stamped(m)
  }

  lemma PreparedKept(a: Fields, b: Fields, n: nat)
    requires Prepared(a) && KeepsStage(a, b, n) && n != 0 && n != 1
    ensures Prepared(b)
  {
    assert Field(b, Battery) == Field(a, Battery);
    assert Field(b, BatteryLevel) == Field(a, BatteryLevel);
    assert Field(b, Position) == Field(a, Position);
    assert Field(b, Accelerometer) == Field(a, Accelerometer);
  }

  lemma SensedKept(a: Fields, b: Fields, n: nat)
    requires Sensed(a) && KeepsStage(a, b, n) && n != 2
    ensures Sensed(b)
  {
    assert Field(b, Ultrasonic) == Field(a, Ultrasonic);
    assert Field(b, Ir) == Field(a, Ir);
  }

  /** The three stages together leave every field in shape. */
  lemma Assemble(m1: Fields, m2: Fields, r: Fields)
    requires Prepared(m1) && KeepsStage(m1, m2, 2) && Sensed(m2)
    requires Stamped(r) && KeepsStage(m2, r, 3)
    ensures Normalised(r)
  {
    PreparedKept(m1, m2, 2);
    PreparedKept(m2, r, 3);
    SensedKept(m2, r, 3);
  }

  /** The three steps that cannot fail. */
  function Prepare(m: Fields): (r: Fields)
    ensures Prepared(r)
    ensures KeepsStage(m, r, 1)
    ensures PreparedFrom(m, r)
  {
    var m1 := BatteryStep(m);
    var m2 := PositionStep(m1);
    assert Battery in m2 ==> BatteryLevel in m2 && m2[BatteryLevel] == m2[Battery] by {
      assert Field(m2, Battery) == Field(m1, Battery) == Field(m, Battery);
      assert Field(m2, BatteryLevel) == Field(m1, BatteryLevel);
    }
    var m3 := AccelerometerStep(m2);
    KeepsWithinStage(m, m1, BatteryLevel);
    KeepsWithinStage(m1, m2, Position);
    KeepsWithinStage(m2, m3, Accelerometer);
    KeepsStageTrans(m, m1, m2, 1);
    KeepsStageTrans(m, m2, m3, 1);
    assert Field(m3, BatteryLevel) == Field(m1, BatteryLevel);
    assert Field(m1, Position) == Field(m, Position);
    assert Field(m2, Accelerometer) == Field(m, Accelerometer);
    m3
  }

  /** The ultrasonic and IR steps, either of which may raise. */
  function Sense(m: Fields): (r: Result<Fields>)
    ensures r.Raise? <==> NormalUltrasonic(Field(m, Ultrasonic)).Raise? || NormalIr(Field(m, Ir)).Raise?
    ensures r.Raise? ==> r.exc == (if NormalUltrasonic(Field(m, Ultrasonic)).Raise?
                                   then NormalUltrasonic(Field(m, Ultrasonic)).exc else StopIteration)
    ensures r.Ok? ==> KeepsStage(m, r.value, 2) && Sensed(r.value)
    ensures r.Ok? ==> SensedFrom(m, r.value)
  {
    match UltrasonicStep(m)
    case Raise(e) => Raise(e)
    case Ok(m1) =>
      assert Field(m1, Ir) == Field(m, Ir);
      match IrStep(m1)
      case Raise(e) => Raise(e)
      case Ok(m2) =>
        assert Field(m2, Ultrasonic) == Field(m1, Ultrasonic);
        KeepsWithinStage(m, m1, Ultrasonic);
        KeepsWithinStage(m1, m2, Ir);
        KeepsStageTrans(m, m1, m2, 2);
        Ok(m2)
  }

  /** The RFID step and the three defaults. */
  function Finish(m: Fields, now: Value, readableTime: Value): (r: Fields)
    ensures Stamped(r)
    ensures KeepsStage(m, r, 3)
    ensures FinishedFrom(m, r, now, readableTime)
  {
    var m1 := RfidStep(m);
    var m2 := Default(m1, Timestamp, now);
    var m3 := Default(m2, ReadableTime, readableTime);
    var m4 := Default(m3, Recharging, VBool(false));
    assert Field(m4, Rfid) == Field(m1, Rfid);
    assert Timestamp in m4 && ReadableTime in m4 by {
      assert Field(m4, Timestamp) == Field(m2, Timestamp);
      assert Field(m4, ReadableTime) == Field(m3, ReadableTime);
    }
    KeepsWithinStage(m, m1, Rfid);
    KeepsWithinStage(m1, m2, Timestamp);
    KeepsWithinStage(m2, m3, ReadableTime);
    KeepsWithinStage(m3, m4, Recharging);
    KeepsStageTrans(m, m1, m2, 3);
    KeepsStageTrans(m, m2, m3, 3);
    KeepsStageTrans(m, m3, m4, 3);
    assert Field(m4, Timestamp) == Field(m2, Timestamp);
    assert Field(m4, ReadableTime) == Field(m3, ReadableTime);
    m4
  }

  /** `r` holds what the first stage writes for `m`: the battery mirror and the normal position and accelerometer. */
  predicate PreparedFrom(m: Fields, r: Fields) {
    && Field(r, BatteryLevel) == (if Battery in m then Field(m, Battery) else Field(m, BatteryLevel))
    && Field(r, Position) == Some(NormalPosition(Field(m, Position)))
    && Field(r, Accelerometer) == Some(NormalAccelerometer(Field(m, Accelerometer)))
  }

  /** `r` holds the normal ultrasonic and IR fields of `m`. */
  predicate SensedFrom(m: Fields, r: Fields) {
    && Ultrasonic in r && NormalUltrasonic(Field(m, Ultrasonic)) == Ok(r[Ultrasonic])
    && Ir in r && NormalIr(Field(m, Ir)) == Ok(r[Ir])
  }

  /** `r` holds the normal RFID field of `m`, and each default where `m` had no such field. */
  predicate FinishedFrom(m: Fields, r: Fields, now: Value, readableTime: Value) {
    && Field(r, Rfid) == Some(NormalRfid(Field(m, Rfid)))
    && Field(r, Timestamp) == Some(if Timestamp in m then m[Timestamp] else now)
    && Field(r, ReadableTime) == Some(if ReadableTime in m then m[ReadableTime] else readableTime)
    && Field(r, Recharging) == Some(if Recharging in m then m[Recharging] else VBool(false))
  }

  /** `r` holds everything the normalisation writes for `m`. */
  predicate NormalOf(m: Fields, r: Fields, now: Value, readableTime: Value) {
    PreparedFrom(m, r) && SensedFrom(m, r) && FinishedFrom(m, r, now, readableTime)
  }

  /**
    The field normalisation of `get_sensor_data`, in the order the code applies it,
    on a payload already known to be a dict.
   */
  function NormaliseFields(m: Fields, now: Value, readableTime: Value): (r: Result<Fields>)
    ensures r.Ok? ==> Normalised(r.value) && NormalOf(m, r.value, now, readableTime)
  {
    var m1 := Prepare(m);
    match Sense(m1)
    case Raise(e) => Raise(e)
    case Ok(m2) =>
      var r := Finish(m2, now, readableTime);
      Assemble(m1, m2, r);
      StagesCompose(m, m1, m2, r, now, readableTime);
      Ok(r)
  }

  /** The value each stage writes survives the later stages, and each stage reads fields the earlier ones left alone. */
  lemma StagesCompose(m: Fields, m1: Fields, m2: Fields, r: Fields, now: Value, readableTime: Value)
    requires PreparedFrom(m, m1) && KeepsStage(m, m1, 1)
    requires SensedFrom(m1, m2) && KeepsStage(m1, m2, 2)
    requires FinishedFrom(m2, r, now, readableTime) && KeepsStage(m2, r, 3)
    ensures NormalOf(m, r, now, readableTime)
  {
    PreparedFromKept(m, m1, m2, 2);
    PreparedFromKept(m, m2, r, 3);
    Kept(m, m1, 1, Ultrasonic);
    Kept(m, m1, 1, Ir);
    SensedFromKept(m, m2, r, 3);
    FinishedFromSource(m1, m2, r, 2, now, readableTime);
    FinishedFromSource(m, m1, r, 1, now, readableTime);
  }

  lemma PreparedFromKept(m: Fields, a: Fields, b: Fields, n: nat)
    requires PreparedFrom(m, a) && KeepsStage(a, b, n) && n != 1
    ensures PreparedFrom(m, b)
  {
    Kept(a, b, n, BatteryLevel);
    Kept(a, b, n, Position);
    Kept(a, b, n, Accelerometer);
  }

  lemma SensedFromKept(m: Fields, a: Fields, b: Fields, n: nat)
    requires SensedFrom(m, a) && KeepsStage(a, b, n) && n != 2
    ensures SensedFrom(m, b)
  {
    Kept(a, b, n, Ultrasonic);
    Kept(a, b, n, Ir);
  }

  lemma FinishedFromSource(a: Fields, b: Fields, r: Fields, n: nat, now: Value, readableTime: Value)
    requires FinishedFrom(b, r, now, readableTime) && KeepsStage(a, b, n) && n != 3
    ensures FinishedFrom(a, r, now, readableTime)
  {
    Kept(a, b, n, Rfid);
    Kept(a, b, n, Timestamp);
    Kept(a, b, n, ReadableTime);
    Kept(a, b, n, Recharging);
  }

  /** Which payloads make the request fail, and with which exception. */
  lemma NormaliseFieldsRaises(m: Fields, now: Value, readableTime: Value)
    ensures var r := NormaliseFields(m, now, readableTime);
      && (r.Raise? <==> NormalUltrasonic(Field(m, Ultrasonic)).Raise? || NormalIr(Field(m, Ir)).Raise?)
      && (r.Raise? ==> r.exc == (if NormalUltrasonic(Field(m, Ultrasonic)).Raise?
                                 then NormalUltrasonic(Field(m, Ultrasonic)).exc else StopIteration))
  {
    var m1 := Prepare(m);
    assert Field(m1, Ultrasonic) == Field(m, Ultrasonic);
    assert Field(m1, Ir) == Field(m, Ir);
  }

  /** Only the normalised fields and the defaults change: `battery` and every unknown field pass through. */
  lemma NormaliseFieldsKeeps(m: Fields, now: Value, readableTime: Value, k: Key)
    requires NormaliseFields(m, now, readableTime).Ok?
    requires Stage(k) == 0
    ensures Field(NormaliseFields(m, now, readableTime).value, k) == Field(m, k)
  {
    var m1 := Prepare(m);
    var m2 := Sense(m1).value;
    Kept(m, m1, 1, k);
    Kept(m1, m2, 2, k);
    Kept(m2, Finish(m2, now, readableTime), 3, k);
  }

  lemma PrepareFixed(m: Fields)
    requires Prepared(m)
    ensures Prepare(m) == m
  {
    assert BatteryStep(m) == m;
    assert PositionStep(m) == m;
    assert AccelerometerStep(m) == m;
  }

  lemma SenseFixed(m: Fields)
    requires UltrasonicShaped(Field(m, Ultrasonic)) && IrShaped(Field(m, Ir))
    ensures Sense(m) == Ok(m)
  {
    assert m[Ultrasonic := m[Ultrasonic]] == m;
    assert UltrasonicStep(m) == Ok(m);
    assert m[Ir := m[Ir]] == m;
    assert IrStep(m) == Ok(m);
  }

  lemma FinishFixed(m: Fields, now: Value, readableTime: Value)
    requires RfidShaped(Field(m, Rfid)) && Timestamp in m && ReadableTime in m && Recharging in m
    ensures Finish(m, now, readableTime) == m
  {
    assert RfidStep(m) == m;
  }

  /** A normalised payload goes through every step unchanged. */
  lemma NormalisedFixed(m: Fields, now: Value, readableTime: Value)
    requires Normalised(m)
    ensures NormaliseFields(m, now, readableTime) == Ok(m)
  {
    PrepareFixed(m);
    SenseFixed(m);
    FinishFixed(m, now, readableTime);
  }

  /** Normalising twice is normalising once. */
  lemma NormaliseIdempotent(m: Fields, now: Value, readableTime: Value)
    requires NormaliseFields(m, now, readableTime).Ok?
    ensures NormaliseFields(NormaliseFields(m, now, readableTime).value, now, readableTime) == NormaliseFields(m, now, readableTime)
  {
    NormalisedFixed(NormaliseFields(m, now, readableTime).value, now, readableTime);
  }

  /**
    `get_sensor_data` on a decoded payload: a payload that is not a dict makes the
    first item assignment raise TypeError; a dict is normalised field by field.
   */
  function Normalise(payload: Value, now: Value, readableTime: Value): (r: Result<Fields>)
    ensures !payload.VDict? ==> r == Raise(TypeError)
    ensures payload.VDict? ==>
      (r.Raise? <==> NormalUltrasonic(Get(payload.entries, "ultrasonic")).Raise? || NormalIr(Get(payload.entries, "ir")).Raise?)
    ensures payload.VDict? && r.Raise? ==>
      r.exc == (if NormalUltrasonic(Get(payload.entries, "ultrasonic")).Raise?
                then NormalUltrasonic(Get(payload.entries, "ultrasonic")).exc else StopIteration)
    ensures payload.VDict? && r.Ok? ==>
      Normalised(r.value) && NormalOf(ToFields(payload.entries), r.value, now, readableTime)
    ensures payload.VDict? && r.Ok? ==>
      && r.value[Position] == NormalPosition(Get(payload.entries, "position"))
      && r.value[Accelerometer] == NormalAccelerometer(Get(payload.entries, "accelerometer"))
      && NormalUltrasonic(Get(payload.entries, "ultrasonic")) == Ok(r.value[Ultrasonic])
      && NormalIr(Get(payload.entries, "ir")) == Ok(r.value[Ir])
      && r.value[Rfid] == NormalRfid(Get(payload.entries, "rfid"))
  {
    if !payload.VDict? then Raise(TypeError)
    else
      var m := ToFields(payload.entries);
      PayloadField(payload.entries, "position", Position);
      PayloadField(payload.entries, "accelerometer", Accelerometer);
      PayloadField(payload.entries, "ultrasonic", Ultrasonic);
      PayloadField(payload.entries, "ir", Ir);
      PayloadField(payload.entries, "rfid", Rfid);
      NormaliseFieldsRaises(m, now, readableTime);
      NormaliseFields(m, now, readableTime)
  }

  /** The field a key names is the dict's entry under that name. */
  lemma PayloadField(d: Dict, s: string, k: Key)
    requires KeyOf(s) == k
    ensures Field(ToFields(d), k) == Get(d, s)
  {
  }

  /** A field of the payload that no step rewrites reaches the page unchanged. */
  lemma NormaliseKeepsOthers(payload: Value, now: Value, readableTime: Value, k: string)
    requires Normalise(payload, now, readableTime).Ok?
    requires HasKey(payload.entries, k) && Stage(KeyOf(k)) == 0
    ensures KeyOf(k) in Normalise(payload, now, readableTime).value
    ensures Some(Normalise(payload, now, readableTime).value[KeyOf(k)]) == Get(payload.entries, k)
  {
    var m := ToFields(payload.entries);
    var key := KeyOf(k);
    assert key in m && Get(payload.entries, k) == Some(m[key]);
    NormaliseFieldsKeeps(m, now, readableTime, key);
  }

  /** A step that keeps every field but `k` keeps every field outside `k`'s stage. */
  lemma KeepsWithinStage(m: Fields, r: Fields, k: Key)
    requires Keeps(m, r, k)
    ensures KeepsStage(m, r, Stage(k))
  {
  }

  lemma KeepsStageTrans(a: Fields, b: Fields, c: Fields, n: nat)
    requires KeepsStage(a, b, n) && KeepsStage(b, c, n)
    ensures KeepsStage(a, c, n)
  {
  }

  lemma Kept(m: Fields, r: Fields, n: nat, k: Key)
    requires KeepsStage(m, r, n) && Stage(k) != n
    ensures Field(r, k) == Field(m, k)
  {
  }
}
